=== FILE: README.md ===
# dotenv.php parser — a Dafny model

This project models the parser of `net\lapaphp\dotenv`, a PHP reader of
`.env` files. `DotenvParser::parse` turns the text of an env file into an
ordered map from variable names to values. Its helper class `StrObject`
(`Strk`) supplies the multibyte string primitives the parser is built from.

The parser works in four stages:

- **Lines.** It normalises `\r\n` and `\r` to `\n` and splits the content
  into physical lines.
- **Scanning.** It scans each line with a small state machine: unquoted,
  double-quoted or single-quoted text, backslash escapes, `;` and blank
  separators, and `#` comments.
- **Collecting.** It collects, per key, a list of fragments `(text, resolve)`.
  A quoted value may run over several lines. An unquoted `\` at the end of a
  line continues the value on the next line.
- **Assembly.** It collapses blank fragments, then resolves `$NAME`,
  `${NAME}` and `${NAME:-default}` references against the variables already
  known. The result is stored in the parser's environment, in insertion order.

Modules:

| module | file | models |
|---|---|---|
| `Wrappers` | `wrappers.dfy` | `Option` and `Result` |
| `StrObject` | `str_object.dfy` | the `Strk` string primitives: trimming, search, `after`/`before`, `explode`, `lines`, `toUnix`, `append` |
| `Types` | `types.dfy` | value fragments, the error kinds and their messages |
| `OrderedMap` | `ordered_map.dfy` | PHP ordered arrays as key/value sequences |
| `Scanner` | `scanner.dfy` | `parseLine`, the character state machine |
| `Reducer` | `reducer.dfy` | `reduceWhitespaces` |
| `Resolver` | `resolver.dfy` | `resolve`, `resolveRecursive` and `unwrap` |
| `Driver` | `driver.dfy` | `toLines`, the `parse` loop and the parser's state between calls |
| `ParseFacts` | `parse_facts.dfy` | end-to-end properties of `parse` |

## Modelling choices

**Parser state**
- The parser object's mutable state is a `Parser` value that `Parse` takes
  and returns. Its fields are the environment, the quote state and the
  escape flag.
- A failed parse keeps the quote and escape state it reached, as the PHP
  object does.
- An environment partly updated before a substitution error stays updated.

**The loop**
- The physical line number is the loop index plus one.
- `Broken quotes` is reported at one past the last line. That is where
  `curLineNum` stands once the line generator is exhausted.
- The loop and each inner `do … while` run on a `fuel` bound.
  - Running out of fuel ends the parse with `OutOfFuel`.
  - Two inputs provably use it up whatever the fuel, because the PHP loop
    never ends on them.
    - In a quoted state, a line that starts with `#` and ends with a blank.
      `charAt(-1)` reads the line's last character, so the comment test
      never consumes anything.
    - An assignment `k=` followed by a lone NUL or vertical-tab character.
      The line's own `trimLeft(" \t")` keeps it, so the line never becomes
      empty. But `isWhitespaces`, whose `ltrim` uses PHP's default list,
      counts it as a blank, so `parseLine` stops at it without consuming it.
      The same line comes back on every iteration.

**Strings**
- Strings are sequences of characters (code points). This agrees with PHP when the content is valid UTF-8 and mbstring's internal encoding is UTF-8. Then the byte-wise calls (`trim`, `ltrim`, `explode`, `strpos`, `$str[0]`, `substr(-1)`, the regexes without `/u`) agree with the `mb_*` character counts, because every delimiter they look for is ASCII. Invalid UTF-8, where `mb_substr` may group an ASCII byte into a multi-byte character, is not modelled.

**Values**
- `lastKey` starts as the empty key. PHP reads an undefined variable there
  and warns.
- A fragment whose text is `""` or `"0"` is not stored, because PHP tests it
  for truthiness. So `A=0` yields `A` = `""`.
- `reduceWhitespaces` turns an empty fragment list into `['', false]`.
  Destructuring that reads as the empty value, so it is modelled as the
  single fragment `("", false)`.
- The `array_slice` call passes an end index where PHP expects a length.
  This is reproduced as written.
- The reference patterns use PCRE `\w`, modelled as ASCII letters, digits and
  `_`.
- `~(\${.+})~` is greedy: one match runs from the first `${` to the last `}`
  before a line break.

## Model

| member | source | states |
|---|---|---|
| StrObject.TrimLeftBy | src/StrObject.php:219-223 | the result is a suffix of the input; everything removed is in the character list, and the result does not start with one |
| StrObject.TrimRightBy | src/StrObject.php:231-235 | the result is a prefix of the input; everything removed is in the list, and the result does not end with one |
| StrObject.TrimBy | src/StrObject.php:207-211 | the result is a contiguous slice; everything cut on either side is in the list; neither end of a non-empty result is in the list |
| StrObject.TrimLeftIdempotent | src/StrObject.php:219-223 | trimming the left twice equals trimming once |
| StrObject.TrimRightIdempotent | src/StrObject.php:231-235 | trimming the right twice equals trimming once |
| StrObject.TrimIdempotent | src/StrObject.php:207-211 | trimming twice equals trimming once |
| StrObject.TrimKeepsSubstance | src/StrObject.php:207-211 | a string with a character outside the list never trims to empty |
| StrObject.TrimEmptyIff | src/StrObject.php:207-211 | trimming leaves nothing exactly when every character is in the list |
| StrObject.TrimByUnchanged | src/StrObject.php:207-211 | a string whose two ends are outside the list is left unchanged |
| StrObject.ZeroListIsDefault | src/StrObject.php:207-235 | `trim`, `trimLeft` and `trimRight` (`Trim`, `TrimLeft`, `TrimRight`) test the list for truthiness: `"0"` and `""` both select PHP's default trim characters |
| StrObject.WhitespaceChar | src/StrObject.php:355-358 | a one-character string is whitespace exactly when the character is a default trim character |
| StrObject.IsWhitespaces | src/StrObject.php:355-358 | true exactly when every character is one of PHP's default trim characters |
| StrObject.Substr | src/StrObject.php:146-155 | an in-range start and length select exactly that slice; a start past the end gives "" |
| StrObject.CharAt | src/StrObject.php:165-168 | a non-negative index selects that character; a negative one counts from the end; out of range gives "" or clamps to the first character |
| StrObject.FindFrom | src/StrObject.php:134-137 | finds the first occurrence at or after the offset, or reports that there is none |
| StrObject.Pos | src/StrObject.php:134-137 | `mb_strpos` for a non-negative offset: the first occurrence at or after the offset; an offset past the end gives no position (see Left out) |
| StrObject.After | src/StrObject.php:250-257 | defined exactly when the needle occurs; the string is the text before the match, the needle, then the result |
| StrObject.Before | src/StrObject.php:272-279 | defined exactly when the needle occurs; the result is the text before the first match |
| StrObject.BeforeAfterSplit | src/StrObject.php:250-279 | `before` + needle + `after` rebuilds the string, and `before` holds no occurrence of the needle |
| StrObject.Begins | src/StrObject.php:287-296 | true exactly when the argument is a prefix |
| StrObject.Ends | src/StrObject.php:321-331 | true exactly when the argument is a suffix |
| StrObject.ContainsMeansOccurs | src/StrObject.php:304-313 | `contains` (`Contains`) holds exactly when the needle occurs at some position |
| StrObject.ContainsChar | src/StrObject.php:304-313 | for a one-character needle, `contains` is membership |
| StrObject.ToUnix | src/StrObject.php:349-353 | the result has no carriage return, and text without one is unchanged |
| StrObject.NoCarriageReturnUnchanged | src/StrObject.php:349-353 | both replacement passes leave CR-free text unchanged |
| StrObject.ReplaceAllRemovesChar | src/StrObject.php:349-353 | `str_replace` of a character by a text without it (`ReplaceAll`) leaves no occurrence of that character |
| StrObject.ReplaceAllAbsent | src/StrObject.php:349-353 | replacing a search string that does not occur changes nothing |
| StrObject.ToUnixIsOnePass | src/StrObject.php:349-353 | the two-pass `str_replace` equals a single left-to-right conversion of CRLF and CR to LF |
| StrObject.Explode | src/StrObject.php:367-375 | `explode` without limit: at least one piece, the pieces joined by the separator rebuild the input, and no piece contains the separator |
| StrObject.ExplodeLimit | src/StrObject.php:367-375 | `explode` with a limit: between one piece and the limit, joining rebuilds the input, and only the last piece may contain the separator |
| StrObject.SplitAround | src/StrObject.php:367-375 | an occurrence of the separator splits the string into before, separator and after |
| StrObject.NoEarlierOccurrence | src/StrObject.php:367-375 | the text before the first occurrence holds no occurrence |
| StrObject.ExplodeWithoutSeparator | src/StrObject.php:367-375 | a string without the separator explodes into itself alone |
| StrObject.ExplodeLimitHead | src/StrObject.php:367-375 | the first piece of a limited `explode` keeps the text's first character when the separator starts differently |
| StrObject.FirstOccurrence | src/StrObject.php:134-137 | in `k + c + v` with `c` not in `k`, the first `c` is at the position just after `k` |
| StrObject.ExplodeAtFirst | src/StrObject.php:367-375 | exploding `k + c + v` into two pieces gives `[k, v]` |
| StrObject.ExplodeFirstPiece | src/StrObject.php:367-375 | exploding `k + c + v` gives `k` followed by the pieces of `v` |
| StrObject.Split | src/StrObject.php:367-375 | `split` returns at least one piece, and the pieces joined by the separator rebuild the input |
| StrObject.SplitInTwo | src/StrObject.php:367-375 | `split(sep, 2)` returns the whole string exactly when the separator is absent; otherwise the text before the first separator and the rest, which rebuild the input |
| StrObject.SplitHeadEmpty | src/StrObject.php:367-375 | `split(c, 2)` has an empty first piece exactly when the text starts with `c` |
| StrObject.ExplodeWith | src/StrObject.php:397-408 | `explodeWith` has an odd number of entries that concatenate back to the content, with the separator at odd positions and separator-free pieces at even ones |
| StrObject.Interleave | src/StrObject.php:397-408 | `explodeWith` puts the pieces at even positions and the separator at odd ones |
| StrObject.ConcatInterleave | src/StrObject.php:397-408 | concatenating the `explodeWith` result gives back the joined text |
| StrObject.KeepTextLines | src/StrObject.php:389-393 | the `onlyLines` filter keeps exactly the truthy entries that are not a bare separator |
| StrObject.Lines | src/StrObject.php:384-395 | without `onlyLines` the entries concatenate back to the (optionally CR-normalised) text; with it every entry is truthy and not a bare "\n" |
| StrObject.LinesAlternate | src/StrObject.php:384-395 | `lines(false, true)` alternates text lines without LF and "\n" entries, with an odd count, and concatenates back to the CR-normalised input |
| StrObject.RepeatSnoc | src/StrObject.php:177-183 | one more round of the append loop adds one more copy |
| StrObject.Append | src/StrObject.php:177-183 | the result is the string followed by `repeats` copies of the argument (none when `repeats` is not positive) |
| StrObject.Prepend | src/StrObject.php:192-198 | the result is `repeats` copies of the argument followed by the string |
| Types.Message | src/DotenvParser.php:358-365 | a syntax error message starts with the prefix, reads back the same line number, and ends with the reason |
| Types.DigitRun | src/DotenvParser.php:358-365 | the longest all-digit prefix of a message tail |
| Types.DigitRunOfDecimal | src/DotenvParser.php:358-365 | the digit run of a decimal numeral followed by ". " is exactly the numeral |
| Types.Decimal | src/DotenvParser.php:358-365 | the decimal rendering of the line number is all digits, without a leading zero |
| Types.DecimalRoundTrip | src/DotenvParser.php:358-365 | reading back the decimal rendering gives the number |
| OrderedMap.Keys | src/DotenvParser.php:154-160 | the keys in insertion order, position by position |
| OrderedMap.Get | src/DotenvParser.php:342 | a lookup succeeds exactly for present keys |
| OrderedMap.Put | src/DotenvParser.php:114 | after assignment the key maps to the new value and every other key is unchanged; an existing key keeps its position, and a new key is appended; keys stay unique |
| Scanner.InlineBlankChar | src/DotenvParser.php:394-401 | a one-character string is an inline blank exactly for space and tab |
| Scanner.OnlyBlanksAfterIff | src/DotenvParser.php:284-285 | the line-continuation test holds exactly when at least one character follows and all following characters are spaces or tabs |
| Scanner.CommentStartsIff | src/DotenvParser.php:292-297 | the comment test holds exactly when the character before (the last one, at position 0) is a space or tab |
| Scanner.ClassifyAsWritten | src/DotenvParser.php:249-311 | the action chosen for a character follows the order of the tests in `parseLine`: escape flag, `"`, `'`, backslash, `#`, `;`, blank |
| Scanner.Step | src/DotenvParser.php:249-314 | one character either continues, collecting at most that character, or ends the pass at it or just after it, at a terminator; outside single quotes it never clears the resolve flag |
| Scanner.Classify | src/DotenvParser.php:249-311 | each action is taken only on its character and in its states: a quote toggles only outside the other quote kind, `;` ends a value only unquoted, and an escaped character is always taken |
| Scanner.ScanFrom | src/DotenvParser.php:246-317 | the cursor only moves forward within the line; collected text only grows; unresolved text comes only from a closing single quote |
| Scanner.ScanStops | src/DotenvParser.php:246-317 | the scan stops only at the end of the line or at a stopping position |
| Scanner.ScanTextFromConsumed | src/DotenvParser.php:246-317 | the collected text is a subsequence of the consumed input |
| Scanner.Scan | src/DotenvParser.php:240-318 | `parseLine`: the cursor stays within the line, stops only at a stopping position, and marks text unresolved only when a single-quoted run closes |
| Scanner.ScanTextFromInput | src/DotenvParser.php:240-318 | the returned text is a subsequence of the consumed prefix of the line |
| Scanner.ScanResolveFlag | src/DotenvParser.php:240-318 | a scan that starts outside single quotes always returns resolvable text |
| Scanner.ScanNeverSingle | src/DotenvParser.php:267-279 | without a closing single quote the resolve flag stays set |
| Scanner.EscapesNext | src/DotenvParser.php:281-290 | a backslash followed by a non-blank, outside single quotes, escapes the next character |
| Scanner.StopsAtBlank | src/DotenvParser.php:305-310 | an unquoted scan stops at a blank or at the end of the line without consuming it |
| Scanner.StopsAfterSemicolon | src/DotenvParser.php:299-303 | an unquoted scan stops just after a `;` |
| Scanner.ScanDoubleQuoted | src/DotenvParser.php:257-291 | a double-quoted escaped value followed by a blank or the end scans back to the value itself, resolvable, with the cursor after the closing quote |
| Scanner.ScanEscapedBody | src/DotenvParser.php:249-291 | inside double quotes an escaped body is collected character by character, without its backslashes, up to the closing quote |
| Scanner.ScanSingleQuoted | src/DotenvParser.php:267-280 | an opening single quote yields nothing and enters the single-quoted state; inside it the text up to the closing quote is returned unresolved |
| Scanner.ScanUnquoted | src/DotenvParser.php:299-310 | a plain unquoted value is returned as is; the cursor steps over a following `;` but not a blank |
| Scanner.ScanEscapedSemicolon | src/DotenvParser.php:281-303 | `v\;;` yields `v;`: the escaped semicolon is kept and the bare one ends the value |
| Scanner.EscapedSemicolonEnds | src/DotenvParser.php:281-303 | `\;;` collects one `;` and ends the pass just after the second |
| Scanner.ScanHashLooksAtLastChar | src/DotenvParser.php:292-297 | a line starting with `#` and ending with a blank yields nothing and consumes nothing, in any quote state |
| Reducer.AllWhitespaceChars | src/DotenvParser.php:174 | a fragment text is blank exactly when all its characters are default trim characters |
| Reducer.BlankIsWhitespaces | src/DotenvParser.php:174 | the blankness test is `isWhitespaces` on the fragment text |
| Reducer.TrimFragmentKeepsBlankness | src/DotenvParser.php:197-204 | trimming a fragment keeps it blank or non-blank |
| Reducer.FirstSubstantive | src/DotenvParser.php:178-184 | the index of the first non-blank fragment, with all before it blank; none means all blank |
| Reducer.LastSubstantive | src/DotenvParser.php:186-192 | the index of the last non-blank fragment, with all after it blank; none means all blank |
| Reducer.ArraySlice | src/DotenvParser.php:200 | `array_slice`: the elements from the offset, at most the length, clipped to the array |
| Reducer.ReduceItems | src/DotenvParser.php:165-217 | a key's fragment list always reduces to at least one fragment |
| Reducer.ReduceWhitespaces | src/DotenvParser.php:165-217 | keys and their order are kept, and each key's list is reduced on its own |
| Reducer.CollapseShape | src/DotenvParser.php:201-212 | collapsing a slice (`Collapse`) keeps its non-blank fragments, trimmed, in order |
| Reducer.CollapseNoAdjacentBlanks | src/DotenvParser.php:201-212 | after collapsing no two blank fragments are adjacent |
| Reducer.CollapseBlanksAreSpaces | src/DotenvParser.php:201-212 | every blank fragment the collapsing loop leaves is the text `" "`: each run of blanks becomes a single space, whatever whitespace it held |
| Reducer.CollapseLast | src/DotenvParser.php:201-212 | the collapsing loop (`CollapseUpTo`, `Emit`) emits something for every prefix, and its output ends blank exactly when the prefix does |
| Reducer.CollapseLastSkipped | src/DotenvParser.php:206-209 | a blank right after another blank adds nothing to the collapsed list |
| Reducer.CollapseFirst | src/DotenvParser.php:201-212 | a slice starting with a substantive fragment collapses to a list starting with that fragment, trimmed |
| Reducer.CollapseSubstanceStep | src/DotenvParser.php:202-211 | one more fragment through the loop adds exactly its own trimmed substance |
| Reducer.SliceKeepsSubstance | src/DotenvParser.php:200 | the slice taken in the general case holds every substantive fragment of the list |
| Reducer.ReduceIsCollapse | src/DotenvParser.php:194-213 | with two different substantive bounds the result (`ReduceBetween`) is the collapsed slice |
| Reducer.ReduceKeepsSubstance | src/DotenvParser.php:165-217 | the non-blank fragments after reduction are the input's non-blank fragments, trimmed, in order |
| Reducer.ReduceSeveralSubstantive | src/DotenvParser.php:199-213 | with two or more non-blank fragments the result is the collapsed slice and keeps the trimmed substance |
| Reducer.ReduceAllBlank | src/DotenvParser.php:178-198 | an all-blank list reduces to its first fragment, trimmed |
| Reducer.ReduceNothing | src/DotenvParser.php:168-171 | an empty list becomes the single empty unresolved fragment, which has no substance |
| Reducer.ReduceOneSubstantive | src/DotenvParser.php:194-198 | with exactly one non-blank fragment the result is that fragment, trimmed |
| Reducer.ReduceSingle | src/DotenvParser.php:178-198 | with at most one non-blank fragment the result has one element: that fragment, or the first one, trimmed |
| Reducer.ReduceSeveral | src/DotenvParser.php:199-213 | with several non-blank fragments the result starts with the first of them, trimmed, and has no adjacent blanks |
| Reducer.ReduceKeepsTrailingBlank | src/DotenvParser.php:200 | `[blank, x, y, blank]` keeps a trailing " ": the slice length counts from the array start |
| Reducer.CollapseThree | src/DotenvParser.php:201-212 | `[x, y, blank]` collapses to `x` and `y` trimmed, then one space with the blank's flag |
| Reducer.CollapseSpaced | src/DotenvParser.php:201-212 | `[x, blank, y]` collapses to `x` trimmed, one space with the blank's flag, then `y` trimmed |
| Reducer.ReduceDropsTrailingBlank | src/DotenvParser.php:200-212 | `[x, blank, y, blank]` loses the trailing blank but keeps the inner one as " " |
| Resolver.Lookup | src/DotenvParser.php:342 | a known name yields its value, and an unknown one yields "" |
| Resolver.WordPrefix | src/DotenvParser.php:322 | the longest prefix of word characters |
| Resolver.BraceNamesFirst | src/DotenvParser.php:322 | the first character passes through the `$name` rewrite |
| Resolver.BraceNamesLeavesNoBareName | src/DotenvParser.php:322 | after the rewrite no `$` is followed by a word character |
| Resolver.BraceNamesKeeps | src/DotenvParser.php:322 | text without a bare `$name` is left alone |
| Resolver.BraceNamesIdempotent | src/DotenvParser.php:322 | rewriting twice equals rewriting once |
| Resolver.BraceNamesNoDollar | src/DotenvParser.php:322 | text without `$` is left alone |
| Resolver.BraceNamesPlainPrefix | src/DotenvParser.php:322 | a `$`-free prefix passes through and the rest is rewritten |
| Resolver.BraceNamesName | src/DotenvParser.php:322 | `$w` followed by a non-word character becomes `${w}` |
| Resolver.BracedHasNoBareName | src/DotenvParser.php:322 | `${w}` holds no `$` followed by a word character, so the rewrite (`BraceNames`) leaves it alone |
| Resolver.BraceNamesTwoNames | src/DotenvParser.php:322 | `$a$b` is rewritten to `${a}${b}` |
| Resolver.LineEnd | src/DotenvParser.php:323-329 | the first line break at or after a position, or the end |
| Resolver.LastIndexIn | src/DotenvParser.php:323-329 | the last position of a character within a range, or none |
| Resolver.MatchEnd | src/DotenvParser.php:323-329 | the greedy `${.+}` match ends at the largest possible closing brace, or there is no match |
| Resolver.MatchEndOfRef | src/DotenvParser.php:323-329 | the greedy match of `${n}post` ends at the brace after `n` when `post` holds no `}` |
| Resolver.ReplaceRefs | src/DotenvParser.php:323-329 | a replacement fails only with a substitution error |
| Resolver.ReplaceRefsCopies | src/DotenvParser.php:323-329 | a character that starts no match is copied, and success or failure is decided by the rest |
| Resolver.ReplaceRefsPlainPrefix | src/DotenvParser.php:323-329 | a `$`-free prefix is copied unchanged |
| Resolver.ReplaceRefsNoDollar | src/DotenvParser.php:323-329 | text without `$` is returned unchanged |
| Resolver.ReplaceRefsOneRef | src/DotenvParser.php:323-329 | a single `${n}` is replaced by the recursive resolution of the whole match |
| Resolver.Unwrap | src/DotenvParser.php:367-392 | unwrapping never lengthens the text |
| Resolver.UnwrapBraced | src/DotenvParser.php:367-392 | `${n}` unwraps to `n` |
| Resolver.UnwrapLoneDollar | src/DotenvParser.php:366-381 | `unwrap("$")` is "": the `$` is dropped and the `{` test then sees the empty string, where PHP warns and reads "" |
| Resolver.ResolveRecursiveUnwraps | src/DotenvParser.php:332-335 | `resolveRecursive` works on the unwrapped text (`Unwrap`, `UnwrapLeft`, `UnwrapRight`), cut at its first `:-` |
| Resolver.ResolveParts | src/DotenvParser.php:336-355 | deciding on the cut text fails only with a substitution error |
| Resolver.ResolveRecursiveSplits | src/DotenvParser.php:332-335 | `${n:-d}` with no `:-` in `n` is cut into `n` and `d` |
| Resolver.ResolveRecursiveRefused | src/DotenvParser.php:336-341 | text that unwraps to something starting with `$` fails with an invalid-substitution error quoting the unwrapped text |
| Resolver.ResolveRecursive | src/DotenvParser.php:332-356 | it fails only with a substitution error |
| Resolver.NoColonNoMark | src/DotenvParser.php:335 | a name without `:` holds no `:-` |
| Resolver.ExplodeNoMark | src/DotenvParser.php:335 | a name without `:-` splits into itself alone |
| Resolver.ExplodeAtMark | src/DotenvParser.php:335 | `n:-d` splits into the name and the default |
| Resolver.ResolveRecursiveName | src/DotenvParser.php:342-355 | `${n}` resolves to the value of `n`, or "" when unset |
| Resolver.ResolveRecursiveDefault | src/DotenvParser.php:342-353 | `${n:-d}` gives the value of `n` when it is truthy, else the plain default `d` |
| Resolver.ResolveRecursiveNested | src/DotenvParser.php:343-351 | a truthy `n` gives its value; otherwise the default reference is resolved recursively, and its result is used when truthy, else the default's own text |
| Resolver.ResolveRecursiveNestedUnset | src/DotenvParser.php:343-353 | `${a:-${b}}` with both unset gives the literal text `${b}`: the nested resolution of `${b}` is falsy, so the default's own text is returned, not "" as in a shell |
| Resolver.ResolveRecursiveInvalid | src/DotenvParser.php:336-341 | a name starting with `$` fails with an invalid-substitution error naming it |
| Resolver.Resolve | src/DotenvParser.php:320-330 | resolving fails only with a substitution error |
| Resolver.ResolveNoDollar | src/DotenvParser.php:320-330 | text without `$` resolves to itself |
| Resolver.ReplaceRefsOneName | src/DotenvParser.php:323-329 | `${n}` followed by brace-free text resolves to the value of `n` and then that text |
| Resolver.BraceNamesOneName | src/DotenvParser.php:322 | a single bare `$w` in `$`-free text is braced in place |
| Resolver.ResolveName | src/DotenvParser.php:320-330 | `pre$w post` resolves to `pre`, the value of `w`, then `post` |
| Resolver.ResolveLoneName | src/DotenvParser.php:320-330 | a lone `$w` resolves to the value of `w` |
| Resolver.ResolveBraced | src/DotenvParser.php:320-330 | `pre${n}post` resolves to `pre` and the recursive resolution of `${n}` and `post`, or fails with that resolution's error |
| Resolver.ResolveJoinsAdjacentNames | src/DotenvParser.php:322-329 | `$a$b` is looked up as the single odd name `a}${b`, because the greedy match spans both references |
| Driver.DropSeparators | src/DotenvParser.php:61-63 | no "\n" entry survives the filter |
| Driver.DropInterleave | src/DotenvParser.php:61-63 | filtering the separators out of `lines()` gives back the pieces |
| Driver.ToLines | src/DotenvParser.php:58-67 | the lines are the CR-normalised content exploded at LF: at least one, none contains LF, and joined they rebuild the content |
| Driver.AddFragment | src/DotenvParser.php:128 | appending a fragment extends the last key's list and changes no other key |
| Driver.PassFragmentsShape | src/DotenvParser.php:125-131 | a pass adds nothing exactly when its text is falsy; otherwise its text with its resolve flag, followed by an unresolved " " exactly when the pass ended on a line continuation |
| Driver.AddAll | src/DotenvParser.php:125-140 | appending several fragments extends one key's list by exactly them; other keys are unchanged, and a key is created only when something is added |
| Driver.StripExport | src/DotenvParser.php:107-111 | a left part starting with `export` loses the word and the blanks after it; any other is kept |
| Driver.NormStep | src/DotenvParser.php:95-132 | an unquoted line either throws `No left part` or the delimiter error at the current line with the state unchanged, or advances; keys stay unique |
| Driver.NormLine | src/DotenvParser.php:102-132 | `No left part` is thrown exactly when the text before `=` is empty |
| Driver.NormValue | src/DotenvParser.php:120-132 | the delimiter error is thrown exactly when the value starts with a space or tab; otherwise the scanned fragment goes to the key |
| Driver.InlineTrimmed | src/DotenvParser.php:120-124 | left-trimming space and tab changes a value exactly when it starts with one |
| Driver.NormStepIsValue | src/DotenvParser.php:95-118 | a line `k=v` (after leading blanks) is handled as the value `v` for the export-stripped key `k`, whose list has just been reset to empty |
| Driver.NormValueAssign | src/DotenvParser.php:113-132 | after that reset the key holds exactly the fragments of the one pass over `v`, and every other key keeps the list it had before the line |
| Driver.NormStepContinues | src/DotenvParser.php:113-132 | a line without `=` appends its fragments to the current key and touches no other key |
| Driver.NormStepNoLeftPart | src/DotenvParser.php:102-105 | a line starting with `=` throws `No left part` at its line number |
| Driver.NeedToContinueIff | src/DotenvParser.php:394-401 | the quoted loop continues exactly while the rest of the line is non-empty and does not start with a space or tab |
| Driver.ContinueQuoted | src/DotenvParser.php:133-140 | the inner loop ends only when the rest of the line is empty or starts with a blank, keeps the current key, and fails only for lack of fuel |
| Driver.QuotedStep | src/DotenvParser.php:133-145 | a quoted line stays on the same line index and keeps keys unique |
| Driver.Process | src/DotenvParser.php:95-145 | handling one line throws only at that line's number, never `Broken quotes` |
| Driver.Advance | src/DotenvParser.php:85-93 | the loop skips to the next line only once the current one is used up, and has nothing to do exactly when that next line is missing or empty |
| Driver.Body | src/DotenvParser.php:85-145 | one loop iteration never goes back or past the last line, and syntax errors name a real line |
| Driver.Run | src/DotenvParser.php:85-146 | a finished loop has consumed every line, and any syntax error names a real line other than `Broken quotes` |
| Driver.ResolveValue | src/DotenvParser.php:155-158 | assembling a value fails only with a substitution error |
| Driver.ResolveAll | src/DotenvParser.php:154-160 | the environment keeps its keys and gains every parsed key; a failure is a substitution error |
| Driver.Parse | src/DotenvParser.php:74-163 | no `=` returns the environment untouched; success returns the new environment with the state back to unquoted, keeping every earlier key; syntax errors name a line, and one past the last line exactly for `Broken quotes` |
| ParseFacts.OneLine | src/DotenvParser.php:58-67 | content without line breaks is one line |
| ParseFacts.TwoLines | src/DotenvParser.php:58-67 | `a\nb` is the two lines `a` and `b` |
| ParseFacts.ContinueQuotedDiverges | src/DotenvParser.php:133-140 | a `#` line ending with a blank keeps the quoted inner loop spinning forever |
| ParseFacts.RunStuck | src/DotenvParser.php:85-132 | an unquoted line that the step maps to itself keeps the outer loop spinning forever |
| ParseFacts.RunIntoStuck | src/DotenvParser.php:85-132 | a step into such a state makes the whole loop diverge |
| ParseFacts.ScanTrimChar | src/DotenvParser.php:305-310 | a lone trim character stops the scan at once and yields nothing |
| ParseFacts.NormStepBareLine | src/DotenvParser.php:113-132 | a line without `=` is treated as more value for the current key |
| ParseFacts.TrimCharLineStuck | src/DotenvParser.php:120-132 | a line that is a lone NUL-like trim character is a fixed point of the unquoted step |
| ParseFacts.ResolveValueLiteral | src/DotenvParser.php:155-158 | fragments without references assemble to their concatenation |
| ParseFacts.ResolveValueOne | src/DotenvParser.php:155-158 | a single resolvable fragment assembles to the resolution of its text |
| ParseFacts.ResolveAllChained | src/DotenvParser.php:154-160 | a later key referring to an earlier one sees the value stored in this same parse |
| ParseFacts.ResolveAllForward | src/DotenvParser.php:154-160 | an earlier key referring to a later one sees the later key's old value, not its new one |
| ParseFacts.RunOneLine | src/DotenvParser.php:85-93 | a one-line file whose line is consumed in one step ends after it, at line index 1 |
| ParseFacts.PlainTrimmed | src/DotenvParser.php:120-124 | a plain value is unchanged by trimming |
| ParseFacts.ReducePlain | src/DotenvParser.php:125-132 | a plain value always reduces to exactly one fragment, `(v, true)`, or `("", false)` when `v` is falsy (`"0"`), through the `['', false]` of an empty list |
| ParseFacts.AddToFresh | src/DotenvParser.php:125-132 | adding at most one fragment to a new key stores exactly that |
| ParseFacts.ResolveValueText | src/DotenvParser.php:155-158 | a single `$`-free fragment assembles to its text |
| ParseFacts.NormValuePlain | src/DotenvParser.php:120-132 | a plain value is scanned whole into the new key's list |
| ParseFacts.StepSimpleAssignment | src/DotenvParser.php:95-132 | one step over `k=v` records `v` under `k` |
| ParseFacts.RunSimpleAssignment | src/DotenvParser.php:85-146 | the loop over `k=v` finishes with `k` holding the fragment for `v` |
| ParseFacts.ParseSimpleAssignment | src/DotenvParser.php:74-163 | parsing `k=v` with a plain key and value stores `v` under `k` (`""` when `v` is falsy) and leaves the state unquoted |
| ParseFacts.ParseNoLeftPart | src/DotenvParser.php:102-105 | parsing a line starting with `=` fails with `No left part` at line 1 |
| ParseFacts.NormValueBlank | src/DotenvParser.php:120-124 | a value part starting with a space or tab makes the step throw "Whitespaces can not be used as delimiters" on the current line, leaving the loop state as it was |
| ParseFacts.ParseWhitespaceDelimiter | src/DotenvParser.php:120-124 | `k= v` fails with the delimiter error at line 1 |
| ParseFacts.RunNoLeftPartOnSecondLine | src/DotenvParser.php:85-105 | after a good first line, a second line starting with `=` throws at line 2 |
| ParseFacts.ParseNoLeftPartOnSecondLine | src/DotenvParser.php:83-105 | `k=v` then `=…` fails with `No left part` at line 2 |
| ParseFacts.ParseDivergesInQuotes | src/DotenvParser.php:133-140 | resuming inside quotes on a `#` line ending with a blank never returns |
| ParseFacts.StepTrimCharAssignment | src/DotenvParser.php:95-132 | `k=` plus a lone trim character other than space or tab starts `k` afresh and leaves that character as the rest of the line |
| ParseFacts.RunTrimCharDiverges | src/DotenvParser.php:85-132 | the loop over such a line never ends |
| ParseFacts.ParseTrimCharDiverges | src/DotenvParser.php:74-132 | parsing `k=` plus a lone NUL or vertical tab never returns |

## Left out

- `fromFile` reads a file and `putenv`s its result. Both are I/O, so the model starts from the content string.
- The `width` getter uses `mb_strwidth`, a display-width table that is not modelled. `length` is the sequence length.
- `toLine`, `clon`, `mapToSelf`, the magic methods and the `Generator` in `toLines` are object plumbing. The model passes plain strings and sequences.
- `StrObject` mutates its receiver and returns `$this`. The model uses pure functions that return the new string.
- The `PHP_VERSION_ID` branches in `StrObject` are not modelled. The model follows PHP 8, where an empty needle is found at the offset.
- The exception classes and their chaining in `parseRight` are not modelled. An error is a value whose message `Types.Message` renders.
- Environment values passed in as integers are modelled as their decimal strings, and numeric-string keys are not turned into integers.
- The reference patterns are a specialised matcher for the two regular expressions used. General PCRE is not modelled, and `\w` is ASCII only, without Unicode letters.
- StrObject.TrimLeftBy: PHP's `ltrim` reads `a..z` in the character list as a range and works byte by byte; the model treats the list as a set of code points, because the parser only ever passes `" \t"` or the default list, which hold no range and only one-byte characters.
- StrObject.TrimRightBy: same as `TrimLeftBy` for `rtrim`: no `a..z` ranges and no byte-wise trimming of multibyte characters.
- StrObject.TrimBy: same as `TrimLeftBy` for `trim`: no `a..z` ranges and no byte-wise trimming of multibyte characters.
- StrObject.Explode: PHP 8's `explode` throws a `ValueError` for an empty separator; the precondition `|sep| > 0` excludes that case, because the parser only splits on `"="`, `"\n"` and `":-"`.
- StrObject.ExplodeLimit: the same empty-separator `ValueError` is excluded by `|sep| > 0`, for the same reason.
- StrObject.Split: `split` with an empty separator throws `explode`'s `ValueError`; the precondition excludes it, because the parser's separators are never empty.
- StrObject.ExplodeWith: `explodeWith` (and so `lines`) with an empty separator throws the same `ValueError`; the precondition excludes it, because the only separator used is `"\n"`.
- StrObject.Pos: `mb_strpos` also accepts a negative offset, counted from the end, and PHP 8 throws a `ValueError` for an offset past the end; the model takes a non-negative offset and returns no position past the end, because the parser only calls it with offset 0.
- Parse: the loops run on a fuel bound. A parse that needs more iterations than the fuel ends in `OutOfFuel`, so results are stated for enough fuel or for inputs that provably never end.
- Resolver.Unwrap: `unwrapLeft` reads `$str[0]` without a guard, so on an empty string PHP 8 warns "Uninitialized string offset 0". This happens for example with `${a:-$}` and `a` unset, where the default `$` unwraps to "". The warning is not modelled; the model returns the empty string, as PHP then does.
- Parse: the PHP warning for the undefined `$lastKey` is not modelled. The key is taken as "", as PHP then does.
- Reducer.ReduceItems: the empty list becomes one empty unresolved fragment, the value PHP reads from `['', false]`.

=== FILE: driver.dfy ===
/** The parse loop of `DotenvParser` (`toLines`, `parse`,
    `needToContinueParseRightPart`).

    The parser object carries three fields from one `parse` call to the next:
    the environment, the quote state and the escape flag. `Parse` takes them
    as a `Parser` value and returns the values they hold when it returns or
    throws. The line loop can run forever on some inputs, so it is driven by
    fuel; running out of fuel is the `OutOfFuel` error. */
module Driver {
  import opened Wrappers
  import StrObject
  import opened Types
  import opened OrderedMap
  import opened Scanner
  import Reducer
  import Resolver

  type Env = Resolver.Env

  /** Per-key fragment lists (`$dataEnv`), in first-assignment order. */
  type Data = OMap<seq<Fragment>>

  // ---------------------------------------------------------------------------
  // Line source

  /** `array_filter` keeping every piece other than "\n". */
  function DropSeparators(pieces: seq<string>): (r: seq<string>)
    ensures forall i :: 0 <= i < |r| ==> r[i] != "\n"
    decreases |pieces|
  {
    if |pieces| == 0 then []
    else (if pieces[0] == "\n" then [] else [pieces[0]]) + DropSeparators(pieces[1..])
  }

  /** Dropping the separators of an interleaving gives back the parts. */
  lemma {:induction false} DropInterleave(parts: seq<string>)
    requires forall k :: 0 <= k < |parts| ==> parts[k] != "\n"
    ensures DropSeparators(StrObject.Interleave(parts, "\n")) == parts
    decreases |parts|
  {
    if |parts| <= 1 {
      if |parts| == 1 {
        assert DropSeparators(parts) == [parts[0]] + DropSeparators(parts[1..]);
      }
    } else {
      var rest := StrObject.Interleave(parts[1..], "\n");
      var r := [parts[0], "\n"] + rest;
      assert StrObject.Interleave(parts, "\n") == r;
      assert r[1..] == ["\n"] + rest;
      assert (["\n"] + rest)[1..] == rest;
      assert DropSeparators(["\n"] + rest) == DropSeparators(rest);
      DropInterleave(parts[1..]);
      assert parts == [parts[0]] + parts[1..];
    }
  }

  /** `toLines`: the physical lines of the CR-normalised content, empty ones
      included; they are the pieces `explode("\n")` gives, so joining them
      with "\n" restores the content and none holds a line feed. */
  function ToLines(content: string): (lines: seq<string>)
    ensures lines == StrObject.Explode(StrObject.ToUnix(content), "\n")
    ensures |lines| >= 1
    ensures StrObject.Join(lines, "\n") == StrObject.ToUnix(content)
    ensures forall i :: 0 <= i < |lines| ==> '\n' !in lines[i]
  {
    var parts := StrObject.Explode(StrObject.ToUnix(content), "\n");
    forall k | 0 <= k < |parts|
      ensures parts[k] != "\n" && '\n' !in parts[k]
    {
      StrObject.ContainsChar(parts[k], '\n');
      StrObject.ContainsChar("\n", '\n');
    }
    DropInterleave(parts);
    DropSeparators(StrObject.Lines(content, false, true))
  }

  // ---------------------------------------------------------------------------
  // Loop state

  /** The variables of the line loop: the generator position `idx` (the
      current physical line number `curLineNum` is always `idx + 1`), the
      unconsumed rest of the current line, the quote state and escape flag,
      the key fragments are added to, and the fragment lists. `lastKey`
      starts as "": PHP reads an unassigned `$lastKey` as null, and a null
      array key is "". */
  datatype Loop = Loop(idx: nat, line: string, quote: Quote, esc: bool, lastKey: string, data: Data)

  /** One step either continues with a new state or throws; a throw keeps
      the state reached, whose quote and escape flag outlive the call. */
  datatype Outcome = Ok(st: Loop) | Thrown(st: Loop, error: Error)

  /** `$dataEnv[$key][] = $f`. */
  function AddFragment(data: Data, key: string, f: Fragment): (r: Data)
    ensures Get(r, key) == Some(Get(data, key).GetOr([]) + [f])
    ensures forall k :: k != key ==> Get(r, k) == Get(data, k)
    ensures UniqueKeys(data) ==> UniqueKeys(r)
  {
    Put(data, key, Get(data, key).GetOr([]) + [f])
  }

  /** The fragments one NORM pass adds: its text when truthy, followed by a
      " " joint when the pass ended on a line-continuation backslash. */
  function PassFragments(pass: Pass): seq<Fragment> {
    if StrObject.Truthy(pass.text) then
      [Fragment(pass.text, pass.resolve)] + (if pass.esc then [Fragment(" ", false)] else [])
    else []
  }

  /** A pass adds nothing exactly when its text is falsy; otherwise its
      text, followed by an unresolved " " joint exactly when it ended on a
      line continuation. */
  lemma PassFragmentsShape(pass: Pass)
    ensures var r := PassFragments(pass);
      && (|r| == 0 <==> !StrObject.Truthy(pass.text))
      && (|r| > 0 ==> r[0] == Fragment(pass.text, pass.resolve))
      && (|r| == 2 <==> StrObject.Truthy(pass.text) && pass.esc)
      && (|r| == 2 ==> r[1] == Fragment(" ", false))
  {
  }

  /** The fragments appended to one key in order; nothing else changes. */
  function AddAll(data: Data, key: string, fs: seq<Fragment>): (r: Data)
    ensures Get(r, key) == if |fs| == 0 then Get(data, key) else Some(Get(data, key).GetOr([]) + fs)
    ensures forall k :: k != key ==> Get(r, k) == Get(data, k)
    ensures UniqueKeys(data) ==> UniqueKeys(r)
    decreases |fs|
  {
    if |fs| == 0 then data
    else
      var once := AddFragment(data, key, fs[0]);
      StrObject.SnocRest(Get(data, key).GetOr([]), fs);
      AddAll(once, key, fs[1..])
  }

  // ---------------------------------------------------------------------------
  // NORM state

  /** `$left->after('export')->trimLeft(" \t")` for a left side that begins
      with "export"; any other left side is kept. */
  function StripExport(left: string): (k: string)
    ensures StrObject.Begins(left, "export") ==> k == StrObject.TrimLeft(left[6..], InlineWhitespaces)
    ensures !StrObject.Begins(left, "export") ==> k == left
  {
    if StrObject.Begins(left, "export") then
      assert StrObject.OccursAt(left, "export", 0);
      StrObject.TrimLeft(StrObject.After(left, "export", 0).GetOr(left), InlineWhitespaces)
    else left
  }

  /** One loop iteration in NORM state. A blank or comment line is dropped;
      any other line is split at its first `=`. */
  function NormStep(st: Loop): (r: Outcome)
    requires st.quote == Norm
    ensures r.st.idx == st.idx
    ensures r.Thrown? ==> r.st == st && r.error.Syntax? && r.error.line == st.idx + 1
    ensures r.Thrown? ==> r.error.reason == NoLeftPart || r.error.reason == WhitespaceDelimiters
    ensures UniqueKeys(st.data) ==> UniqueKeys(r.st.data)
  {
    var t := StrObject.TrimLeft(st.line, InlineWhitespaces);
    if t == "" || StrObject.Begins(t, "#") then Ok(st.(line := ""))
    else NormLine(st, StrObject.Split(t, "=", 2))
  }

  /** A line split at its first `=`. An empty left side is "No left part".
      With an `=` the left side, minus an `export` prefix, becomes the key
      and its fragment list is reset; without one the whole (export-stripped)
      text is more value for the last key. */
  function NormLine(st: Loop, parts: seq<string>): (r: Outcome)
    requires st.quote == Norm && |parts| >= 1
    ensures r.st.idx == st.idx
    ensures r.Thrown? ==> r.st == st && r.error.Syntax? && r.error.line == st.idx + 1
    ensures r.Thrown? ==> r.error.reason == NoLeftPart || r.error.reason == WhitespaceDelimiters
    ensures r.Thrown? && r.error.reason == NoLeftPart <==> parts[0] == ""
    ensures UniqueKeys(st.data) ==> UniqueKeys(r.st.data)
  {
    if parts[0] == "" then Thrown(st, Syntax(st.idx + 1, NoLeftPart))
    else
      var left := StripExport(parts[0]);
      if |parts| >= 2 then NormValue(st, left, Put(st.data, left, []), parts[1])
      else NormValue(st, st.lastKey, st.data, left)
  }

  /** The value part of a NORM line for `key`: it must not start with a
      blank; one scanner pass takes the value, its fragments go to `key`,
      and the rest of the line is kept for the next iteration. */
  function NormValue(st: Loop, key: string, data: Data, rawRight: string): (r: Outcome)
    requires st.quote == Norm
    ensures r.Thrown? <==> |rawRight| > 0 && (rawRight[0] == ' ' || rawRight[0] == '\t')
    ensures r.Thrown? ==> r.st == st && r.error == Syntax(st.idx + 1, WhitespaceDelimiters)
    ensures r.Ok? ==>
      var pass := Scan(rawRight, Norm, st.esc);
      && r.st.idx == st.idx && r.st.lastKey == key
      && r.st.line == rawRight[pass.cursor..] && r.st.quote == pass.quote && r.st.esc == pass.esc
      && Get(r.st.data, key) == (if |PassFragments(pass)| == 0 then Get(data, key) else Some(Get(data, key).GetOr([]) + PassFragments(pass)))
      && (forall k :: k != key ==> Get(r.st.data, k) == Get(data, k))
    ensures r.Ok? && UniqueKeys(data) ==> UniqueKeys(r.st.data)
  {
    InlineTrimmed(rawRight);
    if StrObject.TrimLeft(rawRight, InlineWhitespaces) != rawRight then
      Thrown(st, Syntax(st.idx + 1, WhitespaceDelimiters))
    else
      var pass := Scan(rawRight, Norm, st.esc);
      Ok(Loop(st.idx, rawRight[pass.cursor..], pass.quote, pass.esc, key, AddAll(data, key, PassFragments(pass))))
  }

  /** The value part passes the delimiter check exactly when it does not
      start with a space or tab. */
  lemma InlineTrimmed(v: string)
    ensures StrObject.TrimLeft(v, InlineWhitespaces) == v <==> !(|v| > 0 && (v[0] == ' ' || v[0] == '\t'))
  {
    assert StrObject.CharList(InlineWhitespaces) == InlineWhitespaces;
    if |v| > 0 && (v[0] == ' ' || v[0] == '\t') {
      assert |StrObject.TrimLeft(v, InlineWhitespaces)| < |v|;
    }
  }

  /** The value step for a key whose list has just been reset leaves
      exactly the pass's fragments there, and every other key as it was
      before the reset. */
  lemma NormValueAssign(st: Loop, key: string, v: string)
    requires st.quote == Norm
    ensures var r := NormValue(st, key, Put(st.data, key, []), v);
      r.Ok? ==>
        && Get(r.st.data, key) == Some(PassFragments(Scan(v, Norm, st.esc)))
        && (forall other :: other != key ==> Get(r.st.data, other) == Get(st.data, other))
  {
    NormValueReset(st, key, Put(st.data, key, []), v);
  }

  /** The step over an assignment line is the value step for its key, on
      data where that key's list has been reset. */
  lemma NormStepIsValue(st: Loop, k: string, v: string)
    requires st.quote == Norm
    requires StrObject.TrimLeft(st.line, InlineWhitespaces) == k + "=" + v
    requires k != "" && '=' !in k && k[0] != '#'
    ensures NormStep(st) == NormValue(st, StripExport(k), Put(st.data, StripExport(k), []), v)
  {
    var t := k + "=" + v;
    assert t[0] == k[0];
    NormStepSplits(st);
    StrObject.ExplodeAtFirst(k, '=', v);
    assert StrObject.Split(t, "=", 2) == [k, v];
    NormLineAssign(st, k, v);
  }

  /** The value step for a key whose list is empty leaves exactly the pass's
      fragments there. */
  lemma NormValueReset(st: Loop, key: string, data: Data, v: string)
    requires st.quote == Norm
    requires Get(data, key) == Some([])
    ensures var r := NormValue(st, key, data, v);
      r.Ok? ==> Get(r.st.data, key) == Some(PassFragments(Scan(v, Norm, st.esc)))
  {
    var fs := PassFragments(Scan(v, Norm, st.esc));
    assert Get(data, key).GetOr([]) + fs == fs;
  }

  /** A line that is neither blank nor a comment is split at its first `=`. */
  lemma NormStepSplits(st: Loop)
    requires st.quote == Norm
    requires var t := StrObject.TrimLeft(st.line, InlineWhitespaces);
      t != "" && !StrObject.Begins(t, "#")
    ensures NormStep(st) == NormLine(st, StrObject.Split(StrObject.TrimLeft(st.line, InlineWhitespaces), "=", 2))
  {
  }

  /** With an `=` and a non-empty left side the key's list is reset. */
  lemma NormLineAssign(st: Loop, k: string, v: string)
    requires st.quote == Norm && k != ""
    ensures NormLine(st, [k, v]) == NormValue(st, StripExport(k), Put(st.data, StripExport(k), []), v)
  {
  }

  /** A line without `=` continues the last key's value: its fragments are
      appended to that key's list, which is not reset. */
  lemma NormStepContinues(st: Loop)
    requires st.quote == Norm
    requires var t := StrObject.TrimLeft(st.line, InlineWhitespaces);
      t != "" && !StrObject.Begins(t, "#") && '=' !in t
    ensures var t := StrObject.TrimLeft(st.line, InlineWhitespaces);
      var r := NormStep(st);
      var fs := PassFragments(Scan(StripExport(t), Norm, st.esc));
      && r.Ok? && r.st.lastKey == st.lastKey
      && Get(r.st.data, st.lastKey) == (if |fs| == 0 then Get(st.data, st.lastKey) else Some(Get(st.data, st.lastKey).GetOr([]) + fs))
      && (forall key :: key != st.lastKey ==> Get(r.st.data, key) == Get(st.data, key))
  {
    var t := StrObject.TrimLeft(st.line, InlineWhitespaces);
    StrObject.ExplodeWithoutSeparator(t, '=');
    assert StrObject.Split(t, "=", 2) == [t];
    var left := StripExport(t);
    assert StrObject.CharList(InlineWhitespaces) == InlineWhitespaces;
    if StrObject.Begins(t, "export") {
      StrObject.TrimLeftIdempotent(t[6..], InlineWhitespaces);
    } else {
      StrObject.TrimLeftIdempotent(st.line, InlineWhitespaces);
    }
    assert StrObject.TrimLeft(left, InlineWhitespaces) == left;
  }

  /** "No left part" is raised exactly when the left-trimmed line (not blank,
      not a comment) starts with `=`. */
  lemma NormStepNoLeftPart(st: Loop)
    requires st.quote == Norm
    requires var t := StrObject.TrimLeft(st.line, InlineWhitespaces);
      t != "" && !StrObject.Begins(t, "#")
    ensures NormStep(st) == Thrown(st, Syntax(st.idx + 1, NoLeftPart))
        <==> StrObject.TrimLeft(st.line, InlineWhitespaces)[0] == '='
  {
    var t := StrObject.TrimLeft(st.line, InlineWhitespaces);
    var parts := StrObject.Split(t, "=", 2);
    NormStepSplits(st);
    StrObject.SplitHeadEmpty(t, '=');
    assert parts[0] == "" <==> t[0] == '=';
    if parts[0] == "" {
      assert NormLine(st, parts) == Thrown(st, Syntax(st.idx + 1, NoLeftPart));
    }
  }

  // ---------------------------------------------------------------------------
  // Quoted state

  /** `needToContinueParseRightPart`: text is left and its first character
      is not a blank. */
  predicate NeedToContinue(line: string) {
    |line| > 0 && |StrObject.TrimLeft(StrObject.Substr(line, 0, Some(1)), InlineWhitespaces)| > 0
  }

  lemma NeedToContinueIff(line: string)
    ensures NeedToContinue(line) <==> |line| > 0 && line[0] != ' ' && line[0] != '\t'
  {
    if |line| > 0 {
      assert StrObject.Substr(line, 0, Some(1)) == [line[0]];
    }
  }

  /** The `do { ... } while (needToContinueParseRightPart($line))` loop:
      scanner passes over the line, each truthy text added to the last key,
      until the line is used up or the rest starts with a blank. */
  function ContinueQuoted(st: Loop, fuel: nat): (r: Outcome)
    ensures r.st.idx == st.idx && r.st.lastKey == st.lastKey
    ensures r.Thrown? ==> r.error == OutOfFuel
    ensures r.Ok? ==> !NeedToContinue(r.st.line)
    ensures UniqueKeys(st.data) ==> UniqueKeys(r.st.data)
    decreases fuel
  {
    if fuel == 0 then Thrown(st, OutOfFuel)
    else
      var pass := Scan(st.line, st.quote, st.esc);
      var data := if StrObject.Truthy(pass.text)
        then AddFragment(st.data, st.lastKey, Fragment(pass.text, pass.resolve))
        else st.data;
      var next := st.(line := st.line[pass.cursor..], quote := pass.quote, esc := pass.esc, data := data);
      if NeedToContinue(next.line) then ContinueQuoted(next, fuel - 1) else Ok(next)
  }

  /** One loop iteration in a quoted state: the continuation loop, then a
      " " joint when the line ended inside quotes. */
  function QuotedStep(st: Loop, fuel: nat): (r: Outcome)
    ensures r.st.idx == st.idx
    ensures r.Thrown? ==> r.error == OutOfFuel
    ensures UniqueKeys(st.data) ==> UniqueKeys(r.st.data)
  {
    match ContinueQuoted(st, fuel)
    case Thrown(s, e) => Thrown(s, e)
    case Ok(s) =>
      if s.quote != Norm then Ok(s.(data := AddFragment(s.data, s.lastKey, Fragment(" ", false))))
      else Ok(s)
  }

  function Process(st: Loop, fuel: nat): (r: Outcome)
    ensures r.st.idx == st.idx
    ensures r.Thrown? && r.error.Syntax? ==> r.error.line == st.idx + 1
    ensures r.Thrown? && r.error.Syntax? ==> r.error.reason != BrokenQuotes
    ensures UniqueKeys(st.data) ==> UniqueKeys(r.st.data)
  {
    if st.quote == Norm then NormStep(st) else QuotedStep(st, fuel)
  }

  /** The line one iteration works on: the current one while text is left;
      once it is used up the generator moves on (and the line counter with
      it), and there is nothing to process when the next line is missing or
      empty. */
  function Advance(lines: seq<string>, st: Loop): (r: Option<Loop>)
    requires st.idx < |lines|
    ensures r.None? <==> st.line == "" && (st.idx + 1 == |lines| || lines[st.idx + 1] == "")
    ensures r.Some? ==> st.idx <= r.value.idx < |lines| && r.value.data == st.data && r.value.line != ""
  {
    if st.line != "" then Some(st)
    else if st.idx + 1 == |lines| || lines[st.idx + 1] == "" then None
    else Some(st.(idx := st.idx + 1, line := lines[st.idx + 1]))
  }

  /** One iteration of `while ($lines->valid())`: the line it works on is
      processed, or the loop just moves past a missing or empty line. */
  function Body(lines: seq<string>, st: Loop, fuel: nat): (r: Outcome)
    requires st.idx < |lines|
    ensures st.idx <= r.st.idx <= |lines|
    ensures r.Thrown? && r.error.Syntax? ==> 1 <= r.error.line <= |lines| && r.error.reason != BrokenQuotes
    ensures UniqueKeys(st.data) ==> UniqueKeys(r.st.data)
  {
    match Advance(lines, st)
    case None => Ok(st.(idx := st.idx + 1, line := ""))
    case Some(cur) => Process(cur, fuel)
  }

  /** The line loop, one unit of fuel per iteration. */
  function Run(lines: seq<string>, st: Loop, fuel: nat): (r: Outcome)
    requires st.idx <= |lines|
    ensures r.Ok? ==> r.st.idx == |lines|
    ensures r.Thrown? && r.error.Syntax? ==> 1 <= r.error.line <= |lines| && r.error.reason != BrokenQuotes
    ensures UniqueKeys(st.data) ==> UniqueKeys(r.st.data)
    decreases fuel
  {
    if st.idx == |lines| then Ok(st)
    else if fuel == 0 then Thrown(st, OutOfFuel)
    else
      match Body(lines, st, fuel)
      case Thrown(s, e) => Thrown(s, e)
      case Ok(s) => Run(lines, s, fuel - 1)
  }

  // ---------------------------------------------------------------------------
  // Values

  /** The value of one key: each fragment substituted when its flag says
      so, concatenated in order (`$s .= $mbr ? resolve($v) : $v`). */
  function ResolveValue(env: Env, items: seq<Fragment>): (r: Result<string, Error>)
    ensures r.Failure? ==> r.error.Substitution?
    decreases |items|
  {
    if |items| == 0 then Success("")
    else
      var head :- if items[0].resolve then Resolver.Resolve(env, items[0].text) else Success(items[0].text);
      var tail :- ResolveValue(env, items[1..]);
      Success(head + tail)
  }

  /** The environment after the final loop of `parse`, and the substitution
      error that stopped it, if any (keys before it are already stored). */
  datatype Resolved = Resolved(env: Env, error: Option<Error>)

  /** Keys are resolved in first-assignment order, each against the
      environment holding the predefined values and the keys before it. */
  function ResolveAll(env: Env, data: Data): (r: Resolved)
    ensures Keys(env) <= Keys(r.env)
    ensures UniqueKeys(env) ==> UniqueKeys(r.env)
    ensures r.error.None? ==> forall i :: 0 <= i < |data| ==> data[i].0 in Keys(r.env)
    ensures r.error.Some? ==> r.error.value.Substitution?
    decreases |data|
  {
    if |data| == 0 then Resolved(env, None)
    else
      match ResolveValue(env, data[0].1)
      case Failure(e) => Resolved(env, Some(e))
      case Success(v) =>
        var env' := Put(env, data[0].0, v);
        var r := ResolveAll(env', data[1..]);
        assert data[0].0 in Keys(env');
        if r.error.None? then ResolvedHead(Keys(env'), data, Keys(r.env)); r else r
  }

  /** The key stored first stays stored after the rest of the keys. */
  lemma ResolvedHead(before: seq<string>, data: Data, after: seq<string>)
    requires |data| > 0 && data[0].0 in before && before <= after
    requires forall i :: 0 <= i < |data[1..]| ==> data[1..][i].0 in after
    ensures forall i :: 0 <= i < |data| ==> data[i].0 in after
  {
    PrefixKeepsMembers(before, after);
    assert forall i :: 1 <= i < |data| ==> data[i] == data[1..][i - 1];
  }

  lemma PrefixKeepsMembers(a: seq<string>, b: seq<string>)
    requires a <= b
    ensures forall x :: x in a ==> x in b
  {
    forall x | x in a
      ensures x in b
    {
      var j :| 0 <= j < |a| && a[j] == x;
      assert b[j] == x;
    }
  }

  // ---------------------------------------------------------------------------
  // parse

  /** The parser's fields that outlive a call. */
  datatype Parser = Parser(env: Env, quote: Quote, esc: bool)

  /** The array `parse` returns or the exception it throws, and the fields
      as they are afterwards. */
  datatype ParseOutcome = ParseOutcome(result: Result<Env, Error>, after: Parser)

  /** `parse`: content without `=` returns the environment untouched.
      Otherwise the lines are run through the loop; ending inside quotes is
      "Broken quotes" reported one past the last line; then the fragment
      lists are reduced and every key is resolved and stored. */
  function Parse(p: Parser, content: string, fuel: nat): (o: ParseOutcome)
    ensures '=' !in content ==> o == ParseOutcome(Success(p.env), p)
    ensures o.result.Success? ==> o.result.value == o.after.env
    ensures o.result.Success? && '=' in content ==> o.after.quote == Norm
    ensures o.result.Success? ==> Keys(p.env) <= Keys(o.result.value)
    ensures UniqueKeys(p.env) ==> UniqueKeys(o.after.env)
    ensures o.result.Failure? && o.result.error.Syntax? ==>
      && 1 <= o.result.error.line <= |ToLines(content)| + 1
      && (o.result.error.reason == BrokenQuotes <==> o.result.error.line == |ToLines(content)| + 1)
  {
    if '=' !in content then ParseOutcome(Success(p.env), p)
    else
      var lines := ToLines(content);
      var start := Loop(0, lines[0], p.quote, p.esc, "", []);
      match Run(lines, start, fuel)
      case Thrown(st, e) => ParseOutcome(Failure(e), Parser(p.env, st.quote, st.esc))
      case Ok(st) =>
        if st.quote != Norm then
          ParseOutcome(Failure(Syntax(st.idx + 1, BrokenQuotes)), Parser(p.env, st.quote, st.esc))
        else
          var resolved := ResolveAll(p.env, Reducer.ReduceWhitespaces(st.data));
          var after := Parser(resolved.env, st.quote, st.esc);
          match resolved.error
          case Some(e) => ParseOutcome(Failure(e), after)
          case None => ParseOutcome(Success(resolved.env), after)
  }
}

=== FILE: ordered_map.dfy ===
/** PHP arrays with string keys, as the parser uses them for the environment
    and for the per-key fragment lists: entries kept in first-insertion order,
    and assigning to an existing key replaces its value in place. */
module OrderedMap {
  import opened Wrappers

  type OMap<V> = seq<(string, V)>

  function Keys<V>(m: OMap<V>): (ks: seq<string>)
    ensures |ks| == |m|
    ensures forall i :: 0 <= i < |m| ==> ks[i] == m[i].0
    decreases |m|
  {
    if |m| == 0 then [] else [m[0].0] + Keys(m[1..])
  }

  /** No key is stored twice. */
  predicate UniqueKeys<V>(m: OMap<V>)
    decreases |m|
  {
    |m| == 0 || (m[0].0 !in Keys(m[1..]) && UniqueKeys(m[1..]))
  }

  /** `$m[$k]`: the value stored under `k`, or `None` when `k` is not a key. */
  function Get<V>(m: OMap<V>, k: string): (r: Option<V>)
    ensures r.Some? <==> k in Keys(m)
    decreases |m|
  {
    if |m| == 0 then None
    else if m[0].0 == k then Some(m[0].1)
    else Get(m[1..], k)
  }

  /** `$m[$k] = $v`: the entry for `k` now holds `v`, every other key keeps
      its value, an existing key keeps its position and a new key goes last. */
  function Put<V>(m: OMap<V>, k: string, v: V): (r: OMap<V>)
    ensures Get(r, k) == Some(v)
    ensures forall k' :: k' != k ==> Get(r, k') == Get(m, k')
    ensures k in Keys(m) ==> Keys(r) == Keys(m)
    ensures k !in Keys(m) ==> Keys(r) == Keys(m) + [k]
    ensures UniqueKeys(m) ==> UniqueKeys(r)
    decreases |m|
  {
    if |m| == 0 then [(k, v)]
    else if m[0].0 == k then
      PutFront(m, k, v);
      [(k, v)] + m[1..]
    else
      var rest := Put(m[1..], k, v);
      PutBehind(m, k, v, rest);
      [m[0]] + rest
  }

  /** Replacing the first entry's value. */
  lemma PutFront<V>(m: OMap<V>, k: string, v: V)
    requires |m| > 0 && m[0].0 == k
    ensures var r := [(k, v)] + m[1..];
      && Get(r, k) == Some(v)
      && (forall k' :: k' != k ==> Get(r, k') == Get(m, k'))
      && Keys(r) == Keys(m)
      && (UniqueKeys(m) ==> UniqueKeys(r))
  {
    var r := [(k, v)] + m[1..];
    assert r[1..] == m[1..];
  }

  /** Keeping the first entry in front of a map updated further on. */
  lemma PutBehind<V>(m: OMap<V>, k: string, v: V, rest: OMap<V>)
    requires |m| > 0 && m[0].0 != k
    requires Get(rest, k) == Some(v)
    requires forall k' :: k' != k ==> Get(rest, k') == Get(m[1..], k')
    requires k in Keys(m[1..]) ==> Keys(rest) == Keys(m[1..])
    requires k !in Keys(m[1..]) ==> Keys(rest) == Keys(m[1..]) + [k]
    requires UniqueKeys(m[1..]) ==> UniqueKeys(rest)
    ensures var r := [m[0]] + rest;
      && Get(r, k) == Some(v)
      && (forall k' :: k' != k ==> Get(r, k') == Get(m, k'))
      && (k in Keys(m) ==> Keys(r) == Keys(m))
      && (k !in Keys(m) ==> Keys(r) == Keys(m) + [k])
      && (UniqueKeys(m) ==> UniqueKeys(r))
  {
    var r := [m[0]] + rest;
    assert r[1..] == rest;
    GetBehind(m, k, rest);
    KeysBehind(m, k, rest);
  }

  lemma GetBehind<V>(m: OMap<V>, k: string, rest: OMap<V>)
    requires |m| > 0 && m[0].0 != k
    requires forall k' :: k' != k ==> Get(rest, k') == Get(m[1..], k')
    ensures forall k' :: k' != k ==> Get([m[0]] + rest, k') == Get(m, k')
  {
    var r := [m[0]] + rest;
    assert r[1..] == rest;
  }

  lemma KeysBehind<V>(m: OMap<V>, k: string, rest: OMap<V>)
    requires |m| > 0 && m[0].0 != k
    requires k in Keys(m[1..]) ==> Keys(rest) == Keys(m[1..])
    requires k !in Keys(m[1..]) ==> Keys(rest) == Keys(m[1..]) + [k]
    ensures Keys([m[0]] + rest) == [m[0].0] + Keys(rest)
    ensures k in Keys(m) ==> Keys([m[0]] + rest) == Keys(m)
    ensures k !in Keys(m) ==> Keys([m[0]] + rest) == Keys(m) + [k]
    ensures m[0].0 !in Keys(m[1..]) ==> m[0].0 !in Keys(rest)
  {
    var r := [m[0]] + rest;
    assert r[1..] == rest;
    assert Keys(m) == [m[0].0] + Keys(m[1..]);
    if k !in Keys(m) {
      KeysSnocAssoc(m[0].0, Keys(m[1..]), k);
    }
  }

  lemma KeysSnocAssoc(a: string, b: seq<string>, k: string)
    ensures [a] + (b + [k]) == [a] + b + [k]
  {
  }

  /** The keys of a map put back in first-insertion order start with the
      original keys: an update never moves an existing key. */
  lemma PutKeepsOrder<V>(m: OMap<V>, k: string, v: V)
    ensures Keys(m) <= Keys(Put(m, k, v))
  {
  }
}

=== FILE: parse_facts.dfy ===
/** Facts about whole runs of the line loop and of `parse`: what a simple
    assignment produces, where the syntax errors surface, how keys see the
    keys before them, and the inputs on which the loop never ends. */
module ParseFacts {
  import opened Wrappers
  import StrObject
  import opened Types
  import opened OrderedMap
  import opened Scanner
  import Reducer
  import Resolver
  import opened Driver

  // ---------------------------------------------------------------------------
  // Lines

  /** Content without line breaks is one line. */
  lemma OneLine(content: string)
    requires '\n' !in content && '\r' !in content
    ensures ToLines(content) == [content]
  {
    StrObject.ExplodeWithoutSeparator(content, '\n');
    assert "\n" == ['\n'];
  }

  /** Content with one line feed is two lines, split there. */
  lemma TwoLines(a: string, b: string)
    requires '\n' !in a && '\r' !in a && '\n' !in b && '\r' !in b
    ensures ToLines(a + "\n" + b) == [a, b]
  {
    assert "\n" == ['\n'];
    StrObject.ExplodeFirstPiece(a, '\n', b);
    StrObject.ExplodeWithoutSeparator(b, '\n');
  }

  // ---------------------------------------------------------------------------
  // Loops that never end

  /** Inside quotes, a line that starts with `#` and ends with a blank makes
      every scanner pass stop at once without consuming anything, while the
      line still needs continuing: the continuation loop never ends. */
  lemma {:induction false} ContinueQuotedDiverges(st: Loop, fuel: nat)
    requires !st.esc && |st.line| > 0 && st.line[0] == '#'
    requires st.line[|st.line| - 1] == ' ' || st.line[|st.line| - 1] == '\t'
    ensures ContinueQuoted(st, fuel) == Thrown(st, OutOfFuel)
    decreases fuel
  {
    if fuel > 0 {
      ScanHashLooksAtLastChar(st.line, st.quote, st.esc);
      NeedToContinueIff(st.line);
      assert st.line[0..] == st.line;
      assert st.(line := st.line[0..], quote := st.quote, esc := false, data := st.data) == st;
      ContinueQuotedDiverges(st, fuel - 1);
    }
  }

  /** One more iteration of a state that maps to itself changes nothing. */
  lemma RunRepeats(lines: seq<string>, st: Loop, fuel: nat)
    requires st.idx < |lines| && fuel > 0
    requires Body(lines, st, fuel) == Ok(st)
    requires Run(lines, st, fuel - 1) == Thrown(st, OutOfFuel)
    ensures Run(lines, st, fuel) == Thrown(st, OutOfFuel)
  {
  }

  /** A NORM state that one step maps to itself is never left. */
  lemma RunStuck(lines: seq<string>, st: Loop, fuel: nat)
    requires st.idx < |lines| && st.quote == Norm && st.line != ""
    requires NormStep(st) == Ok(st)
    ensures Run(lines, st, fuel) == Thrown(st, OutOfFuel)
  {
    var n := 0;
    while n < fuel
      invariant n <= fuel
      invariant Run(lines, st, n) == Thrown(st, OutOfFuel)
    {
      assert Body(lines, st, n + 1) == Ok(st);
      RunRepeats(lines, st, n + 1);
      n := n + 1;
    }
  }

  /** A NORM step into a state that one step maps to itself runs out of fuel there. */
  lemma RunIntoStuck(lines: seq<string>, st: Loop, fuel: nat, next: Loop)
    requires st.idx < |lines| && fuel > 0 && st.line != "" && st.quote == Norm
    requires NormStep(st) == Ok(next)
    requires next.idx < |lines| && next.quote == Norm && next.line != ""
    requires NormStep(next) == Ok(next)
    ensures Run(lines, st, fuel) == Thrown(next, OutOfFuel)
  {
    var n := 0;
    while n < fuel - 1
      invariant n <= fuel - 1
      invariant Run(lines, next, n) == Thrown(next, OutOfFuel)
    {
      assert Body(lines, next, n + 1) == Ok(next);
      RunRepeats(lines, next, n + 1);
      n := n + 1;
    }
    assert Body(lines, st, fuel) == Ok(next);
  }

  /** Outside quotes a lone trim character is a blank stop at position 0. */
  lemma ScanTrimChar(c: char)
    requires c in StrObject.DefaultTrimChars
    ensures Scan([c], Norm, false) == Pass("", 0, true, Norm, false)
  {
    ScanUnquoted("", [c]);
    assert "" + [c] == [c];
  }

  /** A line without `=` that is neither blank nor a comment after its
      inline blanks, and does not begin with "export", is value for the last
      key, taken as it is. */
  lemma NormStepBareLine(st: Loop)
    requires st.quote == Norm && |st.line| > 0
    requires st.line[0] != ' ' && st.line[0] != '\t' && st.line[0] != '#'
    requires '=' !in st.line && !StrObject.Begins(st.line, "export")
    ensures NormStep(st) == NormValue(st, st.lastKey, st.data, st.line)
  {
    assert StrObject.CharList(InlineWhitespaces) == InlineWhitespaces;
    var t := StrObject.TrimLeft(st.line, InlineWhitespaces);
    assert t == st.line;
    StrObject.ExplodeWithoutSeparator(t, '=');
    assert StrObject.Split(t, "=", 2) == [t];
  }

  /** Outside quotes, a line holding only a non-inline trim character (a
      vertical tab or a NUL byte) is a blank stop at position 0: the step
      keeps the line and the state does not move. */
  lemma TrimCharLineStuck(st: Loop, c: char)
    requires st.quote == Norm && !st.esc
    requires c in StrObject.DefaultTrimChars && c != ' ' && c != '\t'
    requires st.line == [c]
    ensures NormStep(st) == Ok(st)
  {
    assert !StrObject.Begins(st.line, "export");
    NormStepBareLine(st);
    ScanTrimChar(c);
    assert [c][0..] == [c];
  }

  // ---------------------------------------------------------------------------
  // Values

  /** The concatenated texts of a fragment list. */
  function Texts(items: seq<Fragment>): string
    decreases |items|
  {
    if |items| == 0 then "" else items[0].text + Texts(items[1..])
  }

  /** Fragments that are not substituted, or hold no `$`, are taken
      verbatim: the value is their concatenation. */
  lemma {:induction false} ResolveValueLiteral(env: Env, items: seq<Fragment>)
    requires forall i :: 0 <= i < |items| ==> !items[i].resolve || '$' !in items[i].text
    ensures ResolveValue(env, items) == Success(Texts(items))
    decreases |items|
  {
    if |items| > 0 {
      if items[0].resolve {
        Resolver.ResolveNoDollar(env, items[0].text);
      }
      assert forall i :: 0 <= i < |items[1..]| ==> items[1..][i] == items[i + 1];
      ResolveValueLiteral(env, items[1..]);
    }
  }

  /** A key whose value resolves is stored, and the rest is resolved
      against the environment that holds it. */
  lemma ResolveAllStores(env: Env, data: Data, v: string)
    requires |data| > 0 && ResolveValue(env, data[0].1) == Success(v)
    ensures ResolveAll(env, data) == ResolveAll(Put(env, data[0].0, v), data[1..])
  {
  }

  /** The value of a single substituted fragment. */
  lemma ResolveValueOne(env: Env, text: string, v: string)
    requires Resolver.Resolve(env, text) == Success(v)
    ensures ResolveValue(env, [Fragment(text, true)]) == Success(v)
  {
    assert [Fragment(text, true)][1..] == [];
    assert v + "" == v;
  }

  /** A key whose single fragment references an earlier key sees that key's
      resolved value; keys are stored in order. */
  lemma ResolveAllChained(env: Env, a: string, va: string, b: string)
    requires Resolver.IsWord(a) && '$' !in va && a != b
    ensures ResolveAll(env, [(a, [Fragment(va, true)]), (b, [Fragment("$" + a, true)])])
         == Resolved(Put(Put(env, a, va), b, Resolver.Value(Put(env, a, va), a)), None)
  {
    var data := [(a, [Fragment(va, true)]), (b, [Fragment("$" + a, true)])];
    var env1 := Put(env, a, va);
    Resolver.ResolveNoDollar(env, va);
    ResolveValueOne(env, va, va);
    ResolveAllStores(env, data, va);
    var v := Resolver.Value(env1, a);
    Resolver.ResolveLoneName(env1, a);
    ResolveValueOne(env1, "$" + a, v);
    assert data[1..] == [(b, [Fragment("$" + a, true)])];
    ResolveAllStores(env1, data[1..], v);
    assert data[1..][1..] == [];
  }

  /** A reference to a key assigned further down the file sees the value
      that key had before the call (empty when it had none). */
  lemma ResolveAllForward(env: Env, a: string, b: string, vb: string)
    requires Resolver.IsWord(b) && '$' !in vb && a != b
    ensures ResolveAll(env, [(a, [Fragment("$" + b, true)]), (b, [Fragment(vb, true)])])
         == Resolved(Put(Put(env, a, Resolver.Value(env, b)), b, vb), None)
  {
    var data := [(a, [Fragment("$" + b, true)]), (b, [Fragment(vb, true)])];
    var v := Resolver.Value(env, b);
    Resolver.ResolveLoneName(env, b);
    ResolveValueOne(env, "$" + b, v);
    ResolveAllStores(env, data, v);
    var env1 := Put(env, a, v);
    Resolver.ResolveNoDollar(env1, vb);
    ResolveValueOne(env1, vb, vb);
    assert data[1..] == [(b, [Fragment(vb, true)])];
    ResolveAllStores(env1, data[1..], vb);
    assert data[1..][1..] == [];
  }

  // ---------------------------------------------------------------------------
  // Whole runs

  /** An iteration that continues is followed by the rest of the loop. */
  lemma RunContinues(lines: seq<string>, st: Loop, fuel: nat, next: Loop)
    requires st.idx < |lines| && fuel > 0 && next.idx <= |lines|
    requires Body(lines, st, fuel) == Ok(next)
    ensures Run(lines, st, fuel) == Run(lines, next, fuel - 1)
  {
  }

  /** An iteration that throws ends the loop with its error. */
  lemma RunThrows(lines: seq<string>, st: Loop, fuel: nat, at: Loop, e: Error)
    requires st.idx < |lines| && fuel > 0
    requires Body(lines, st, fuel) == Thrown(at, e)
    ensures Run(lines, st, fuel) == Thrown(at, e)
  {
  }

  /** A NORM step that throws on a non-empty line ends the loop with its
      error. */
  lemma RunNormThrows(lines: seq<string>, st: Loop, fuel: nat, e: Error)
    requires st.idx < |lines| && fuel > 0 && st.line != "" && st.quote == Norm
    requires NormStep(st) == Thrown(st, e)
    ensures Run(lines, st, fuel) == Thrown(st, e)
  {
    assert Body(lines, st, fuel) == Thrown(st, e);
  }

  /** A NORM step that does not throw on a non-empty line is followed by
      the rest of the loop. */
  lemma RunNormContinues(lines: seq<string>, st: Loop, fuel: nat, next: Loop)
    requires st.idx < |lines| && fuel > 0 && st.line != "" && st.quote == Norm
    requires NormStep(st) == Ok(next) && next.idx <= |lines|
    ensures Run(lines, st, fuel) == Run(lines, next, fuel - 1)
  {
    assert Body(lines, st, fuel) == Ok(next);
  }

  /** An iteration whose line throws ends the loop with its error. */
  lemma RunStepThrows(lines: seq<string>, st: Loop, fuel: nat, cur: Loop, at: Loop, e: Error)
    requires st.idx < |lines| && fuel > 0
    requires Advance(lines, st) == Some(cur) && Process(cur, fuel) == Thrown(at, e)
    ensures Run(lines, st, fuel) == Thrown(at, e)
  {
  }

  /** A one-line file whose first step uses the line up leaves the loop
      after one more iteration, with the state of that step. */
  lemma RunOneLine(line: string, st: Loop, fuel: nat, next: Loop)
    requires st.idx == 0 && st.line == line && line != "" && fuel >= 2
    requires Process(st, fuel) == Ok(next) && next.line == ""
    ensures Run([line], st, fuel) == Ok(next.(idx := 1, line := ""))
  {
    assert next.idx == 0;
    assert Body([line], st, fuel) == Ok(next);
    RunContinues([line], st, fuel, next);
    assert Body([line], next, fuel - 1) == Ok(next.(idx := 1, line := ""));
    RunContinues([line], next, fuel - 1, next.(idx := 1, line := ""));
  }

  /** A word that neither starts with a blank nor contains `=`, a line
      break, or a leading `#`, and does not begin with "export". */
  predicate PlainKey(k: string) {
    && k != "" && k[0] != ' ' && k[0] != '\t' && k[0] != '#'
    && '=' !in k && '\n' !in k && '\r' !in k
    && !StrObject.Begins(k, "export")
  }

  /** An unquoted value without references: no quotes, backslashes,
      semicolons, `$`, blanks or leading `#`. */
  predicate PlainValue(v: string) {
    && (forall i :: 0 <= i < |v| ==> IsPlain(v[i]) && v[i] != '$')
    && (|v| > 0 ==> v[0] != '#')
  }

  /** The value a plain value is stored as: PHP drops a falsy "0". */
  function Stored(v: string): string {
    if StrObject.Truthy(v) then v else ""
  }

  /** A plain value has nothing for `trim` to remove. */
  lemma PlainTrimmed(v: string)
    requires PlainValue(v)
    ensures StrObject.Trim(v, "") == v
  {
    if |v| > 0 {
      assert StrObject.CharList("") == StrObject.DefaultTrimChars;
      assert StrObject.TrimLeftBy(v, StrObject.DefaultTrimChars) == v;
      assert StrObject.TrimRightBy(v, StrObject.DefaultTrimChars) == v;
    }
  }

  /** The fragment list of a plain value reduces to one fragment holding
      the stored value. */
  lemma ReducePlain(v: string)
    requires PlainValue(v)
    ensures Reducer.ReduceItems(PassFragments(Pass(v, |v|, true, Norm, false)))
         == [Fragment(Stored(v), StrObject.Truthy(v))]
  {
    if StrObject.Truthy(v) {
      var f := Fragment(v, true);
      assert PassFragments(Pass(v, |v|, true, Norm, false)) == [f];
      Reducer.BlankIsWhitespaces(f);
      Reducer.SubstantiveOne(f);
      Reducer.ReduceSingle([f]);
      PlainTrimmed(v);
    }
  }

  /** The fragments of one pass land in the new list of their key. */
  lemma AddToFresh(k: string, fs: seq<Fragment>)
    requires |fs| <= 1
    ensures AddAll([(k, [])], k, fs) == [(k, fs)]
  {
    if |fs| == 1 {
      var m: Data := [(k, [])];
      assert fs == [fs[0]] && fs[1..] == [];
      assert Get(m, k) == Some([]);
      assert m[1..] == [];
      assert Get(m, k).GetOr([]) + [fs[0]] == [fs[0]];
      assert Put(m, k, [fs[0]]) == [(k, [fs[0]])] + m[1..];
      assert AddFragment(m, k, fs[0]) == [(k, fs)];
    }
  }

  /** A single fragment that needs no substitution is its own value. */
  lemma ResolveValueText(env: Env, f: Fragment)
    requires !f.resolve || '$' !in f.text
    ensures ResolveValue(env, [f]) == Success(f.text)
  {
    ResolveValueLiteral(env, [f]);
    assert [f][1..] == [];
    assert Texts([f]) == f.text + Texts([]);
    assert f.text + "" == f.text;
  }

  /** A plain value part is taken whole by one pass into the key's new
      list, and the line is used up. */
  lemma NormValuePlain(st: Loop, k: string, v: string)
    requires st.quote == Norm && !st.esc && PlainValue(v)
    ensures NormValue(st, k, [(k, [])], v)
         == Ok(Loop(st.idx, "", Norm, false, k, [(k, PassFragments(Pass(v, |v|, true, Norm, false)))]))
  {
    var pass := Pass(v, |v|, true, Norm, false);
    var fs := PassFragments(pass);
    assert v[|v|..] == "";
    ScanPlain(v);
    InlineTrimmed(v);
    AddToFresh(k, fs);
    NormValueOk(st, k, [(k, [])], v, pass, "", [(k, fs)]);
  }

  /** One pass takes a plain value whole. */
  lemma ScanPlain(v: string)
    requires PlainValue(v)
    ensures Scan(v, Norm, false) == Pass(v, |v|, true, Norm, false)
  {
    ScanUnquoted(v, "");
    StrObject.AppendEmpty(v);
  }

  /** A value part without a leading blank is scanned, the rest of the line
      is kept, and the pass's fragments are added to the key. */
  lemma NormValueOk(st: Loop, key: string, data: Data, v: string, pass: Pass, rest: string, added: Data)
    requires st.quote == Norm && StrObject.TrimLeft(v, InlineWhitespaces) == v
    requires Scan(v, Norm, st.esc) == pass && rest == v[pass.cursor..]
    requires AddAll(data, key, PassFragments(pass)) == added
    ensures NormValue(st, key, data, v) == Ok(Loop(st.idx, rest, pass.quote, pass.esc, key, added))
  {
  }

  /** The step over a plain assignment line stores the value's fragments
      under the key and uses the line up. */
  lemma StepSimpleAssignment(k: string, v: string)
    requires PlainKey(k) && PlainValue(v)
    ensures var content := k + "=" + v;
      var fs := PassFragments(Pass(v, |v|, true, Norm, false));
      NormStep(Loop(0, content, Norm, false, "", [])) == Ok(Loop(0, "", Norm, false, k, [(k, fs)]))
  {
    var content := k + "=" + v;
    var start := Loop(0, content, Norm, false, "", []);
    var reset: Data := [(k, [])];
    assert NormStep(start) == NormValue(start, k, reset, v) by {
      assert content[0] == k[0];
      InlineTrimmed(content);
      NormStepIsValue(start, k, v);
      var empty: Data := [];
      assert Put(empty, k, []) == reset;
    }
    NormValuePlain(start, k, v);
  }

  /** The loop over a one-line plain assignment ends after two iterations. */
  lemma RunSimpleAssignment(k: string, v: string, fuel: nat)
    requires fuel >= 2 && PlainKey(k) && PlainValue(v)
    ensures var content := k + "=" + v;
      var fs := PassFragments(Pass(v, |v|, true, Norm, false));
      Run([content], Loop(0, content, Norm, false, "", []), fuel) == Ok(Loop(1, "", Norm, false, k, [(k, fs)]))
  {
    var content := k + "=" + v;
    var fs := PassFragments(Pass(v, |v|, true, Norm, false));
    StepSimpleAssignment(k, v);
    RunOneLine(content, Loop(0, content, Norm, false, "", []), fuel, Loop(0, "", Norm, false, k, [(k, fs)]));
  }

  /** One plain assignment `k=v` on its own: the key is stored with the
      value (empty for "0"), and the parser ends outside quotes. */
  lemma ParseSimpleAssignment(p: Parser, k: string, v: string, fuel: nat)
    requires p.quote == Norm && !p.esc && fuel >= 2
    requires PlainKey(k) && PlainValue(v)
    ensures var env := Put(p.env, k, Stored(v));
      Parse(p, k + "=" + v, fuel) == ParseOutcome(Success(env), Parser(env, Norm, false))
  {
    var content := k + "=" + v;
    PlainValueOneLine(v);
    OneLine(content);
    RunSimpleAssignment(k, v, fuel);
    var fs := PassFragments(Pass(v, |v|, true, Norm, false));
    var reduced := Reducer.ReduceWhitespaces([(k, fs)]);
    assert reduced == [(k, Reducer.ReduceItems(fs))];
    ReducePlain(v);
    var item := Fragment(Stored(v), StrObject.Truthy(v));
    ResolveValueText(p.env, item);
    ResolveAllStores(p.env, reduced, Stored(v));
    assert reduced[1..] == [];
  }

  // ---------------------------------------------------------------------------
  // Syntax errors and loops that never end, as `parse` reports them

  /** A first line that starts with `=` is "No left part" on line 1; the
      environment is untouched. */
  lemma ParseNoLeftPart(p: Parser, rest: string, fuel: nat)
    requires p.quote == Norm && fuel >= 1
    requires '\n' !in rest && '\r' !in rest
    ensures Parse(p, "=" + rest, fuel)
         == ParseOutcome(Failure(Syntax(1, NoLeftPart)), Parser(p.env, Norm, p.esc))
  {
    var content := "=" + rest;
    var start := Loop(0, content, Norm, p.esc, "", []);
    assert content[0] == '=';
    OneLine(content);
    InlineTrimmed(content);
    NormStepNoLeftPart(start);
    RunNormThrows([content], start, fuel, Syntax(1, NoLeftPart));
    ParseOfThrown(p, content, fuel, [content], start, Syntax(1, NoLeftPart));
  }

  /** A value part that starts with a blank is a syntax error on its line. */
  lemma ParseWhitespaceDelimiter(p: Parser, k: string, v: string, fuel: nat)
    requires p.quote == Norm && fuel >= 1 && PlainKey(k)
    requires |v| > 0 && (v[0] == ' ' || v[0] == '\t') && '\n' !in v && '\r' !in v
    ensures Parse(p, k + "=" + v, fuel)
         == ParseOutcome(Failure(Syntax(1, WhitespaceDelimiters)), Parser(p.env, Norm, p.esc))
  {
    var content := k + "=" + v;
    var start := Loop(0, content, Norm, p.esc, "", []);
    assert content[0] == k[0] && content[|k|] == '=';
    OneLine(content);
    InlineTrimmed(content);
    StepWhitespaceDelimiter(start, k, v);
    RunNormThrows([content], start, fuel, Syntax(1, WhitespaceDelimiters));
    ParseOfThrown(p, content, fuel, [content], start, Syntax(1, WhitespaceDelimiters));
  }

  /** The step on `k=` followed by a blank throws on its line. */
  lemma StepWhitespaceDelimiter(st: Loop, k: string, v: string)
    requires st.quote == Norm && StrObject.TrimLeft(st.line, InlineWhitespaces) == k + "=" + v
    requires k != "" && '=' !in k && k[0] != '#'
    requires |v| > 0 && (v[0] == ' ' || v[0] == '\t')
    ensures NormStep(st) == Thrown(st, Syntax(st.idx + 1, WhitespaceDelimiters))
  {
    NormStepIsValue(st, k, v);
    var key := StripExport(k);
    NormValueBlank(st, key, Put(st.data, key, []), v);
  }

  /** The value step throws on a value part that starts with a blank. */
  lemma NormValueBlank(st: Loop, key: string, data: Data, v: string)
    requires st.quote == Norm && |v| > 0 && (v[0] == ' ' || v[0] == '\t')
    ensures NormValue(st, key, data, v) == Thrown(st, Syntax(st.idx + 1, WhitespaceDelimiters))
  {
    InlineTrimmed(v);
  }

  /** The loop over a plain assignment followed by a line starting with
      `=`: the second iteration throws on line 2. */
  lemma RunNoLeftPartOnSecondLine(k: string, v: string, second: string, fuel: nat)
    requires fuel >= 2 && PlainKey(k) && PlainValue(v) && |second| > 0 && second[0] == '='
    ensures var fs := PassFragments(Pass(v, |v|, true, Norm, false));
      Run([k + "=" + v, second], Loop(0, k + "=" + v, Norm, false, "", []), fuel)
      == Thrown(Loop(1, second, Norm, false, k, [(k, fs)]), Syntax(2, NoLeftPart))
  {
    var first := k + "=" + v;
    var lines := [first, second];
    var start := Loop(0, first, Norm, false, "", []);
    var fs := PassFragments(Pass(v, |v|, true, Norm, false));
    var st1 := Loop(0, "", Norm, false, k, [(k, fs)]);
    var st2 := Loop(1, second, Norm, false, k, [(k, fs)]);
    assert first[|k|] == '=';
    StepSimpleAssignment(k, v);
    RunNormContinues(lines, start, fuel, st1);
    assert NormStep(st2) == Thrown(st2, Syntax(2, NoLeftPart)) by {
      InlineTrimmed(second);
      NormStepNoLeftPart(st2);
    }
    assert Advance(lines, st1) == Some(st2);
    RunStepThrows(lines, st1, fuel - 1, st2, st2, Syntax(2, NoLeftPart));
  }

  /** Line numbers count physical lines: after a plain assignment, a line
      starting with `=` is "No left part" on line 2, and the first key is
      not stored. */
  lemma ParseNoLeftPartOnSecondLine(p: Parser, k: string, v: string, rest: string, fuel: nat)
    requires p.quote == Norm && !p.esc && fuel >= 2
    requires PlainKey(k) && PlainValue(v) && '\n' !in rest && '\r' !in rest
    ensures Parse(p, k + "=" + v + "\n" + "=" + rest, fuel)
         == ParseOutcome(Failure(Syntax(2, NoLeftPart)), Parser(p.env, Norm, false))
  {
    var first := k + "=" + v;
    var second := "=" + rest;
    var head := first + "\n";
    var content := head + second;
    assert second[0] == '=';
    assert '=' in content;
    StrObject.AppendAssoc(head, "=", rest);
    PlainValueOneLine(v);
    TwoLines(first, second);
    RunNoLeftPartOnSecondLine(k, v, second, fuel);
    var fs := PassFragments(Pass(v, |v|, true, Norm, false));
    ParseOfThrown(p, content, fuel, [first, second], Loop(1, second, Norm, false, k, [(k, fs)]), Syntax(2, NoLeftPart));
  }

  /** A plain value stays on one line. */
  lemma PlainValueOneLine(v: string)
    requires PlainValue(v)
    ensures '\n' !in v && '\r' !in v
  {
    assert forall i :: 0 <= i < |v| ==> v[i] != '\n' && v[i] != '\r';
  }

  /** A run that throws is what `parse` reports, with the environment
      untouched and the quote state at the throw. */
  lemma ParseOfThrown(p: Parser, content: string, fuel: nat, lines: seq<string>, at: Loop, e: Error)
    requires '=' in content && ToLines(content) == lines
    requires Run(lines, Loop(0, lines[0], p.quote, p.esc, "", []), fuel) == Thrown(at, e)
    ensures Parse(p, content, fuel) == ParseOutcome(Failure(e), Parser(p.env, at.quote, at.esc))
  {
  }

  /** Inside quotes, a line that starts with `#` and ends with a blank never
      finishes; the parser is left as it was. */
  lemma ParseDivergesInQuotes(p: Parser, h: string, fuel: nat)
    requires p.quote != Norm && !p.esc
    requires |h| > 0 && h[0] == '#' && (h[|h| - 1] == ' ' || h[|h| - 1] == '\t')
    requires '=' in h && '\n' !in h && '\r' !in h
    ensures Parse(p, h, fuel) == ParseOutcome(Failure(OutOfFuel), p)
  {
    OneLine(h);
    var start := Loop(0, h, p.quote, false, "", []);
    if fuel > 0 {
      ContinueQuotedDiverges(start, fuel);
      assert Body([h], start, fuel) == Thrown(start, OutOfFuel);
      RunThrows([h], start, fuel, start, OutOfFuel);
    }
  }

  /** The step over `k=` and a lone trim character resets the key and
      stops before the character. */
  lemma StepTrimCharAssignment(k: string, c: char)
    requires PlainKey(k) && c in StrObject.DefaultTrimChars && c != ' ' && c != '\t'
    ensures NormStep(Loop(0, k + "=" + [c], Norm, false, "", [])) == Ok(Loop(0, [c], Norm, false, k, [(k, [])]))
  {
    var content := k + "=" + [c];
    var start := Loop(0, content, Norm, false, "", []);
    var reset: Data := [(k, [])];
    assert NormStep(start) == NormValue(start, k, reset, [c]) by {
      assert content[0] == k[0];
      InlineTrimmed(content);
      NormStepIsValue(start, k, [c]);
      var empty: Data := [];
      assert Put(empty, k, []) == reset;
    }
    ScanTrimChar(c);
    InlineTrimmed([c]);
    assert [c][0..] == [c];
  }

  /** The loop over `k=` and a lone NUL byte or vertical tab runs out of
      fuel outside quotes, whatever the fuel. */
  lemma RunTrimCharDiverges(k: string, c: char, fuel: nat)
    requires PlainKey(k) && (c == 0 as char || c == 11 as char)
    ensures var r := Run([k + "=" + [c]], Loop(0, k + "=" + [c], Norm, false, "", []), fuel);
      r.Thrown? && r.error == OutOfFuel && r.st.quote == Norm && !r.st.esc
  {
    var content := k + "=" + [c];
    var start := Loop(0, content, Norm, false, "", []);
    if fuel > 0 {
      var st1 := Loop(0, [c], Norm, false, k, [(k, [])]);
      StepTrimCharAssignment(k, c);
      TrimCharLineStuck(st1, c);
      assert content[|k|] == '=';
      RunIntoStuck([content], start, fuel, st1);
    } else {
      assert Run([content], start, fuel) == Thrown(start, OutOfFuel);
    }
  }

  /** Outside quotes, `k=` followed by a lone NUL byte or vertical tab
      never finishes: the value part stops at once and stays on the line. */
  lemma ParseTrimCharDiverges(p: Parser, k: string, c: char, fuel: nat)
    requires p.quote == Norm && !p.esc && PlainKey(k)
    requires c == 0 as char || c == 11 as char
    ensures Parse(p, k + "=" + [c], fuel) == ParseOutcome(Failure(OutOfFuel), Parser(p.env, Norm, false))
  {
    OneLine(k + "=" + [c]);
    RunTrimCharDiverges(k, c, fuel);
  }
}

=== FILE: reducer.dfy ===
/** `reduceWhitespaces`: the cleanup applied to each key's fragment list
    before the fragments are resolved and joined. Blank fragments (only
    default trim characters) around the value are dropped, substantive
    fragments are trimmed, and a run of blank fragments between two
    substantive ones becomes a single space. */
module Reducer {
  import opened Wrappers
  import StrObject
  import opened Types
  import opened OrderedMap

  /** `$item[2]`: the fragment's text is empty or only whitespace
      (`isWhitespaces`, see `BlankIsWhitespaces`). */
  predicate IsBlank(f: Fragment) {
    AllWhitespace(f.text)
  }

  predicate AllWhitespace(s: string)
    decreases |s|
  {
    |s| == 0 || (s[0] in StrObject.DefaultTrimChars && AllWhitespace(s[1..]))
  }

  lemma {:induction false} AllWhitespaceChars(s: string)
    ensures AllWhitespace(s) <==> forall i :: 0 <= i < |s| ==> s[i] in StrObject.DefaultTrimChars
    decreases |s|
  {
    if |s| > 0 {
      AllWhitespaceChars(s[1..]);
      assert forall i :: 1 <= i < |s| ==> s[i] == s[1..][i - 1];
    }
  }

  /** The blank test is `StrObject::isWhitespaces`. */
  lemma BlankIsWhitespaces(f: Fragment)
    ensures IsBlank(f) <==> StrObject.IsWhitespaces(f.text)
  {
    AllWhitespaceChars(f.text);
  }

  /** `[trim($item[0]), $item[1]]` with PHP's default trim list. */
  function TrimFragment(f: Fragment): Fragment {
    Fragment(StrObject.Trim(f.text, ""), f.resolve)
  }

  /** Trimming keeps a fragment blank or substantive. */
  lemma TrimFragmentKeepsBlankness(f: Fragment)
    ensures IsBlank(TrimFragment(f)) <==> IsBlank(f)
  {
    var t := StrObject.Trim(f.text, "");
    assert StrObject.CharList("") == StrObject.DefaultTrimChars;
    StrObject.TrimEmptyIff(f.text, StrObject.DefaultTrimChars);
    AllWhitespaceChars(f.text);
    AllWhitespaceChars(t);
  }

  /** `$indexMin`: the first substantive fragment. */
  function FirstSubstantive(items: seq<Fragment>): (r: Option<nat>)
    ensures r.Some? ==> r.value < |items| && !IsBlank(items[r.value])
    ensures r.Some? ==> forall j :: 0 <= j < r.value ==> IsBlank(items[j])
    ensures r.None? ==> forall j :: 0 <= j < |items| ==> IsBlank(items[j])
    decreases |items|
  {
    if |items| == 0 then None
    else if !IsBlank(items[0]) then Some(0)
    else match FirstSubstantive(items[1..])
      case None => None
      case Some(k) => Some(k + 1)
  }

  /** `$indexMax`: the last substantive fragment. */
  function LastSubstantive(items: seq<Fragment>): (r: Option<nat>)
    ensures r.Some? ==> r.value < |items| && !IsBlank(items[r.value])
    ensures r.Some? ==> forall j :: r.value < j < |items| ==> IsBlank(items[j])
    ensures r.None? ==> forall j :: 0 <= j < |items| ==> IsBlank(items[j])
    decreases |items|
  {
    if |items| == 0 then None
    else if !IsBlank(items[|items| - 1]) then Some(|items| - 1)
    else LastSubstantive(items[..|items| - 1])
  }

  /** `array_slice($a, $offset, $length)` for a non-negative offset and length. */
  function ArraySlice<T>(a: seq<T>, offset: nat, length: nat): (r: seq<T>)
    ensures offset <= |a| ==> r == a[offset..if offset + length <= |a| then offset + length else |a|]
    ensures offset > |a| ==> r == []
  {
    if offset > |a| then []
    else if offset + length <= |a| then a[offset..offset + length]
    else a[offset..]
  }

  /** What the collapsing loop emits for the `i`-th fragment of the slice:
      a substantive fragment trimmed, the first blank of a run as one space
      (keeping the blank's resolve flag), later blanks of the run nothing. */
  function Emit(slice: seq<Fragment>, i: nat): seq<Fragment>
    requires i < |slice|
  {
    if !IsBlank(slice[i]) then [TrimFragment(slice[i])]
    else if i > 0 && IsBlank(slice[i - 1]) then []
    else [Fragment(" ", slice[i].resolve)]
  }

  /** The collapsing loop over the first `n` fragments of the slice. */
  function CollapseUpTo(slice: seq<Fragment>, n: nat): (r: seq<Fragment>)
    requires n <= |slice|
    ensures n > 0 ==> |r| > 0
  {
    if n == 0 then [] else CollapseUpTo(slice, n - 1) + Emit(slice, n - 1)
  }

  function Collapse(slice: seq<Fragment>): (r: seq<Fragment>)
    ensures |slice| > 0 ==> |r| > 0
  {
    CollapseUpTo(slice, |slice|)
  }

  /** `reduceWhitespaces` for one key. An empty list becomes the empty value
      (PHP stores `['', false]`, which the joining loop reads as ""). */
  function ReduceItems(items: seq<Fragment>): (r: seq<Fragment>)
    ensures |r| >= 1
  {
    if |items| == 0 then [Fragment("", false)]
    else ReduceBetween(items, FirstSubstantive(items), LastSubstantive(items))
  }

  /** The non-empty case, given `$indexMin` and `$indexMax` when some
      fragment is substantive; both stay 0 when every fragment is blank. */
  function ReduceBetween(items: seq<Fragment>, first: Option<nat>, last: Option<nat>): (r: seq<Fragment>)
    requires |items| > 0
    requires first.Some? ==> first.value < |items|
    ensures |r| >= 1
  {
    if first.None? || last.None? then [TrimFragment(items[0])]
    else if first.value == last.value then [TrimFragment(items[first.value])]
    else
      Collapse(ArraySlice(items, first.value, last.value + 1))
  }

  /** `reduceWhitespaces($dataEnv)`: every key's list reduced, the keys and
      their order unchanged. */
  function ReduceWhitespaces(data: OMap<seq<Fragment>>): (r: OMap<seq<Fragment>>)
    ensures Keys(r) == Keys(data)
    ensures forall i :: 0 <= i < |data| ==> r[i].1 == ReduceItems(data[i].1)
    decreases |data|
  {
    if |data| == 0 then []
    else [(data[0].0, ReduceItems(data[0].1))] + ReduceWhitespaces(data[1..])
  }

  // ---------------------------------------------------------------------------
  // The reference: the substantive fragments, in order.

  /** The substantive fragments of a list, in order. */
  function Substantive(items: seq<Fragment>): seq<Fragment>
    decreases |items|
  {
    if |items| == 0 then []
    else Substantive(items[..|items| - 1]) + Kept(items[|items| - 1])
  }

  /** A fragment's contribution to the substance: itself unless blank. */
  function Kept(f: Fragment): seq<Fragment> {
    if IsBlank(f) then [] else [f]
  }

  function TrimAll(items: seq<Fragment>): (r: seq<Fragment>)
    ensures |r| == |items|
    ensures forall i :: 0 <= i < |items| ==> r[i] == TrimFragment(items[i])
  {
    seq(|items|, i requires 0 <= i < |items| => TrimFragment(items[i]))
  }

  lemma {:induction false} SubstantiveConcat(a: seq<Fragment>, b: seq<Fragment>)
    ensures Substantive(a + b) == Substantive(a) + Substantive(b)
    decreases |b|
  {
    if |b| == 0 {
      assert a + b == a;
    } else {
      var ab := a + b;
      var front := b[..|b| - 1];
      var k := Kept(b[|b| - 1]);
      assert ab[..|ab| - 1] == a + front;
      assert ab[|ab| - 1] == b[|b| - 1];
      SubstantiveConcat(a, front);
      calc {
        Substantive(ab);
        Substantive(a + front) + k;
        Substantive(a) + Substantive(front) + k;
        { StrObject.AppendAssoc(Substantive(a), Substantive(front), k); }
        Substantive(a) + (Substantive(front) + k);
        Substantive(a) + Substantive(b);
      }
    }
  }

  lemma {:induction false} SubstantiveAllBlank(a: seq<Fragment>)
    requires forall j :: 0 <= j < |a| ==> IsBlank(a[j])
    ensures Substantive(a) == []
    decreases |a|
  {
    if |a| > 0 {
      SubstantiveAllBlank(a[..|a| - 1]);
    }
  }

  lemma SubstantiveSnoc(items: seq<Fragment>, n: nat)
    requires 0 < n <= |items|
    ensures Substantive(items[..n]) == Substantive(items[..n - 1]) + Kept(items[n - 1])
  {
    assert items[..n][..n - 1] == items[..n - 1];
  }

  lemma SubstantiveOne(f: Fragment)
    ensures Substantive([f]) == if IsBlank(f) then [] else [f]
  {
    assert [f][..0] == [];
  }

  lemma TrimAllConcat(a: seq<Fragment>, b: seq<Fragment>)
    ensures TrimAll(a + b) == TrimAll(a) + TrimAll(b)
  {
    var l, r := TrimAll(a + b), TrimAll(a) + TrimAll(b);
    assert |l| == |r|;
    forall i | 0 <= i < |l|
      ensures l[i] == r[i]
    {
      if i < |a| {
        assert (a + b)[i] == a[i];
      } else {
        assert (a + b)[i] == b[i - |a|];
      }
    }
  }

  /** The trimmed substance of a single fragment. */
  function KeptTrimmed(x: Fragment): seq<Fragment> {
    if IsBlank(x) then [] else [TrimFragment(x)]
  }

  lemma TrimAllOne(x: Fragment)
    ensures TrimAll(Kept(x)) == KeptTrimmed(x)
  {
  }

  /** The substantive fragments of what the loop emits for one fragment. */
  lemma SubstantiveEmit(slice: seq<Fragment>, i: nat)
    requires i < |slice|
    ensures Substantive(Emit(slice, i)) == KeptTrimmed(slice[i])
  {
    TrimFragmentKeepsBlankness(slice[i]);
    SpaceIsBlank(slice[i].resolve);
    if Emit(slice, i) != [] {
      SubstantiveOne(Emit(slice, i)[0]);
    }
  }

  /** The collapsed slice keeps each substantive fragment, trimmed, in order. */
  lemma {:induction false} CollapseShape(slice: seq<Fragment>, n: nat)
    requires n <= |slice|
    ensures Substantive(CollapseUpTo(slice, n)) == TrimAll(Substantive(slice[..n]))
    decreases n
  {
    if n > 0 {
      CollapseShape(slice, n - 1);
      CollapseSubstanceStep(slice, n);
      TrimAllOne(slice[n - 1]);
      TrimAllConcat(Substantive(slice[..n - 1]), Kept(slice[n - 1]));
      SubstantiveSnoc(slice, n);
    }
  }

  /** One more fragment through the loop adds its own trimmed substance. */
  lemma CollapseSubstanceStep(slice: seq<Fragment>, n: nat)
    requires 0 < n <= |slice|
    ensures Substantive(CollapseUpTo(slice, n))
         == Substantive(CollapseUpTo(slice, n - 1)) + KeptTrimmed(slice[n - 1])
  {
    EmitSubstance(slice, n - 1, CollapseUpTo(slice, n - 1), CollapseUpTo(slice, n));
  }

  /** Whatever precedes it, an emitted step adds its fragment's trimmed substance. */
  lemma EmitSubstance(slice: seq<Fragment>, i: nat, a: seq<Fragment>, ab: seq<Fragment>)
    requires i < |slice| && ab == a + Emit(slice, i)
    ensures Substantive(ab) == Substantive(a) + KeptTrimmed(slice[i])
  {
    SubstantiveEmit(slice, i);
    SubstanceAppend(a, Emit(slice, i), ab, KeptTrimmed(slice[i]));
  }

  lemma SubstanceAppend(a: seq<Fragment>, b: seq<Fragment>, ab: seq<Fragment>, t: seq<Fragment>)
    requires ab == a + b && Substantive(b) == t
    ensures Substantive(ab) == Substantive(a) + t
  {
    SubstantiveConcat(a, b);
  }

  /** One output fragment per substantive fragment or per run of blanks: the
      collapsed prefix is non-empty and ends blank exactly when the slice's
      prefix does. */
  lemma {:induction false} CollapseLast(slice: seq<Fragment>, n: nat)
    requires 0 < n <= |slice|
    ensures |CollapseUpTo(slice, n)| > 0
    ensures var c := CollapseUpTo(slice, n); IsBlank(c[|c| - 1]) <==> IsBlank(slice[n - 1])
    decreases n
  {
    if !IsBlank(slice[n - 1]) {
      CollapseLastKept(slice, n);
    } else if n > 1 && IsBlank(slice[n - 2]) {
      CollapseLast(slice, n - 1);
      CollapseLastSkipped(slice, n);
    } else {
      CollapseLastSpace(slice, n);
    }
  }

  /** A later blank of a run emits nothing, so the prefix ends as before. */
  lemma CollapseLastSkipped(slice: seq<Fragment>, n: nat)
    requires 1 < n <= |slice| && IsBlank(slice[n - 1]) && IsBlank(slice[n - 2])
    ensures CollapseUpTo(slice, n) == CollapseUpTo(slice, n - 1)
  {
    CollapseNext(slice, n - 1, CollapseUpTo(slice, n - 1), []);
    StrObject.AppendEmpty(CollapseUpTo(slice, n - 1));
  }

  /** A substantive fragment ends the collapsed prefix, trimmed. */
  lemma CollapseLastKept(slice: seq<Fragment>, n: nat)
    requires 0 < n <= |slice| && !IsBlank(slice[n - 1])
    ensures |CollapseUpTo(slice, n)| > 0
    ensures var c := CollapseUpTo(slice, n); !IsBlank(c[|c| - 1])
  {
    var prev := CollapseUpTo(slice, n - 1);
    var t := TrimFragment(slice[n - 1]);
    CollapseNext(slice, n - 1, prev, [t]);
    LastOfSnoc(prev, t);
    TrimFragmentKeepsBlankness(slice[n - 1]);
  }

  /** The first blank of a run ends the collapsed prefix as a space. */
  lemma CollapseLastSpace(slice: seq<Fragment>, n: nat)
    requires 0 < n <= |slice| && IsBlank(slice[n - 1]) && !(n > 1 && IsBlank(slice[n - 2]))
    ensures |CollapseUpTo(slice, n)| > 0
    ensures var c := CollapseUpTo(slice, n); IsBlank(c[|c| - 1])
  {
    var prev := CollapseUpTo(slice, n - 1);
    var sp := Fragment(" ", slice[n - 1].resolve);
    CollapseNext(slice, n - 1, prev, [sp]);
    LastOfSnoc(prev, sp);
    SpaceIsBlank(sp.resolve);
  }

  lemma LastOfSnoc<T>(a: seq<T>, v: T)
    ensures |a + [v]| > 0 && (a + [v])[|a + [v]| - 1] == v
  {
  }

  lemma SpaceIsBlank(resolve: bool)
    ensures IsBlank(Fragment(" ", resolve))
  {
    assert " "[0] in StrObject.DefaultTrimChars;
    assert " "[1..] == "";
  }

  /** Blanks never come two in a row in the collapsed slice. */
  predicate NoAdjacentBlanks(items: seq<Fragment>) {
    forall i :: 0 < i < |items| ==> !(IsBlank(items[i - 1]) && IsBlank(items[i]))
  }

  lemma {:induction false} CollapseNoAdjacentBlanks(slice: seq<Fragment>, n: nat)
    requires n <= |slice|
    ensures NoAdjacentBlanks(CollapseUpTo(slice, n))
    decreases n
  {
    if n > 0 {
      CollapseNoAdjacentBlanks(slice, n - 1);
      if n > 1 {
        CollapseLast(slice, n - 1);
      }
      var prev := CollapseUpTo(slice, n - 1);
      var e := Emit(slice, n - 1);
      TrimFragmentKeepsBlankness(slice[n - 1]);
      var c := prev + e;
      forall i | 0 < i < |c|
        ensures !(IsBlank(c[i - 1]) && IsBlank(c[i]))
      {
        if i >= |prev| {
          assert i == |prev| && c[i] == e[0];
        }
      }
    }
  }

  /** Every blank fragment in the list is the single space the loop emits. */
  predicate BlanksAreSpaces(items: seq<Fragment>) {
    forall i :: 0 <= i < |items| && IsBlank(items[i]) ==> items[i].text == " "
  }

  /** Each run of blanks in the slice comes out as exactly one `" "`: the
      collapsed list holds no other blank text. */
  lemma {:induction false} CollapseBlanksAreSpaces(slice: seq<Fragment>, n: nat)
    requires n <= |slice|
    ensures BlanksAreSpaces(CollapseUpTo(slice, n))
    decreases n
  {
    if n > 0 {
      CollapseBlanksAreSpaces(slice, n - 1);
      var prev := CollapseUpTo(slice, n - 1);
      var e := Emit(slice, n - 1);
      EmitBlanksAreSpaces(slice, n - 1);
      var c := prev + e;
      forall i | 0 <= i < |c| && IsBlank(c[i])
        ensures c[i].text == " "
      {
        if i >= |prev| {
          assert c[i] == e[i - |prev|];
        }
      }
    }
  }

  /** What one step of the loop emits holds no blank other than `" "`. */
  lemma EmitBlanksAreSpaces(slice: seq<Fragment>, j: nat)
    requires j < |slice|
    ensures BlanksAreSpaces(Emit(slice, j))
  {
    var f := slice[j];
    if !IsBlank(f) {
      TrimFragmentKeepsBlankness(f);
      assert Emit(slice, j) == [TrimFragment(f)];
    } else if j > 0 && IsBlank(slice[j - 1]) {
      assert Emit(slice, j) == [];
    } else {
      assert Emit(slice, j) == [Fragment(" ", f.resolve)];
    }
  }

  /** The collapsed slice starts with the slice's first fragment, trimmed. */
  lemma {:induction false} CollapseFirst(slice: seq<Fragment>, n: nat)
    requires 0 < n <= |slice| && !IsBlank(slice[0])
    ensures |CollapseUpTo(slice, n)| > 0 && CollapseUpTo(slice, n)[0] == TrimFragment(slice[0])
    decreases n
  {
    if n > 1 {
      CollapseFirst(slice, n - 1);
    } else {
      assert CollapseUpTo(slice, 0) == [];
    }
  }

  lemma SplitAt<T>(a: seq<T>, k: nat)
    requires k < |a|
    ensures a == a[..k] + ([a[k]] + a[k + 1..])
  {
  }

  /** Substance around one position: before it, at it, after it. */
  lemma SubstantiveAround(a: seq<Fragment>, k: nat)
    requires k < |a|
    ensures Substantive(a) == Substantive(a[..k]) + ((if IsBlank(a[k]) then [] else [a[k]]) + Substantive(a[k + 1..]))
  {
    var mid := if IsBlank(a[k]) then [] else [a[k]];
    calc {
      Substantive(a);
      { SplitAt(a, k); }
      Substantive(a[..k] + ([a[k]] + a[k + 1..]));
      { SubstantiveConcat(a[..k], [a[k]] + a[k + 1..]); }
      Substantive(a[..k]) + Substantive([a[k]] + a[k + 1..]);
      { SubstantiveConcat([a[k]], a[k + 1..]); SubstantiveOne(a[k]); }
      Substantive(a[..k]) + (mid + Substantive(a[k + 1..]));
    }
  }

  /** Blanks on both sides of a window add nothing to the substance. */
  lemma SubstantiveWindow(a: seq<Fragment>, lo: nat, e: nat)
    requires lo <= e <= |a|
    requires forall j :: 0 <= j < lo ==> IsBlank(a[j])
    requires forall j :: e <= j < |a| ==> IsBlank(a[j])
    ensures Substantive(a[lo..e]) == Substantive(a)
  {
    var pre, mid, post := a[..lo], a[lo..e], a[e..];
    BlankEnds(a, lo, e);
    SubstantiveConcat(pre, mid + post);
    SubstantiveConcat(mid, post);
    Split3(a, lo, e);
  }

  lemma BlankEnds(a: seq<Fragment>, lo: nat, e: nat)
    requires lo <= e <= |a|
    requires forall j :: 0 <= j < lo ==> IsBlank(a[j])
    requires forall j :: e <= j < |a| ==> IsBlank(a[j])
    ensures Substantive(a[..lo]) == [] && Substantive(a[e..]) == []
  {
    var pre, post := a[..lo], a[e..];
    assert forall j :: 0 <= j < |pre| ==> pre[j] == a[j];
    SubstantiveAllBlank(pre);
    assert forall j :: 0 <= j < |post| ==> post[j] == a[e + j];
    SubstantiveAllBlank(post);
  }

  lemma Split3<T>(a: seq<T>, lo: nat, e: nat)
    requires lo <= e <= |a|
    ensures a == a[..lo] + (a[lo..e] + a[e..])
  {
  }

  /** The slice taken in the general case holds every substantive fragment. */
  lemma SliceKeepsSubstance(items: seq<Fragment>, lo: nat, hi: nat)
    requires FirstSubstantive(items) == Some(lo) && LastSubstantive(items) == Some(hi)
    ensures Substantive(ArraySlice(items, lo, hi + 1)) == Substantive(items)
  {
    var e := if lo + hi + 1 <= |items| then lo + hi + 1 else |items|;
    assert ArraySlice(items, lo, hi + 1) == items[lo..e];
    forall j | e <= j < |items|
      ensures IsBlank(items[j])
    {
      assert hi < j;
    }
    SubstantiveWindow(items, lo, e);
  }

  /** A list with exactly one substantive fragment, at `k`. */
  lemma SubstantiveSingle(items: seq<Fragment>, k: nat)
    requires FirstSubstantive(items) == Some(k) && LastSubstantive(items) == Some(k)
    ensures Substantive(items) == [items[k]]
  {
    SubstantiveWindow(items, k, k + 1);
    assert items[k..k + 1] == [items[k]];
    SubstantiveOne(items[k]);
  }

  /** The reduced list keeps exactly the substantive fragments, trimmed and
      in order: reduction only drops, merges or trims whitespace. */
  lemma ReduceKeepsSubstance(items: seq<Fragment>)
    ensures Substantive(ReduceItems(items)) == TrimAll(Substantive(items))
  {
    if |items| == 0 {
      ReduceNothing();
    } else {
      var first := FirstSubstantive(items);
      var last := LastSubstantive(items);
      if first.None? {
        ReduceAllBlank(items);
      } else if first.value == last.value {
        ReduceOneSubstantive(items, first.value);
      } else {
        ReduceSeveralSubstantive(items, first.value, last.value);
      }
    }
  }

  lemma ReduceSeveralSubstantive(items: seq<Fragment>, lo: nat, hi: nat)
    requires FirstSubstantive(items) == Some(lo) && LastSubstantive(items) == Some(hi) && lo != hi
    ensures ReduceItems(items) == Collapse(ArraySlice(items, lo, hi + 1))
    ensures Substantive(ReduceItems(items)) == TrimAll(Substantive(items))
  {
    var slice := ArraySlice(items, lo, hi + 1);
    ReduceIsCollapse(items, lo, hi);
    SliceKeepsSubstance(items, lo, hi);
    CollapseShape(slice, |slice|);
    assert slice[..|slice|] == slice;
  }

  /** With two substantive fragments the general case applies. */
  lemma ReduceIsCollapse(items: seq<Fragment>, lo: nat, hi: nat)
    requires FirstSubstantive(items) == Some(lo) && LastSubstantive(items) == Some(hi) && lo != hi
    ensures ReduceItems(items) == Collapse(ArraySlice(items, lo, hi + 1))
  {
    assert ReduceItems(items) == ReduceBetween(items, Some(lo), Some(hi));
    ReduceBetweenSeveral(items, lo, hi);
  }

  lemma ReduceBetweenSeveral(items: seq<Fragment>, lo: nat, hi: nat)
    requires lo < |items| && lo != hi
    ensures ReduceBetween(items, Some(lo), Some(hi)) == Collapse(ArraySlice(items, lo, hi + 1))
  {
  }

  /** An empty list reduces to the empty value, which has no substance. */
  lemma ReduceNothing()
    ensures ReduceItems([]) == [Fragment("", false)]
    ensures Substantive(ReduceItems([])) == TrimAll(Substantive([])) == []
  {
    SubstantiveOne(Fragment("", false));
  }

  lemma ReduceAllBlank(items: seq<Fragment>)
    requires |items| > 0 && FirstSubstantive(items).None?
    ensures ReduceItems(items) == [TrimFragment(items[0])]
    ensures Substantive(ReduceItems(items)) == [] == Substantive(items)
    ensures Substantive(ReduceItems(items)) == TrimAll(Substantive(items))
  {
    assert ReduceItems(items) == ReduceBetween(items, None, LastSubstantive(items));
    SubstantiveAllBlank(items);
    TrimFragmentKeepsBlankness(items[0]);
    SubstantiveOne(TrimFragment(items[0]));
  }

  lemma ReduceOneSubstantive(items: seq<Fragment>, k: nat)
    requires FirstSubstantive(items) == Some(k) && LastSubstantive(items) == Some(k)
    ensures ReduceItems(items) == [TrimFragment(items[k])]
    ensures Substantive(items) == [items[k]]
    ensures Substantive(ReduceItems(items)) == [TrimFragment(items[k])]
    ensures Substantive(ReduceItems(items)) == TrimAll(Substantive(items))
  {
    assert ReduceItems(items) == ReduceBetween(items, Some(k), Some(k));
    TrimAllOne(items[k]);
    SubstantiveSingle(items, k);
    TrimFragmentKeepsBlankness(items[k]);
    SubstantiveOne(TrimFragment(items[k]));
  }

  /** With at most one substantive fragment the value is a single fragment:
      that fragment trimmed, or the first fragment trimmed (which leaves it
      empty) when all are blank. */
  lemma ReduceSingle(items: seq<Fragment>)
    requires |items| > 0 && |Substantive(items)| <= 1
    ensures |ReduceItems(items)| == 1
    ensures |Substantive(items)| == 1 ==> ReduceItems(items) == [TrimFragment(Substantive(items)[0])]
    ensures |Substantive(items)| == 0 ==> ReduceItems(items) == [TrimFragment(items[0])]
  {
    var first := FirstSubstantive(items);
    var last := LastSubstantive(items);
    if first.None? {
      SubstantiveAllBlank(items);
    } else {
      var lo := first.value;
      var hi := last.value;
      if lo != hi {
        TwoSubstantive(items, lo, hi);
        assert false;
      }
      SubstantiveSingle(items, lo);
    }
  }

  /** Two distinct substantive positions give at least two substantive fragments. */
  lemma TwoSubstantive(items: seq<Fragment>, lo: nat, hi: nat)
    requires lo < hi < |items| && !IsBlank(items[lo]) && !IsBlank(items[hi])
    ensures |Substantive(items)| >= 2
  {
    SubstantiveAround(items, hi);
    var a := items[..hi];
    assert a[lo] == items[lo];
    SubstantiveAround(a, lo);
  }

  /** With two or more substantive fragments the result starts with the
      first of them, trimmed (leading blanks are dropped), and has no two
      blanks in a row. */
  lemma ReduceSeveral(items: seq<Fragment>)
    requires |Substantive(items)| >= 2
    ensures var r := ReduceItems(items);
      && r[0] == TrimFragment(Substantive(items)[0])
      && NoAdjacentBlanks(r)
  {
    var first := FirstSubstantive(items);
    var last := LastSubstantive(items);
    if first.None? {
      SubstantiveAllBlank(items);
      assert false;
    }
    var lo := first.value;
    var hi := last.value;
    if lo == hi {
      SubstantiveSingle(items, lo);
      assert false;
    }
    var slice := ArraySlice(items, lo, hi + 1);
    ReduceIsCollapse(items, lo, hi);
    CollapseFirst(slice, |slice|);
    CollapseNoAdjacentBlanks(slice, |slice|);
    SubstantiveFirst(items, lo);
    assert slice[0] == items[lo];
  }

  /** The first substantive fragment heads the substantive list. */
  lemma SubstantiveFirst(items: seq<Fragment>, lo: nat)
    requires FirstSubstantive(items) == Some(lo)
    ensures |Substantive(items)| > 0 && Substantive(items)[0] == items[lo]
  {
    SubstantiveAround(items, lo);
    SubstantiveAllBlank(items[..lo]);
  }

  /** The slice is cut with `array_slice($items, $indexMin, $indexMax + 1)`,
      whose third argument is a length, not an end index: when the first
      substantive fragment is not the first fragment, a blank after the last
      substantive one survives as a trailing space. */
  lemma ReduceKeepsTrailingBlank(b1: Fragment, x: Fragment, y: Fragment, b2: Fragment)
    requires IsBlank(b1) && !IsBlank(x) && !IsBlank(y) && IsBlank(b2)
    ensures ReduceItems([b1, x, y, b2]) == [TrimFragment(x), TrimFragment(y), Fragment(" ", b2.resolve)]
  {
    var items := [b1, x, y, b2];
    BoundsOfFour(b1, x, y, b2);
    ReduceIsCollapse(items, 1, 2);
    assert ArraySlice(items, 1, 3) == [x, y, b2];
    CollapseThree(x, y, b2);
  }

  /** In `[b1, x, y, b2]` the substantive fragments are at 1 and 2. */
  lemma BoundsOfFour(b1: Fragment, x: Fragment, y: Fragment, b2: Fragment)
    requires IsBlank(b1) && !IsBlank(x) && !IsBlank(y) && IsBlank(b2)
    ensures FirstSubstantive([b1, x, y, b2]) == Some(1)
    ensures LastSubstantive([b1, x, y, b2]) == Some(2)
  {
    var items := [b1, x, y, b2];
    assert FirstSubstantive(items) == Some(1) by {
      assert items[1..] == [x, y, b2];
      assert FirstSubstantive(items[1..]) == Some(0);
    }
    assert items[..3] == [b1, x, y];
  }

  /** The loop over `[x, y, b]` with only `b` blank. */
  lemma CollapseThree(x: Fragment, y: Fragment, b: Fragment)
    requires !IsBlank(x) && !IsBlank(y) && IsBlank(b)
    ensures Collapse([x, y, b]) == [TrimFragment(x), TrimFragment(y), Fragment(" ", b.resolve)]
  {
    var slice := [x, y, b];
    var tx, ty, sp := TrimFragment(x), TrimFragment(y), Fragment(" ", b.resolve);
    CollapseNext(slice, 0, [], [tx]);
    CollapseNext(slice, 1, [tx], [ty]);
    assert [tx] + [ty] == [tx, ty];
    CollapseNext(slice, 2, [tx, ty], [sp]);
    assert [tx, ty] + [sp] == [tx, ty, sp];
  }

  /** One step of the loop, given what it has emitted so far and what it
      emits next. */
  lemma CollapseNext(slice: seq<Fragment>, n: nat, c: seq<Fragment>, e: seq<Fragment>)
    requires n < |slice|
    requires CollapseUpTo(slice, n) == c && Emit(slice, n) == e
    ensures CollapseUpTo(slice, n + 1) == c + e
  {
  }

  /** When the value starts with a substantive fragment the same slice
      reaches exactly the last substantive one, so no trailing space is
      kept; a blank between the two becomes one space. */
  lemma ReduceDropsTrailingBlank(x: Fragment, b1: Fragment, y: Fragment, b2: Fragment)
    requires !IsBlank(x) && IsBlank(b1) && !IsBlank(y) && IsBlank(b2)
    ensures ReduceItems([x, b1, y, b2]) == [TrimFragment(x), Fragment(" ", b1.resolve), TrimFragment(y)]
  {
    var items := [x, b1, y, b2];
    assert FirstSubstantive(items) == Some(0);
    assert LastSubstantive(items) == Some(2) by {
      assert items[..3] == [x, b1, y];
    }
    ReduceIsCollapse(items, 0, 2);
    assert ArraySlice(items, 0, 3) == [x, b1, y];
    CollapseSpaced(x, b1, y);
  }

  /** The loop over `[x, b, y]` with only `b` blank. */
  lemma CollapseSpaced(x: Fragment, b: Fragment, y: Fragment)
    requires !IsBlank(x) && IsBlank(b) && !IsBlank(y)
    ensures Collapse([x, b, y]) == [TrimFragment(x), Fragment(" ", b.resolve), TrimFragment(y)]
  {
    var slice := [x, b, y];
    var tx, sp, ty := TrimFragment(x), Fragment(" ", b.resolve), TrimFragment(y);
    CollapseNext(slice, 0, [], [tx]);
    CollapseNext(slice, 1, [tx], [sp]);
    assert [tx] + [sp] == [tx, sp];
    CollapseNext(slice, 2, [tx, sp], [ty]);
    assert [tx, sp] + [ty] == [tx, sp, ty];
  }
}

=== FILE: resolver.dfy ===
/** Variable substitution in a value fragment (`resolve`,
    `resolveRecursive` and `unwrap` in DotenvParser.php).

    `resolve` makes two regular-expression passes over the fragment:
    1. `~\$([\w_]+)~` -> `${$1}`: every `$NAME` becomes `${NAME}`;
    2. `~(\${.+})~`: every match is replaced by `resolveRecursive(match)`.
    The `.+` of the second pattern is greedy, so a match runs from a `${` to
    the LAST `}` of its line, not to the brace that closes the reference. */
module Resolver {
  import opened Wrappers
  import StrObject
  import opened Types
  import opened OrderedMap

  /** The variables substitution reads (`$this->env`), in insertion order. */
  type Env = OMap<string>

  /** `env[name] ?? ''`. */
  function Lookup(env: Env, name: string): (v: string)
    ensures name !in Keys(env) ==> v == ""
    ensures name in Keys(env) ==> Some(v) == Get(env, name)
  {
    Get(env, name).GetOr("")
  }

  /** What a plain reference to `name` yields: its value when that is truthy,
      otherwise "" (unset, "" and "0" all read as empty). */
  function Value(env: Env, name: string): string {
    var x := Lookup(env, name);
    if StrObject.Truthy(x) then x else ""
  }

  // ---------------------------------------------------------------------------
  // First pass: `$NAME` -> `${NAME}`

  /** PCRE's `\w` without the `u` modifier: ASCII letters, digits and `_`. */
  predicate IsWordChar(c: char) {
    'A' <= c <= 'Z' || 'a' <= c <= 'z' || '0' <= c <= '9' || c == '_'
  }

  predicate IsWord(w: string) {
    |w| > 0 && forall i :: 0 <= i < |w| ==> IsWordChar(w[i])
  }

  /** No `$` is directly followed by a word character. */
  predicate NoBareNames(s: string) {
    forall i :: 0 <= i < |s| - 1 ==> s[i] == '$' ==> !IsWordChar(s[i + 1])
  }

  /** The greedy `[\w_]+` at the front of `s` (possibly empty). */
  function WordPrefix(s: string): (w: string)
    ensures w <= s
    ensures forall i :: 0 <= i < |w| ==> IsWordChar(w[i])
    ensures |w| < |s| ==> !IsWordChar(s[|w|])
    decreases |s|
  {
    if |s| > 0 && IsWordChar(s[0]) then [s[0]] + WordPrefix(s[1..]) else ""
  }

  /** The first `preg_replace` of `resolve`, scanning left to right. */
  function BraceNames(s: string): (r: string)
    decreases |s|
  {
    if |s| == 0 then ""
    else if s[0] == '$' && |s| > 1 && IsWordChar(s[1]) then
      var w := WordPrefix(s[1..]);
      "${" + w + "}" + BraceNames(s[1 + |w|..])
    else [s[0]] + BraceNames(s[1..])
  }

  lemma BraceNamesFirst(s: string)
    requires |s| > 0
    ensures |BraceNames(s)| > 0 && BraceNames(s)[0] == s[0]
  {
  }

  /** After the first pass every name is braced. */
  lemma {:induction false} BraceNamesLeavesNoBareName(s: string)
    ensures NoBareNames(BraceNames(s))
    decreases |s|
  {
    if |s| == 0 {
    } else if s[0] == '$' && |s| > 1 && IsWordChar(s[1]) {
      var w := WordPrefix(s[1..]);
      var tail := s[1 + |w|..];
      BraceNamesLeavesNoBareName(tail);
      BracedHasNoBareName(w);
      NoBareNamesAppend("${" + w + "}", BraceNames(tail));
    } else {
      BraceNamesLeavesNoBareName(s[1..]);
      if s[0] == '$' && |s| > 1 {
        BraceNamesFirst(s[1..]);
      }
      NoBareNamesAppend([s[0]], BraceNames(s[1..]));
    }
  }

  /** A braced name holds no bare name. */
  lemma BracedHasNoBareName(w: string)
    requires IsWord(w)
    ensures NoBareNames("${" + w + "}")
  {
    var b := "${" + w + "}";
    forall i | 0 <= i < |b| - 1
      ensures b[i] == '$' ==> !IsWordChar(b[i + 1])
    {
      if i >= 2 {
        assert b[i] == w[i - 2];
      }
    }
  }

  /** Joining two texts creates no bare name unless the first ends with `$`
      and the second starts with a word character. */
  lemma NoBareNamesAppend(a: string, b: string)
    requires NoBareNames(a) && NoBareNames(b)
    requires |a| > 0 && a[|a| - 1] == '$' ==> |b| == 0 || !IsWordChar(b[0])
    ensures NoBareNames(a + b)
  {
    var s := a + b;
    forall i | 0 <= i < |s| - 1
      ensures s[i] == '$' ==> !IsWordChar(s[i + 1])
    {
      if i + 1 < |a| {
        assert s[i] == a[i] && s[i + 1] == a[i + 1];
      } else if i + 1 == |a| {
        assert s[i] == a[i] && s[i + 1] == b[0];
      } else {
        assert s[i] == b[i - |a|] && s[i + 1] == b[i + 1 - |a|];
      }
    }
  }

  /** Text without a bare name passes the first pass unchanged. */
  lemma {:induction false} BraceNamesKeeps(s: string)
    requires NoBareNames(s)
    ensures BraceNames(s) == s
    decreases |s|
  {
    if |s| > 0 {
      assert NoBareNames(s[1..]) by {
        forall i | 0 <= i < |s[1..]| - 1 && s[1..][i] == '$'
          ensures !IsWordChar(s[1..][i + 1])
        {
          assert s[i + 1] == '$';
        }
      }
      BraceNamesKeeps(s[1..]);
      assert s == [s[0]] + s[1..];
    }
  }

  /** The first pass is idempotent. */
  lemma BraceNamesIdempotent(s: string)
    ensures BraceNames(BraceNames(s)) == BraceNames(s)
  {
    BraceNamesLeavesNoBareName(s);
    BraceNamesKeeps(BraceNames(s));
  }

  lemma BraceNamesNoDollar(s: string)
    requires '$' !in s
    ensures BraceNames(s) == s
  {
    BraceNamesKeeps(s);
  }

  /** The first pass leaves a `$`-free prefix alone. */
  lemma {:induction false} BraceNamesPlainPrefix(pre: string, t: string)
    requires '$' !in pre
    ensures BraceNames(pre + t) == pre + BraceNames(t)
    decreases |pre|
  {
    if |pre| > 0 {
      StrObject.ConsAppend(pre, t);
      BraceNamesPlainPrefix(pre[1..], t);
      StrObject.ConsAppend(pre, BraceNames(t));
      BraceNamesCons(pre[0], pre[1..] + t);
    } else {
      StrObject.AppendEmpty(t);
    }
  }

  /** A character that does not start a bare name is copied. */
  lemma BraceNamesCons(c: char, t: string)
    requires c != '$'
    ensures BraceNames([c] + t) == [c] + BraceNames(t)
  {
    assert ([c] + t)[1..] == t;
  }

  lemma {:induction false} WordPrefixOfWord(w: string, post: string)
    requires IsWord(w)
    requires post == "" || !IsWordChar(post[0])
    ensures WordPrefix(w + post) == w
    decreases |w|
  {
    if |w| > 1 {
      assert (w + post)[1..] == w[1..] + post;
      WordPrefixOfWord(w[1..], post);
      assert w == [w[0]] + w[1..];
    } else {
      assert (w + post)[1..] == post;
      assert w == [w[0]];
    }
  }

  /** `$NAME` followed by a non-word character becomes `${NAME}`. */
  lemma BraceNamesName(w: string, post: string)
    requires IsWord(w)
    requires post == "" || !IsWordChar(post[0])
    ensures BraceNames("$" + w + post) == "${" + w + "}" + BraceNames(post)
  {
    var s := "$" + w + post;
    assert s[1..] == w + post;
    WordPrefixOfWord(w, post);
    assert s[1 + |w|..] == post;
  }

  // ---------------------------------------------------------------------------
  // Second pass: `~(\${.+})~`

  /** `q` can end a match that starts at the front of `s` (which begins with
      `${`): at least one character between `${` and the `}` at `q`, and no
      newline among them (`.` does not match a newline). */
  predicate IsMatchEnd(s: string, q: int) {
    3 <= q < |s| && s[q] == '}' && forall j :: 2 <= j < q ==> s[j] != '\n'
  }

  /** Index of the first newline at or after `from`, or `|s|`. */
  function LineEnd(s: string, from: nat): (e: nat)
    requires from <= |s|
    ensures from <= e <= |s| && (e < |s| ==> s[e] == '\n')
    ensures forall j :: from <= j < e ==> s[j] != '\n'
    decreases |s| - from
  {
    if from == |s| || s[from] == '\n' then from else LineEnd(s, from + 1)
  }

  /** Index of the last `c` in `s[lo..hi]`. */
  function LastIndexIn(s: string, c: char, lo: nat, hi: nat): (r: Option<nat>)
    requires lo <= hi <= |s|
    ensures r.Some? ==> lo <= r.value < hi && s[r.value] == c
    ensures r.Some? ==> forall j :: r.value < j < hi ==> s[j] != c
    ensures r.None? ==> forall j :: lo <= j < hi ==> s[j] != c
    decreases hi - lo
  {
    if lo == hi then None
    else if s[hi - 1] == c then Some(hi - 1)
    else LastIndexIn(s, c, lo, hi - 1)
  }

  /** The end of the greedy match at the front of `s`: the largest index that
      can end one, if any does. */
  function MatchEnd(s: string): (r: Option<nat>)
    requires |s| >= 2
    ensures r.Some? ==> IsMatchEnd(s, r.value)
    ensures r.Some? ==> forall q :: IsMatchEnd(s, q) ==> q <= r.value
    ensures r.None? ==> forall q :: !IsMatchEnd(s, q)
  {
    var e := LineEnd(s, 2);
    if e < 3 then None else LastIndexIn(s, '}', 3, e)
  }

  /** `preg_replace_callback` of the second pass: leftmost match first,
      scanning resumes after it; the first failing callback aborts. */
  function ReplaceRefs(env: Env, s: string): (r: Result<string, Error>)
    ensures r.Failure? ==> r.error.Substitution?
    decreases |s|
  {
    if |s| < 2 then Success(s)
    else if s[0] == '$' && s[1] == '{' && MatchEnd(s).Some? then
      var q := MatchEnd(s).value;
      var v :- ResolveRecursive(env, s[..q + 1]);
      var rest :- ReplaceRefs(env, s[q + 1..]);
      Success(v + rest)
    else
      var rest :- ReplaceRefs(env, s[1..]);
      Success([s[0]] + rest)
  }

  /** Text before a `$` is copied one character at a time. */
  lemma ReplaceRefsCopies(env: Env, c: char, t: string)
    requires c != '$'
    ensures ReplaceRefs(env, [c] + t).Success? <==> ReplaceRefs(env, t).Success?
    ensures ReplaceRefs(env, t).Success? ==> ReplaceRefs(env, [c] + t).value == [c] + ReplaceRefs(env, t).value
    ensures ReplaceRefs(env, t).Failure? ==> ReplaceRefs(env, [c] + t) == ReplaceRefs(env, t)
  {
    assert ([c] + t)[1..] == t;
    if |t| == 0 {
      assert [c] + t == [c];
    }
  }

  /** The second pass leaves a `$`-free prefix alone. */
  lemma {:induction false} ReplaceRefsPlainPrefix(env: Env, pre: string, t: string)
    requires '$' !in pre
    ensures ReplaceRefs(env, pre + t).Success? <==> ReplaceRefs(env, t).Success?
    ensures ReplaceRefs(env, t).Success? ==> ReplaceRefs(env, pre + t).value == pre + ReplaceRefs(env, t).value
    ensures ReplaceRefs(env, t).Failure? ==> ReplaceRefs(env, pre + t) == ReplaceRefs(env, t)
    decreases |pre|
  {
    if |pre| > 0 {
      var rest := pre[1..] + t;
      StrObject.ConsAppend(pre, t);
      ReplaceRefsPlainPrefix(env, pre[1..], t);
      ReplaceRefsCopies(env, pre[0], rest);
      var r := ReplaceRefs(env, t);
      if r.Success? {
        StrObject.ConsAppend(pre, r.value);
      }
    } else {
      assert pre + t == t;
    }
  }

  lemma ReplaceRefsNoDollar(env: Env, s: string)
    requires '$' !in s
    ensures ReplaceRefs(env, s) == Success(s)
  {
    ReplaceRefsPlainPrefix(env, s, "");
    assert s + "" == s;
  }

  /** A reference whose closing brace is the last `}` of the line is one
      match: it is resolved as a whole and the rest is scanned after it. */
  lemma ReplaceRefsOneRef(env: Env, n: string, post: string)
    requires |n| >= 1 && '\n' !in n && '}' !in post
    ensures ReplaceRefs(env, "${" + n + "}" + post)
         == (match ResolveRecursive(env, "${" + n + "}")
             case Failure(e) => Failure(e)
             case Success(v) =>
               match ReplaceRefs(env, post)
               case Failure(e) => Failure(e)
               case Success(rest) => Success(v + rest))
  {
    var s := "${" + n + "}" + post;
    var k := |n| + 2;
    MatchEndOfRef(n, post);
    assert s[..k + 1] == "${" + n + "}";
    assert s[k + 1..] == post;
    assert s[0] == '$' && s[1] == '{';
  }

  /** The greedy match of `${n}post` ends at the brace after `n` when `post`
      holds no `}` and `n` no line break. */
  lemma MatchEndOfRef(n: string, post: string)
    requires |n| >= 1 && '\n' !in n && '}' !in post
    ensures MatchEnd("${" + n + "}" + post) == Some(|n| + 2)
  {
    var s := "${" + n + "}" + post;
    var k := |n| + 2;
    assert s[k] == '}';
    assert forall j :: 2 <= j < k ==> s[j] == n[j - 2];
    assert IsMatchEnd(s, k);
    forall q | k < q < |s|
      ensures !IsMatchEnd(s, q)
    {
      assert s[q] == post[q - k - 1];
    }
  }

  // ---------------------------------------------------------------------------
  // resolveRecursive

  /** `unwrapLeft`. PHP reads `$str[0]` unguarded; on "" it warns and reads
      "", which matches no letter, so "" comes back as it does here. */
  function UnwrapLeft(s: string, c: char): string {
    if |s| > 0 && s[0] == c then s[1..] else s
  }

  function UnwrapRight(s: string, c: char): string {
    if |s| > 0 && s[|s| - 1] == c then s[..|s| - 1] else s
  }

  /** `unwrap`: trims blanks, then drops one leading `$`, one leading `{` and
      one trailing `}` where present. */
  function Unwrap(s: string): (r: string)
    ensures |r| <= |s|
  {
    var t := StrObject.TrimBy(s, " \t");
    UnwrapRight(UnwrapLeft(UnwrapLeft(t, '$'), '{'), '}')
  }

  /** A lone `$` (the default in `${a:-$}`) unwraps to "", reaching the
      `{` test with an empty string. */
  lemma UnwrapLoneDollar()
    ensures UnwrapLeft("$", '$') == "" && Unwrap("$") == ""
  {
    StrObject.TrimByUnchanged("$", " \t");
  }

  /** `unwrap` is the inverse of bracing: `${n}` gives back `n`, whatever `n` is. */
  lemma UnwrapBraced(n: string)
    ensures Unwrap("${" + n + "}") == n
  {
    var s := "${" + n + "}";
    StrObject.TrimByUnchanged(s, " \t");
    var t := UnwrapLeft(UnwrapLeft(s, '$'), '{');
    assert t == n + "}" by {
      assert s[1..][1..] == n + "}";
    }
    assert (n + "}")[..|n|] == n;
  }

  const DefaultMark: string := ":-"

  /** `resolveRecursive`: `NAME` or `NAME:-DEFAULT` inside the unwrapped
      text. A falsy value falls back to the default; a default that starts
      with `$` is resolved in turn, but when that yields a falsy value the
      default's own text is returned. A name starting with `$` is refused. */
  function ResolveRecursive(env: Env, str: string): (r: Result<string, Error>)
    ensures r.Failure? ==> r.error.Substitution?
    decreases |str|, 1
  {
    var u := Unwrap(str);
    ResolveParts(env, u, StrObject.ExplodeLimit(u, DefaultMark, 2))
  }

  /** `resolveRecursive` once the text is unwrapped to `u` and cut at its
      first `:-` into `pair`. */
  function ResolveParts(env: Env, u: string, pair: seq<string>): (r: Result<string, Error>)
    requires 1 <= |pair| <= 2 && StrObject.Join(pair, DefaultMark) == u
    ensures r.Failure? ==> r.error.Substitution?
    decreases |u|, 0
  {
    if StrObject.Begins(pair[0], "$") then Failure(Substitution(u))
    else
      var x := Lookup(env, pair[0]);
      if StrObject.Truthy(x) then Success(x)
      else if |pair| == 1 then Success("")
      else
        assert StrObject.Join(pair, DefaultMark) == pair[0] + DefaultMark + pair[1] by {
          assert pair[1..] == [pair[1]];
        }
        if StrObject.Begins(pair[1], "$") then
          var y :- ResolveRecursive(env, pair[1]);
          if StrObject.Truthy(y) then Success(y) else Success(pair[1])
        else Success(pair[1])
  }

  lemma NoColonNoMark(n: string)
    requires ':' !in n
    ensures !StrObject.Contains(n, DefaultMark)
  {
    StrObject.ContainsMeansOccurs(n, DefaultMark);
    forall j | 0 <= j && j + 2 <= |n|
      ensures !StrObject.OccursAt(n, DefaultMark, j)
    {
      assert n[j..j + 2][0] == n[j];
    }
  }

  /** Splitting on `:-` with limit 2 when the mark is absent. */
  lemma ExplodeNoMark(n: string)
    requires !StrObject.Contains(n, DefaultMark)
    ensures StrObject.ExplodeLimit(n, DefaultMark, 2) == [n]
  {
  }

  /** Splitting on `:-` with limit 2 at its first occurrence, after `n`. */
  lemma ExplodeAtMark(n: string, d: string)
    requires !StrObject.Contains(n, DefaultMark)
    ensures StrObject.ExplodeLimit(n + DefaultMark + d, DefaultMark, 2) == [n, d]
  {
    var s := n + DefaultMark + d;
    StrObject.ContainsMeansOccurs(n, DefaultMark);
    assert s[|n|..|n| + 2] == DefaultMark;
    assert StrObject.OccursAt(s, DefaultMark, |n|);
    forall j | 0 <= j < |n|
      ensures !StrObject.OccursAt(s, DefaultMark, j)
    {
      if j + 2 <= |n| {
        assert s[j..j + 2] == n[j..j + 2];
        assert !StrObject.OccursAt(n, DefaultMark, j);
      } else {
        assert j + 1 == |n|;
        assert s[j..j + 2][1] == s[j + 1] == ':';
      }
    }
    var f := StrObject.FindFrom(s, DefaultMark, 0);
    assert f == Some(|n|);
    assert s[..|n|] == n;
    assert s[|n| + 2..] == d;
  }

  /** `${NAME}`: the variable's value, or "" when it is unset or falsy. */
  lemma ResolveRecursiveName(env: Env, n: string)
    requires !StrObject.Contains(n, DefaultMark) && !StrObject.Begins(n, "$")
    ensures ResolveRecursive(env, "${" + n + "}") == Success(Value(env, n))
  {
    UnwrapBraced(n);
    ExplodeNoMark(n);
    assert ResolveRecursive(env, "${" + n + "}") == ResolveParts(env, n, [n]);
  }

  /** `${NAME:-DEFAULT}` is cut into the name and the default. */
  lemma ResolveRecursiveSplits(env: Env, n: string, d: string)
    requires !StrObject.Contains(n, DefaultMark)
    ensures ResolveRecursive(env, "${" + n + DefaultMark + d + "}") == ResolveParts(env, n + DefaultMark + d, [n, d])
  {
    var s := "${" + (n + DefaultMark + d) + "}";
    assert "${" + n + DefaultMark + d + "}" == s;
    UnwrapBraced(n + DefaultMark + d);
    ExplodeAtMark(n, d);
  }

  /** `${NAME:-DEFAULT}` with a default not starting with `$`: the value when
      truthy, else the default text. */
  lemma ResolveRecursiveDefault(env: Env, n: string, d: string)
    requires !StrObject.Contains(n, DefaultMark) && !StrObject.Begins(n, "$")
    requires !StrObject.Begins(d, "$")
    ensures ResolveRecursive(env, "${" + n + DefaultMark + d + "}")
         == Success(if StrObject.Truthy(Lookup(env, n)) then Lookup(env, n) else d)
  {
    ResolveRecursiveSplits(env, n, d);
  }

  /** `${NAME:-$...}`: with a falsy value the default is resolved; its result
      is used when truthy, otherwise the default's text is returned as is. */
  lemma ResolveRecursiveNested(env: Env, n: string, d: string)
    requires !StrObject.Contains(n, DefaultMark) && !StrObject.Begins(n, "$")
    requires StrObject.Begins(d, "$")
    ensures ResolveRecursive(env, "${" + n + DefaultMark + d + "}")
         == if StrObject.Truthy(Lookup(env, n)) then Success(Lookup(env, n))
            else match ResolveRecursive(env, d)
              case Failure(e) => Failure(e)
              case Success(y) => Success(if StrObject.Truthy(y) then y else d)
  {
    ResolveRecursiveSplits(env, n, d);
  }

  /** `${A:-${B}}` with both A and B unset or falsy yields the text `${B}`,
      not "" as in a shell. */
  lemma ResolveRecursiveNestedUnset(env: Env, a: string, b: string)
    requires !StrObject.Contains(a, DefaultMark) && !StrObject.Begins(a, "$")
    requires !StrObject.Contains(b, DefaultMark) && !StrObject.Begins(b, "$")
    requires !StrObject.Truthy(Lookup(env, a)) && !StrObject.Truthy(Lookup(env, b))
    ensures ResolveRecursive(env, "${" + a + DefaultMark + "${" + b + "}" + "}") == Success("${" + b + "}")
  {
    var d := "${" + b + "}";
    assert "${" + a + DefaultMark + "${" + b + "}" + "}" == "${" + a + DefaultMark + d + "}";
    ResolveRecursiveNested(env, a, d);
    ResolveRecursiveName(env, b);
  }

  /** A name that itself starts with `$` (`${${X}}`, `${$X:-...}`) is an
      "Invalid substitution" error quoting the unwrapped text. */
  lemma ResolveRecursiveInvalid(env: Env, t: string)
    ensures ResolveRecursive(env, "${" + ("$" + t) + "}") == Failure(Substitution("$" + t))
  {
    var u := "$" + t;
    UnwrapBraced(u);
    ResolveRecursiveRefused(env, "${" + u + "}", u);
  }

  /** Text that unwraps to something starting with `$` is refused. */
  lemma ResolveRecursiveRefused(env: Env, s: string, u: string)
    requires Unwrap(s) == u && |u| > 0 && u[0] == '$'
    ensures ResolveRecursive(env, s) == Failure(Substitution(u))
  {
    ResolveRecursiveUnwraps(env, s, u);
    StrObject.ExplodeLimitHead(u, DefaultMark, 2);
    ResolvePartsRefused(env, u, StrObject.ExplodeLimit(u, DefaultMark, 2));
  }

  /** `resolveRecursive` resolves the unwrapped text, cut at its first `:-`. */
  lemma ResolveRecursiveUnwraps(env: Env, s: string, u: string)
    requires Unwrap(s) == u
    ensures ResolveRecursive(env, s) == ResolveParts(env, u, StrObject.ExplodeLimit(u, DefaultMark, 2))
  {
  }

  /** A name starting with `$` is refused, quoting the unwrapped text. */
  lemma ResolvePartsRefused(env: Env, u: string, pair: seq<string>)
    requires 1 <= |pair| <= 2 && StrObject.Join(pair, DefaultMark) == u
    requires |pair[0]| > 0 && pair[0][0] == '$'
    ensures ResolveParts(env, u, pair) == Failure(Substitution(u))
  {
    assert StrObject.Begins(pair[0], "$");
  }

  // ---------------------------------------------------------------------------
  // resolve

  /** `resolve`: both passes over one fragment. Only an invalid
      substitution can make it fail. */
  function Resolve(env: Env, s: string): (r: Result<string, Error>)
    ensures r.Failure? ==> r.error.Substitution?
  {
    ReplaceRefs(env, BraceNames(s))
  }

  /** Text without `$` is returned unchanged. */
  lemma ResolveNoDollar(env: Env, s: string)
    requires '$' !in s
    ensures Resolve(env, s) == Success(s)
  {
    BraceNamesNoDollar(s);
    ReplaceRefsNoDollar(env, s);
  }

  lemma WordHasNoMarkup(w: string)
    requires IsWord(w)
    ensures '\n' !in w && ':' !in w && '$' !in w && '}' !in w
  {
    assert forall i :: 0 <= i < |w| ==> IsWordChar(w[i]);
  }

  /** A lone `${NAME}` followed by plain text: the value, then the text. */
  lemma ReplaceRefsOneName(env: Env, n: string, post: string)
    requires |n| >= 1 && '\n' !in n
    requires !StrObject.Contains(n, DefaultMark) && !StrObject.Begins(n, "$")
    requires '$' !in post && '}' !in post
    ensures ReplaceRefs(env, "${" + n + "}" + post) == Success(Value(env, n) + post)
  {
    ReplaceRefsOneRef(env, n, post);
    ResolveRecursiveName(env, n);
    ReplaceRefsNoDollar(env, post);
  }

  /** The first pass on one `$NAME` in otherwise plain text. */
  lemma BraceNamesOneName(pre: string, w: string, post: string)
    requires '$' !in pre && '$' !in post
    requires IsWord(w) && (post == "" || !IsWordChar(post[0]))
    ensures BraceNames(pre + ("$" + w + post)) == pre + ("${" + w + "}" + post)
  {
    BraceNamesPlainPrefix(pre, "$" + w + post);
    BraceNamesName(w, post);
    BraceNamesNoDollar(post);
  }

  /** One `$NAME` in otherwise plain text is replaced by its value. */
  lemma ResolveName(env: Env, pre: string, w: string, post: string)
    requires '$' !in pre && '$' !in post && '}' !in post
    requires IsWord(w) && (post == "" || !IsWordChar(post[0]))
    ensures Resolve(env, pre + ("$" + w + post)) == Success(pre + (Value(env, w) + post))
  {
    var braced := "${" + w + "}" + post;
    var v := Value(env, w);
    BraceNamesOneName(pre, w, post);
    assert ReplaceRefs(env, braced) == Success(v + post) by {
      WordHasNoMarkup(w);
      NoColonNoMark(w);
      ReplaceRefsOneName(env, w, post);
    }
    ReplaceRefsPlainPrefix(env, pre, braced);
  }

  /** A lone `$NAME` resolves to the variable's value. */
  lemma ResolveLoneName(env: Env, w: string)
    requires IsWord(w)
    ensures Resolve(env, "$" + w) == Success(Value(env, w))
  {
    ResolveName(env, "", w, "");
    StrObject.AppendEmpty("$" + w);
    StrObject.AppendEmpty(Value(env, w));
  }

  /** One `${...}` in otherwise plain text is replaced by what
      `resolveRecursive` makes of it. */
  lemma ResolveBraced(env: Env, pre: string, n: string, post: string)
    requires '$' !in pre && '$' !in n && '$' !in post && '}' !in post
    requires |n| >= 1 && '\n' !in n
    ensures var inner := ResolveRecursive(env, "${" + n + "}");
      && (inner.Failure? ==> Resolve(env, pre + ("${" + n + "}" + post)) == inner)
      && (inner.Success? ==> Resolve(env, pre + ("${" + n + "}" + post)) == Success(pre + (inner.value + post)))
  {
    var braced := "${" + n + "}" + post;
    var s := pre + braced;
    assert NoBareNames(s) by {
      forall i | 0 <= i < |s| - 1 && s[i] == '$'
        ensures s[i + 1] == '{'
      {
        assert i == |pre|;
      }
    }
    BraceNamesKeeps(s);
    ReplaceRefsOneRef(env, n, post);
    ReplaceRefsNoDollar(env, post);
    ReplaceRefsPlainPrefix(env, pre, braced);
  }

  /** Greedy matching: two adjacent references are one match, so the text
      between the outer braces is looked up as a single name. */
  lemma ResolveJoinsAdjacentNames(env: Env, a: string, b: string)
    requires IsWord(a) && IsWord(b)
    ensures Resolve(env, "$" + a + ("$" + b)) == Success(Value(env, a + "}${" + b))
  {
    var n := a + "}${" + b;
    BraceNamesTwoNames(a, b);
    JoinedNameMarkup(a, b);
    NoColonNoMark(n);
    assert n[0] == a[0];
    ReplaceRefsOneName(env, n, "");
    StrObject.AppendEmpty(Value(env, n));
  }

  /** The first pass braces each of two adjacent names. */
  lemma BraceNamesTwoNames(a: string, b: string)
    requires IsWord(a) && IsWord(b)
    ensures BraceNames("$" + a + ("$" + b)) == "${" + (a + "}${" + b) + "}" + ""
  {
    BraceNamesName(a, "$" + b);
    StrObject.AppendEmpty("$" + b);
    BraceNamesName(b, "");
    assert BraceNames("") == "";
    StrObject.WrapTwo("${", a, "}", b);
    assert "}" + "${" == "}${";
  }

  /** Two names joined by `}${` hold neither a line break nor a colon. */
  lemma JoinedNameMarkup(a: string, b: string)
    requires IsWord(a) && IsWord(b)
    ensures '\n' !in a + "}${" + b && ':' !in a + "}${" + b
  {
    WordHasNoMarkup(a);
    WordHasNoMarkup(b);
  }
}

=== FILE: scanner.dfy ===
/** One pass of the right-hand-side scanner (`parseLine`): a three-state
    quote machine with an escape flag, reading characters from the start of
    the remaining text until the value or fragment ends. The quote state and
    the escape flag are inputs and outputs of a pass, because the parser keeps
    them across passes, physical lines and parse calls. */
module Scanner {
  import opened Wrappers
  import StrObject

  datatype Quote = Norm | Single | Double

  /** What a pass returns (`[$stack, $i, $mustBeResolvedFlag]`) together with
      the quote state and escape flag it leaves behind. */
  datatype Pass = Pass(text: string, cursor: nat, resolve: bool, quote: Quote, esc: bool)

  /** The parser's `INLINE_WHITESPACES`. */
  const InlineWhitespaces: string := " \t"

  /** `ltrim($c, " \t") !== $c`: the one-character string is a space or a tab. */
  predicate IsInlineBlank(c: string) {
    StrObject.TrimLeft(c, InlineWhitespaces) != c
  }

  lemma InlineBlankChar(x: char)
    ensures IsInlineBlank([x]) <==> x == ' ' || x == '\t'
  {
    assert StrObject.CharList(InlineWhitespaces) == InlineWhitespaces;
    var blank := x == ' ' || x == '\t';
    assert x in InlineWhitespaces <==> blank;
    if blank {
      assert [x][1..] == [];
      assert StrObject.TrimLeftBy([x], InlineWhitespaces) == StrObject.TrimLeftBy([], InlineWhitespaces);
    } else {
      assert StrObject.TrimLeftBy([x], InlineWhitespaces) == [x];
    }
  }

  /** `a` can be obtained from `b` by deleting characters. */
  predicate IsSubseq(a: string, b: string)
    decreases |b|
  {
    if |a| == 0 then true
    else if |b| == 0 then false
    else if a[|a| - 1] == b[|b| - 1] then IsSubseq(a[..|a| - 1], b[..|b| - 1])
    else IsSubseq(a, b[..|b| - 1])
  }

  lemma {:induction false} SubseqExtend(a: string, b: string, c: char)
    requires IsSubseq(a, b)
    ensures IsSubseq(a, b + [c])
    decreases |b|, 1
  {
    var b' := b + [c];
    assert b'[..|b'| - 1] == b;
    if |a| > 0 && a[|a| - 1] == c {
      SubseqDropLast(a, b);
    }
  }

  lemma {:induction false} SubseqDropLast(a: string, b: string)
    requires |a| > 0 && IsSubseq(a, b)
    ensures IsSubseq(a[..|a| - 1], b)
    decreases |b|, 0
  {
    var a' := a[..|a| - 1];
    var b' := b[..|b| - 1];
    assert b == b' + [b[|b| - 1]];
    if a[|a| - 1] == b[|b| - 1] {
      SubseqExtend(a', b', b[|b| - 1]);
    } else {
      SubseqDropLast(a, b');
      SubseqExtend(a', b', b[|b| - 1]);
    }
  }

  lemma SubseqSnoc(a: string, b: string, c: char)
    requires IsSubseq(a, b)
    ensures IsSubseq(a + [c], b + [c])
  {
    assert (a + [c])[..|a|] == a;
    assert (b + [c])[..|b|] == b;
  }

  /** The scanner stopped before the end of the text only at a backslash
      that starts a line continuation, at a comment `#`, at whitespace, or
      just after a quote or semicolon it consumed. */
  predicate StopsAt(s: string, i: nat)
    requires i < |s|
  {
    || s[i] == '\\' || s[i] == '#' || StrObject.IsTrimChar(s[i])
    || (i > 0 && (s[i - 1] == '\'' || s[i - 1] == ';'))
  }

  /** What `parseLine` does with the character at `i`. */
  datatype Action =
    | Take          // append the character to the text
    | Toggle        // `"` outside single quotes: switch Norm <-> Double
    | QuoteEnd      // `'` outside double quotes: consume it and end the pass
    | LineContinues // `\` followed only by blanks: end the pass, escape pending
    | Escape        // `\` outside single quotes: escape the next character
    | Comment       // `#` after a space or tab: end the pass before it
    | Semicolon     // `;` outside quotes: consume it and end the pass
    | Blank         // whitespace outside quotes: end the pass before it

  predicate IsBlankChar(c: char) {
    c == ' ' || c == '\t'
  }

  /** The line-continuation test as `parseLine` writes it: the text after
      the `\` at `i` is non-empty and `ltrim($rest, " \t")` leaves nothing. */
  predicate OnlyBlanksAfter(s: string, i: nat)
    requires i < |s|
  {
    var t := StrObject.Substr(s, i + 1, None);
    |t| > 0 && StrObject.TrimLeft(t, InlineWhitespaces) == ""
  }

  /** The same test stated per character: at least one character follows,
      and every one of them is a space or a tab. */
  predicate BlanksToEnd(s: string, i: nat)
    requires i < |s|
  {
    i + 1 < |s| && forall k :: i < k < |s| ==> IsBlankChar(s[k])
  }

  lemma OnlyBlanksAfterIff(s: string, i: nat)
    requires i < |s|
    ensures OnlyBlanksAfter(s, i) <==> BlanksToEnd(s, i)
  {
    var t := StrObject.Substr(s, i + 1, None);
    assert t == s[i + 1..];
    assert StrObject.CharList(InlineWhitespaces) == InlineWhitespaces;
    var r := StrObject.TrimLeftBy(t, InlineWhitespaces);
    assert forall c :: c in InlineWhitespaces <==> IsBlankChar(c);
    if BlanksToEnd(s, i) && r != "" {
      assert false;
    }
    if r == "" && |t| > 0 {
      forall k | i < k < |s|
        ensures IsBlankChar(s[k])
      {
        assert t[k - i - 1] == s[k];
      }
    }
  }

  /** The comment test as `parseLine` writes it: `charAt(i - 1)` is a space
      or a tab. For `i == 0` that reads the LAST character of the text. */
  predicate CommentStarts(s: string, i: nat) {
    IsInlineBlank(StrObject.CharAt(s, i - 1))
  }

  /** The position `charAt(i - 1)` reads. */
  function PrevIndex(s: string, i: nat): nat
    requires i < |s|
  {
    if i == 0 then |s| - 1 else i - 1
  }

  /** The same test stated per character. */
  predicate HashAfterBlank(s: string, i: nat)
    requires i < |s|
  {
    IsBlankChar(s[PrevIndex(s, i)])
  }

  lemma CommentStartsIff(s: string, i: nat)
    requires i < |s|
    ensures CommentStarts(s, i) <==> HashAfterBlank(s, i)
  {
    assert StrObject.CharAt(s, i - 1) == [s[PrevIndex(s, i)]];
    InlineBlankChar(s[PrevIndex(s, i)]);
  }

  function Classify(s: string, i: nat, quote: Quote, esc: bool): (a: Action)
    requires i < |s|
    ensures a == Toggle ==> s[i] == '"' && quote != Single
    ensures a == QuoteEnd ==> s[i] == '\'' && quote != Double
    ensures a == LineContinues || a == Escape ==> s[i] == '\\' && quote != Single
    ensures a == Comment ==> s[i] == '#'
    ensures a == Semicolon ==> s[i] == ';' && quote == Norm
    ensures a == Blank ==> StrObject.IsTrimChar(s[i])
    ensures a != Take ==> !esc
  {
    var c := s[i];
    if esc then Take
    else if c == '"' && quote != Single then Toggle
    else if c == '\'' && quote != Double then QuoteEnd
    else if c == '\\' && quote != Single then (if BlanksToEnd(s, i) then LineContinues else Escape)
    else if c == '#' && HashAfterBlank(s, i) then Comment
    else if c == ';' && quote == Norm then Semicolon
    else if quote == Norm && StrObject.IsTrimChar(c) then Blank
    else Take
  }

  /** `Classify` makes the same choice as the tests `parseLine` writes:
      `ltrim` for the line continuation, `charAt` for the comment and
      `isWhitespaces` for the blank. */
  lemma ClassifyAsWritten(s: string, i: nat, quote: Quote, esc: bool)
    requires i < |s|
    ensures var c := s[i];
      Classify(s, i, quote, esc) ==
        if esc then Take
        else if c == '"' && quote != Single then Toggle
        else if c == '\'' && quote != Double then QuoteEnd
        else if c == '\\' && quote != Single then (if OnlyBlanksAfter(s, i) then LineContinues else Escape)
        else if c == '#' && CommentStarts(s, i) then Comment
        else if c == ';' && quote == Norm then Semicolon
        else if quote == Norm && StrObject.IsWhitespaces([c]) then Blank
        else Take
  {
    OnlyBlanksAfterIff(s, i);
    CommentStartsIff(s, i);
    StrObject.WhitespaceChar(s[i]);
  }

  /** What one iteration of the loop leaves behind: go on with the next
      character in a new state, or end the pass. */
  datatype Next = Continue(quote: Quote, esc: bool, acc: string) | Stop(pass: Pass)

  /** One iteration of the loop of `parseLine` at position `i`. It collects
      at most the character at `i`, and a pass it ends stops at `i` or just
      after it, at a terminator. Outside single quotes it never enters them
      and never clears the resolve flag. */
  function Step(s: string, i: nat, quote: Quote, esc: bool, acc: string): (n: Next)
    requires i < |s|
    ensures n.Continue? ==> n.acc == acc || n.acc == acc + [s[i]]
    ensures n.Stop? ==> n.pass.text == acc && (n.pass.cursor == i || n.pass.cursor == i + 1)
    ensures n.Stop? && n.pass.cursor < |s| ==> StopsAt(s, n.pass.cursor)
    ensures n.Stop? && n.pass.esc ==> n.pass.cursor == i && s[i] == '\\'
    ensures n.Stop? && !n.pass.resolve ==> n.pass.quote == Norm && n.pass.cursor == i + 1 && s[i] == '\''
    ensures quote != Single ==> (n.Continue? ==> n.quote != Single) && (n.Stop? ==> n.pass.resolve)
  {
    match Classify(s, i, quote, esc)
    case Take => Continue(quote, false, acc + [s[i]])
    case Toggle => Continue(if quote == Norm then Double else Norm, false, acc)
    case Escape => Continue(quote, true, acc)
    case QuoteEnd => Stop(Pass(acc, i + 1, quote == Norm, if quote == Norm then Single else Norm, false))
    case LineContinues => Stop(Pass(acc, i, true, quote, true))
    case Comment => Stop(Pass(acc, i, true, quote, false))
    case Semicolon => Stop(Pass(acc, i + 1, true, quote, false))
    case Blank => Stop(Pass(acc, i, true, quote, false))
  }

  /** The loop of `parseLine` from position `i`, with `acc` the text collected so far. */
  function ScanFrom(s: string, i: nat, quote: Quote, esc: bool, acc: string): (r: Pass)
    requires i <= |s|
    ensures i <= r.cursor <= |s|
    ensures acc <= r.text
    ensures !r.resolve ==> r.quote == Norm && 0 < r.cursor && s[r.cursor - 1] == '\''
    decreases |s| - i
  {
    if i == |s| then Pass(acc, i, true, quote, esc)
    else
      match Step(s, i, quote, esc, acc)
      case Continue(q, e, a) => ScanFrom(s, i + 1, q, e, a)
      case Stop(p) => p
  }

  /** A pass ends early only at a terminator, and leaves an escape pending
      only at the end of the text or at a line-continuing backslash. */
  lemma {:induction false} ScanStops(s: string, i: nat, quote: Quote, esc: bool, acc: string)
    requires i <= |s|
    ensures var r := ScanFrom(s, i, quote, esc, acc);
      && (r.cursor < |s| ==> StopsAt(s, r.cursor))
      && (r.esc ==> r.cursor == |s| || s[r.cursor] == '\\')
    decreases |s| - i
  {
    if i < |s| {
      match Step(s, i, quote, esc, acc)
      case Continue(q, e, a) => ScanStops(s, i + 1, q, e, a);
      case Stop(p) =>
    }
  }

  /** The text a pass collects is drawn, in order, from the characters it consumed. */
  lemma {:induction false} ScanTextFromConsumed(s: string, i: nat, quote: Quote, esc: bool, acc: string)
    requires i <= |s| && IsSubseq(acc, s[..i])
    ensures var r := ScanFrom(s, i, quote, esc, acc); IsSubseq(r.text, s[..r.cursor])
    decreases |s| - i
  {
    if i < |s| {
      match Step(s, i, quote, esc, acc)
      case Continue(q, e, a) =>
        ConsumedStep(s, i, acc, a);
        ScanTextFromConsumed(s, i + 1, q, e, a);
      case Stop(p) =>
        ConsumedStep(s, i, acc, acc);
    }
  }

  /** Consuming the character at `i`, and perhaps collecting it, keeps the
      collected text drawn from the consumed characters. */
  lemma ConsumedStep(s: string, i: nat, acc: string, a: string)
    requires i < |s| && IsSubseq(acc, s[..i]) && (a == acc || a == acc + [s[i]])
    ensures IsSubseq(acc, s[..i + 1]) && IsSubseq(a, s[..i + 1])
  {
    var c := s[i];
    assert s[..i + 1] == s[..i] + [c];
    SubseqExtend(acc, s[..i], c);
    if a != acc {
      SubseqSnoc(acc, s[..i], c);
    }
  }

  /** `parseLine($rawString)`: one pass from the start of `s`. The cursor stays
      within the text, the pass ends early only at a terminator, and the
      resolve flag is false only when the pass ended by closing a single
      quote. */
  function Scan(s: string, quote: Quote, esc: bool): (r: Pass)
    ensures r.cursor <= |s|
    ensures !r.resolve ==> quote == Single && r.quote == Norm && 0 < r.cursor && s[r.cursor - 1] == '\''
    ensures r.cursor < |s| ==> StopsAt(s, r.cursor)
  {
    ScanResolveFlag(s, quote, esc);
    ScanStops(s, 0, quote, esc, "");
    ScanFrom(s, 0, quote, esc, "")
  }

  /** The text of a pass is drawn, in order, from the characters it consumed:
      the scanner only drops quotes, escapes and terminators. */
  lemma ScanTextFromInput(s: string, quote: Quote, esc: bool)
    ensures var r := Scan(s, quote, esc); IsSubseq(r.text, s[..r.cursor])
  {
    ScanTextFromConsumed(s, 0, quote, esc, "");
  }

  lemma ScanResolveFlag(s: string, quote: Quote, esc: bool)
    ensures !ScanFrom(s, 0, quote, esc, "").resolve ==> quote == Single
  {
    if quote != Single {
      ScanNeverSingle(s, 0, quote, esc, "");
    }
  }

  /** A pass that starts outside a single quote never clears the resolve flag:
      only single-quoted text is literal. */
  lemma {:induction false} ScanNeverSingle(s: string, i: nat, quote: Quote, esc: bool, acc: string)
    requires i <= |s| && quote != Single
    ensures ScanFrom(s, i, quote, esc, acc).resolve
    decreases |s| - i
  {
    if i < |s| {
      match Step(s, i, quote, esc, acc)
      case Continue(q, e, a) => ScanNeverSingle(s, i + 1, q, e, a);
      case Stop(p) =>
    }
  }

  // ---------------------------------------------------------------------------
  // Round trips: how a value has to be written to be read back verbatim.

  /** Characters a double-quoted value must escape with a backslash: the
      quote itself, the backslash, and `#`, which ends a pass after a blank. */
  predicate NeedsEscapeInDouble(c: char) {
    c == '"' || c == '\\' || c == '#'
  }

  function EscapeDouble(v: string): (r: string)
    ensures |r| >= |v|
    decreases |v|
  {
    if |v| == 0 then ""
    else (if NeedsEscapeInDouble(v[0]) then ['\\', v[0]] else [v[0]]) + EscapeDouble(v[1..])
  }

  /** One step of the loop that collects the character and goes on. */
  lemma TakeStep(s: string, i: nat, quote: Quote, esc: bool, acc: string)
    requires i < |s| && Classify(s, i, quote, esc) == Take
    ensures ScanFrom(s, i, quote, esc, acc) == ScanFrom(s, i + 1, quote, false, acc + [s[i]])
  {
  }

  /** One step of the loop that sets the escape flag and goes on. */
  lemma EscapeStep(s: string, i: nat, quote: Quote, acc: string)
    requires i < |s| && Classify(s, i, quote, false) == Escape
    ensures ScanFrom(s, i, quote, false, acc) == ScanFrom(s, i + 1, quote, true, acc)
  {
  }

  /** A backslash followed by a character other than a space or tab does not
      continue the line: it escapes that character. */
  lemma EscapesNext(s: string, i: nat, quote: Quote)
    requires i + 1 < |s| && s[i] == '\\' && quote != Single
    requires s[i + 1] != ' ' && s[i + 1] != '\t'
    ensures Classify(s, i, quote, false) == Escape
  {
    assert !IsBlankChar(s[i + 1]);
  }

  /** Reading a known prefix off the text at position `i`. */
  lemma SliceSplit(s: string, i: nat, p: string, q: string)
    requires i <= |s| && s[i..] == p + q
    ensures i + |p| <= |s| && s[i + |p|..] == q
    ensures forall k :: 0 <= k < |p| ==> s[i + k] == p[k]
  {
    assert forall k :: 0 <= k < |p| ==> s[i..][k] == p[k];
    assert s[i + |p|..] == s[i..][|p|..];
  }

  /** An escaped character inside double quotes is collected without its backslash. */
  lemma EscapedCharStep(s: string, i: nat, acc: string)
    requires i + 1 < |s| && s[i] == '\\' && s[i + 1] != ' ' && s[i + 1] != '\t'
    ensures ScanFrom(s, i, Double, false, acc) == ScanFrom(s, i + 2, Double, false, acc + [s[i + 1]])
  {
    EscapesNext(s, i, Double);
    EscapeStep(s, i, Double, acc);
    TakeStep(s, i + 1, Double, true, acc);
  }

  /** A character that needs no escape inside double quotes is collected as it is. */
  lemma PlainDoubleStep(s: string, i: nat, acc: string)
    requires i < |s| && !NeedsEscapeInDouble(s[i])
    ensures ScanFrom(s, i, Double, false, acc) == ScanFrom(s, i + 1, Double, false, acc + [s[i]])
  {
    assert Classify(s, i, Double, false) == Take;
    TakeStep(s, i, Double, false, acc);
  }

  lemma AppendFirst(acc: string, w: string)
    requires |w| > 0
    ensures acc + [w[0]] + w[1..] == acc + w
  {
    assert [w[0]] + w[1..] == w;
  }

  /** The first character of an escaped body, with its backslash if it has
      one, is collected as that character. */
  lemma EscapedHeadStep(s: string, i: nat, w: string, tail: string, acc: string) returns (next: nat)
    requires |w| > 0 && i <= |s| && s[i..] == EscapeDouble(w) + tail
    ensures next == i + (if NeedsEscapeInDouble(w[0]) then 2 else 1)
    ensures next <= |s| && s[next..] == EscapeDouble(w[1..]) + tail
    ensures ScanFrom(s, i, Double, false, acc) == ScanFrom(s, next, Double, false, acc + [w[0]])
  {
    var c := w[0];
    var e := EscapeDouble(w[1..]);
    var head := if NeedsEscapeInDouble(c) then ['\\', c] else [c];
    assert s[i..] == head + (e + tail);
    SliceSplit(s, i, head, e + tail);
    next := i + |head|;
    if NeedsEscapeInDouble(c) {
      assert s[i + 1] == head[1] == c;
      EscapedCharStep(s, i, acc);
    } else {
      assert s[i] == head[0] == c;
      PlainDoubleStep(s, i, acc);
    }
  }

  /** Inside double quotes every character of an escaped body is collected,
      up to the closing quote. */
  lemma {:induction false} ScanEscapedBody(s: string, i: nat, w: string, tail: string, acc: string)
    requires i <= |s| && s[i..] == EscapeDouble(w) + tail
    requires |tail| > 0 && tail[0] == '"'
    ensures ScanFrom(s, i, Double, false, acc) == ScanFrom(s, |s| - |tail|, Double, false, acc + w)
    decreases |w|
  {
    if |w| == 0 {
      assert acc + w == acc;
    } else {
      var c := w[0];
      var next := EscapedHeadStep(s, i, w, tail, acc);
      ScanEscapedBody(s, next, w[1..], tail, acc + [c]);
      AppendFirst(acc, w);
    }
  }

  /** Outside quotes, whitespace or the end of the text ends the pass
      without consuming anything. */
  lemma StopsAtBlank(s: string, k: nat, acc: string)
    requires k <= |s| && (k == |s| || s[k] in StrObject.DefaultTrimChars)
    ensures ScanFrom(s, k, Norm, false, acc) == Pass(acc, k, true, Norm, false)
  {
    if k < |s| {
      StrObject.TrimCharIsDefault(s[k]);
      assert Classify(s, k, Norm, false) == Blank;
    }
  }

  /** Outside quotes a semicolon ends the pass and is consumed. */
  lemma StopsAfterSemicolon(s: string, k: nat, acc: string)
    requires k < |s| && s[k] == ';'
    ensures ScanFrom(s, k, Norm, false, acc) == Pass(acc, k + 1, true, Norm, false)
  {
    assert Classify(s, k, Norm, false) == Semicolon;
  }

  /** A value written in double quotes with `"`, `\` and `#` escaped reads
      back as exactly that value, resolvable, with the quote closed; the pass
      stops at whitespace after the closing quote without consuming it. */
  lemma ScanDoubleQuoted(v: string, rest: string)
    requires rest == "" || rest[0] in StrObject.DefaultTrimChars
    ensures var s := ['"'] + EscapeDouble(v) + ['"'] + rest;
      Scan(s, Norm, false) == Pass(v, |s| - |rest|, true, Norm, false)
  {
    var s := ['"'] + EscapeDouble(v) + ['"'] + rest;
    var j := DoubleLayout(v, rest);
    ScanDoubleBody(s, v, rest, j);
    ToggleStep(s, j, Double, v);
    StopsAtBlank(s, j + 1, v);
  }

  /** The opening quote and the escaped body of `"…"rest`, up to the closing quote at `j`. */
  lemma ScanDoubleBody(s: string, v: string, rest: string, j: nat)
    requires s == ['"'] + EscapeDouble(v) + ['"'] + rest
    requires j + 1 + |rest| == |s| && s[0] == '"'
    requires s[1..] == EscapeDouble(v) + (['"'] + rest)
    ensures ScanFrom(s, 0, Norm, false, "") == ScanFrom(s, j, Double, false, v)
  {
    ToggleStep(s, 0, Norm, "");
    ScanEscapedBody(s, 1, v, ['"'] + rest, "");
    assert "" + v == v;
  }

  /** Where the parts of `"…"rest` sit: the closing quote is at `j`. */
  lemma DoubleLayout(v: string, rest: string) returns (j: nat)
    ensures var s := ['"'] + EscapeDouble(v) + ['"'] + rest;
      && j + 1 + |rest| == |s| && s[0] == '"' && s[j] == '"'
      && s[1..] == EscapeDouble(v) + (['"'] + rest)
      && (rest != "" ==> s[j + 1] == rest[0])
  {
    var s := ['"'] + EscapeDouble(v) + ['"'] + rest;
    var tail := ['"'] + rest;
    assert s == ['"'] + (EscapeDouble(v) + tail);
    SliceSplit(s, 0, ['"'], EscapeDouble(v) + tail);
    j := |s| - |tail|;
    assert s[j..] == tail;
    SliceSplit(s, j, ['"'], rest);
    if rest != "" {
      SliceSplit(s, j + 1, [rest[0]], rest[1..]);
    }
  }

  /** One step of the loop that toggles double quotes and goes on. */
  lemma ToggleStep(s: string, i: nat, quote: Quote, acc: string)
    requires i < |s| && s[i] == '"' && quote != Single
    ensures ScanFrom(s, i, quote, false, acc) == ScanFrom(s, i + 1, if quote == Norm then Double else Norm, false, acc)
  {
  }

  lemma AppendSlice(acc: string, s: string, i: nat, j: nat)
    requires i < j <= |s|
    ensures acc + [s[i]] + s[i + 1..j] == acc + s[i..j]
  {
    assert [s[i]] + s[i + 1..j] == s[i..j];
  }

  /** A run of characters the loop collects one by one ends up in the text as it is. */
  lemma {:induction false} ScanTakes(s: string, i: nat, j: nat, quote: Quote, acc: string)
    requires i <= j <= |s|
    requires forall k :: i <= k < j ==> Classify(s, k, quote, false) == Take
    ensures ScanFrom(s, i, quote, false, acc) == ScanFrom(s, j, quote, false, acc + s[i..j])
    decreases j - i
  {
    if i == j {
      assert acc + s[i..j] == acc;
    } else {
      TakeStep(s, i, quote, false, acc);
      ScanTakes(s, i + 1, j, quote, acc + [s[i]]);
      AppendSlice(acc, s, i, j);
    }
  }

  /** Inside single quotes a character other than the quote is collected,
      unless it is a `#` after a blank. */
  lemma SingleTakes(s: string, k: nat)
    requires k < |s| && s[k] != '\''
    requires s[k] == '#' ==> !HashAfterBlank(s, k)
    ensures Classify(s, k, Single, false) == Take
  {
  }

  /** A single-quoted value takes two passes: the opening quote ends the
      first (nothing collected, state Single), and the second collects the
      body verbatim, including `"`, `\` and `$`, up to the closing quote,
      with the resolve flag cleared. A `#` after a blank would end the pass
      early, so the body must not hold one; for the first character the
      blank looked at is the last character of the text. */
  lemma ScanSingleQuoted(v: string, rest: string)
    requires '\'' !in v
    requires forall k :: 1 <= k < |v| && v[k] == '#' ==> v[k - 1] != ' ' && v[k - 1] != '\t'
    requires |v| > 0 && v[0] == '#' ==> var t := v + ['\''] + rest; t[|t| - 1] != ' ' && t[|t| - 1] != '\t'
    ensures Scan(['\''] + v + ['\''] + rest, Norm, false) == Pass("", 1, true, Single, false)
    ensures Scan(v + ['\''] + rest, Single, false) == Pass(v, |v| + 1, false, Norm, false)
  {
    var s0 := ['\''] + v + ['\''] + rest;
    assert s0[0] == '\'';
    assert Classify(s0, 0, Norm, false) == QuoteEnd;
    var s := v + ['\''] + rest;
    assert s == v + (['\''] + rest);
    SliceSplit(s, 0, v, ['\''] + rest);
    forall k | 0 <= k < |v|
      ensures Classify(s, k, Single, false) == Take
    {
      assert s[k] == v[k];
      if k > 0 {
        assert s[k - 1] == v[k - 1];
      }
      SingleTakes(s, k);
    }
    ScanTakes(s, 0, |v|, Single, "");
    assert "" + s[0..|v|] == v;
    assert s[|v|] == '\'';
    assert Classify(s, |v|, Single, false) == QuoteEnd;
  }

  /** Plain characters of an unquoted value: no quote, backslash, semicolon
      or whitespace. */
  predicate IsPlain(c: char) {
    c != '"' && c != '\'' && c != '\\' && c != ';' && !StrObject.IsTrimChar(c)
  }

  /** Outside quotes a plain character is collected, and so is a `#` glued
      to the character before it. */
  lemma PlainTakes(s: string, k: nat)
    requires k < |s| && IsPlain(s[k])
    requires s[k] == '#' ==> !HashAfterBlank(s, k)
    ensures Classify(s, k, Norm, false) == Take
  {
  }

  /** Every character of a plain run not starting with `#` is collected. */
  lemma PlainRunTakes(s: string, n: nat)
    requires n <= |s|
    requires forall k :: 0 <= k < n ==> IsPlain(s[k])
    requires n > 0 ==> s[0] != '#'
    ensures forall k :: 0 <= k < n ==> Classify(s, k, Norm, false) == Take
  {
    forall k | 0 <= k < n
      ensures Classify(s, k, Norm, false) == Take
    {
      PlainTakes(s, k);
    }
  }

  /** An unquoted value of plain characters, not starting with `#`, ends at
      whitespace, which is left for the next assignment, or at a semicolon,
      which is consumed. A `#` inside the value is kept. */
  lemma ScanUnquoted(v: string, rest: string)
    requires forall k :: 0 <= k < |v| ==> IsPlain(v[k])
    requires |v| > 0 ==> v[0] != '#'
    requires rest == "" || rest[0] in StrObject.DefaultTrimChars || rest[0] == ';'
    ensures Scan(v + rest, Norm, false)
         == Pass(v, if rest != "" && rest[0] == ';' then |v| + 1 else |v|, true, Norm, false)
  {
    var s := v + rest;
    SliceSplit(s, 0, v, rest);
    ScanPlainPrefix(s, v);
    if rest != "" {
      SliceSplit(s, |v|, [rest[0]], rest[1..]);
      if rest[0] == ';' {
        StopsAfterSemicolon(s, |v|, v);
      } else {
        StopsAtBlank(s, |v|, v);
      }
    } else {
      StopsAtBlank(s, |v|, v);
    }
  }

  /** An escaped semicolon is collected and the next one ends the value, as
      in `K3=VAL3\;; K4=VAL4`: `VAL3\;;` gives `VAL3;` and the text after
      the second semicolon is left for the next pass. */
  lemma ScanEscapedSemicolon(v: string, rest: string)
    requires forall k :: 0 <= k < |v| ==> IsPlain(v[k])
    requires |v| > 0 ==> v[0] != '#'
    ensures Scan(v + "\\;;" + rest, Norm, false) == Pass(v + ";", |v| + 3, true, Norm, false)
  {
    var s := v + "\\;;" + rest;
    assert s == v + ("\\;;" + rest);
    SliceSplit(s, 0, v, "\\;;" + rest);
    ScanPlainPrefix(s, v);
    EscapedSemicolonEnds(s, |v|, v);
  }

  /** A run of plain characters at the start of the text, not starting with
      `#`, is collected as it stands. */
  lemma ScanPlainPrefix(s: string, v: string)
    requires |v| <= |s| && forall k :: 0 <= k < |v| ==> s[k] == v[k]
    requires forall k :: 0 <= k < |v| ==> IsPlain(v[k])
    requires |v| > 0 ==> v[0] != '#'
    ensures ScanFrom(s, 0, Norm, false, "") == ScanFrom(s, |v|, Norm, false, v)
  {
    PlainRunTakes(s, |v|);
    ScanTakes(s, 0, |v|, Norm, "");
    assert "" + s[0..|v|] == v;
  }

  /** `\;;` at position `i`: the escaped semicolon is collected and the
      second one ends the pass. */
  lemma EscapedSemicolonEnds(s: string, i: nat, acc: string)
    requires i + 2 < |s| && s[i] == '\\' && s[i + 1] == ';' && s[i + 2] == ';'
    ensures ScanFrom(s, i, Norm, false, acc) == Pass(acc + ";", i + 3, true, Norm, false)
  {
    EscapesNext(s, i, Norm);
    EscapeStep(s, i, Norm, acc);
    TakeStep(s, i + 1, Norm, true, acc);
    assert acc + [s[i + 1]] == acc + ";";
    StopsAfterSemicolon(s, i + 2, acc + ";");
  }

  /** A `#` at the first position of a pass looks at the LAST character of the
      text (`charAt(-1)`), whatever the quote state: `#x ` ends the pass at 0. */
  lemma ScanHashLooksAtLastChar(s: string, quote: Quote, esc: bool)
    requires |s| > 0 && s[0] == '#' && !esc
    requires s[|s| - 1] == ' ' || s[|s| - 1] == '\t'
    ensures Scan(s, quote, esc) == Pass("", 0, true, quote, false)
  {
    assert Classify(s, 0, quote, esc) == Comment;
  }
}

=== FILE: str_object.dfy ===
/** The string object the parser works with. A PHP multibyte string is a
    sequence of code points here, so `mb_strlen` is `|s|` and every offset
    counts characters, not bytes. Each operation is a pure function returning
    the new string instead of mutating the receiver. */
module StrObject {
  import opened Wrappers

  /** PHP's default trim character list: " \t\n\r\0\x0B". */
  const DefaultTrimChars: string := [' ', '\t', '\n', '\r', 0 as char, 11 as char]

  /** PHP truthiness of a string: "" and "0" are false. */
  predicate Truthy(s: string) {
    s != "" && s != "0"
  }

  /** The characters a `$charList` argument selects: an empty or "0" list is
      falsy, so the receiver falls back to the default list. */
  function CharList(charList: string): string {
    if Truthy(charList) then charList else DefaultTrimChars
  }

  // ---------------------------------------------------------------------------
  // Trimming

  /** `ltrim`: the longest suffix of `s` that does not start with a character of `cs`. */
  function TrimLeftBy(s: string, cs: string): (r: string)
    ensures |r| <= |s| && r == s[|s| - |r|..]
    ensures |r| > 0 ==> r[0] !in cs
    ensures forall j :: 0 <= j < |s| - |r| ==> s[j] in cs
    decreases |s|
  {
    if |s| > 0 && s[0] in cs then
      var t := s[1..];
      var r := TrimLeftBy(t, cs);
      assert s[|s| - |r|..] == t[|t| - |r|..];
      assert forall j :: 1 <= j < |s| - |r| ==> s[j] == t[j - 1];
      r
    else s
  }

  /** `rtrim`: the longest prefix of `s` that does not end with a character of `cs`. */
  function TrimRightBy(s: string, cs: string): (r: string)
    ensures |r| <= |s| && r == s[..|r|]
    ensures |r| > 0 ==> r[|r| - 1] !in cs
    ensures forall j :: |r| <= j < |s| ==> s[j] in cs
    decreases |s|
  {
    if |s| > 0 && s[|s| - 1] in cs then TrimRightBy(s[..|s| - 1], cs) else s
  }

  /** Number of characters `ltrim` removes from the front of `s`. */
  function LeftTrimmed(s: string, cs: string): nat
  {
    |s| - |TrimLeftBy(s, cs)|
  }

  /** `trim`: strips characters of `cs` from both ends. The result is the
      slice of `s` that starts after the removed prefix, and every removed
      character, at either end, is in `cs`. */
  function TrimBy(s: string, cs: string): (r: string)
    ensures LeftTrimmed(s, cs) + |r| <= |s|
    ensures r == s[LeftTrimmed(s, cs)..LeftTrimmed(s, cs) + |r|]
    ensures forall j :: 0 <= j < LeftTrimmed(s, cs) ==> s[j] in cs
    ensures forall j :: LeftTrimmed(s, cs) + |r| <= j < |s| ==> s[j] in cs
    ensures |r| > 0 ==> r[0] !in cs && r[|r| - 1] !in cs
  {
    var l := TrimLeftBy(s, cs);
    var r := TrimRightBy(l, cs);
    TrimSlice(s, l, r, cs);
    r
  }

  /** The right trim of a suffix of `s` is a slice of `s`, and what it drops
      from the suffix is what `s` has after the slice. */
  lemma TrimSlice(s: string, l: string, r: string, cs: string)
    requires |l| <= |s| && l == s[|s| - |l|..]
    requires |r| <= |l| && r == l[..|r|]
    requires forall j :: |r| <= j < |l| ==> l[j] in cs
    ensures r == s[|s| - |l|..|s| - |l| + |r|]
    ensures forall j :: |s| - |l| + |r| <= j < |s| ==> s[j] in cs
  {
    var n := |s| - |l|;
    forall j | n + |r| <= j < |s|
      ensures s[j] in cs
    {
      assert s[j] == l[j - n];
    }
  }

  /** `StrObject::trimLeft($charList)`. */
  function TrimLeft(s: string, charList: string): string {
    TrimLeftBy(s, CharList(charList))
  }

  /** `StrObject::trimRight($charList)`. */
  function TrimRight(s: string, charList: string): string {
    TrimRightBy(s, CharList(charList))
  }

  /** `StrObject::trim($charList)`. */
  function Trim(s: string, charList: string): string {
    TrimBy(s, CharList(charList))
  }

  /** PHP reads the character list for truthiness, so "0" is no list at all:
      it trims the default characters rather than zeros. */
  lemma ZeroListIsDefault(s: string)
    ensures Trim(s, "0") == Trim(s, "") == TrimBy(s, DefaultTrimChars)
    ensures TrimLeft(s, "0") == TrimLeft(s, "") == TrimLeftBy(s, DefaultTrimChars)
    ensures TrimRight(s, "0") == TrimRight(s, "") == TrimRightBy(s, DefaultTrimChars)
  {
  }

  lemma TrimLeftIdempotent(s: string, cs: string)
    ensures TrimLeftBy(TrimLeftBy(s, cs), cs) == TrimLeftBy(s, cs)
  {
  }

  lemma TrimRightIdempotent(s: string, cs: string)
    ensures TrimRightBy(TrimRightBy(s, cs), cs) == TrimRightBy(s, cs)
  {
  }

  lemma TrimIdempotent(s: string, cs: string)
    ensures TrimBy(TrimBy(s, cs), cs) == TrimBy(s, cs)
  {
    var r := TrimBy(s, cs);
    if |r| > 0 {
      assert TrimLeftBy(r, cs) == r;
      assert TrimRightBy(r, cs) == r;
    }
  }

  /** A string whose first and last characters are outside `cs` is left
      as it is by trimming. */
  lemma TrimByUnchanged(s: string, cs: string)
    requires |s| > 0 && s[0] !in cs && s[|s| - 1] !in cs
    ensures TrimBy(s, cs) == s
  {
    assert TrimLeftBy(s, cs) == s;
    assert TrimRightBy(s, cs) == s;
  }

  /** A string that is not all `cs` characters keeps a non-`cs` character at
      both ends after trimming, so it is non-empty. */
  lemma TrimKeepsSubstance(s: string, cs: string, k: nat)
    requires k < |s| && s[k] !in cs
    ensures |TrimBy(s, cs)| > 0
  {
    assert LeftTrimmed(s, cs) <= k < LeftTrimmed(s, cs) + |TrimBy(s, cs)|;
  }

  /** Trimming leaves nothing exactly when every character is in `cs`. */
  lemma TrimEmptyIff(s: string, cs: string)
    ensures |TrimBy(s, cs)| == 0 <==> forall j :: 0 <= j < |s| ==> s[j] in cs
  {
    if exists k :: 0 <= k < |s| && s[k] !in cs {
      var k :| 0 <= k < |s| && s[k] !in cs;
      TrimKeepsSubstance(s, cs, k);
    }
  }

  /** A character of the default trim list, spelled out. */
  predicate IsTrimChar(c: char) {
    c == ' ' || c == '\t' || c == '\n' || c == '\r' || c == 0 as char || c == 11 as char
  }

  lemma TrimCharIsDefault(c: char)
    ensures c in DefaultTrimChars <==> IsTrimChar(c)
  {
  }

  /** `isWhitespaces`: nothing is left after `ltrim` with the default list. */
  function IsWhitespaces(s: string): (r: bool)
    ensures r <==> forall i :: 0 <= i < |s| ==> s[i] in DefaultTrimChars
  {
    TrimLeft(s, "") == ""
  }

  /** For one character, `isWhitespaces` is membership in the default list. */
  lemma WhitespaceChar(c: char)
    ensures IsWhitespaces([c]) <==> IsTrimChar(c)
  {
    assert [c][0] == c;
    TrimCharIsDefault(c);
  }

  // ---------------------------------------------------------------------------
  // Character access

  /** `mb_substr($s, $start, $length)`: a negative start counts from the end
      and is clamped to 0, a start beyond the end gives "", a negative length
      leaves that many characters off the end. */
  function Substr(s: string, start: int, length: Option<int>): (r: string)
    ensures 0 <= start <= |s| && length.None? ==> r == s[start..]
    ensures (0 <= start && length.Some? && 0 <= length.value && start + length.value <= |s|) ==>
              r == s[start..start + length.value]
    ensures start >= |s| ==> r == ""
  {
    var from: nat := if start >= 0 then start else if -start < |s| then |s| + start else 0;
    if from > |s| then ""
    else
      var to: nat := match length
        case None => |s|
        case Some(l) =>
          if l >= 0 then (if from + l <= |s| then from + l else |s|)
          else if |s| + l >= from then |s| + l
          else from;
      s[from..to]
  }

  /** `charAt($index)`: one character, counted from the end for a negative
      index; "" at or past the end. A negative index beyond the start is
      clamped to the first character by `mb_substr`. */
  function CharAt(s: string, index: int): (r: string)
    ensures 0 <= index < |s| ==> r == [s[index]]
    ensures -|s| <= index < 0 ==> r == [s[|s| + index]]
    ensures index >= |s| ==> r == ""
    ensures index < -|s| && |s| > 0 ==> r == [s[0]]
    ensures |r| <= 1
  {
    Substr(s, index, Some(1))
  }

  // ---------------------------------------------------------------------------
  // Searching

  /** `needle` occurs in `s` starting at position `j`. */
  predicate OccursAt(s: string, needle: string, j: int) {
    0 <= j && j + |needle| <= |s| && s[j..j + |needle|] == needle
  }

  /** First occurrence of `needle` at or after `from` (the search of `mb_strpos`). */
  function FindFrom(s: string, needle: string, from: nat): (r: Option<nat>)
    requires from <= |s|
    ensures r.Some? ==> from <= r.value && OccursAt(s, needle, r.value)
    ensures r.Some? ==> forall j :: from <= j < r.value ==> !OccursAt(s, needle, j)
    ensures r.None? <==> forall j :: from <= j ==> !OccursAt(s, needle, j)
    decreases |s| - from
  {
    if OccursAt(s, needle, from) then Some(from)
    else if from == |s| then None
    else FindFrom(s, needle, from + 1)
  }

  /** `pos($str, $offset)` for a non-negative offset; an offset past the end
      is refused by `mb_strpos`, modelled as "not found". */
  function Pos(s: string, needle: string, offset: nat): (r: Option<nat>)
    ensures offset > |s| ==> r.None?
    ensures r.Some? ==> offset <= r.value && OccursAt(s, needle, r.value)
    ensures r.Some? ==> forall j :: offset <= j < r.value ==> !OccursAt(s, needle, j)
    ensures offset <= |s| && r.None? ==> forall j :: offset <= j ==> !OccursAt(s, needle, j)
  {
    if offset > |s| then None else FindFrom(s, needle, offset)
  }

  /** `after($str, $offset)`: the text following the first occurrence of the
      needle, or null (`None`) when it does not occur. */
  function After(s: string, needle: string, offset: nat): (r: Option<string>)
    ensures r.Some? <==> Pos(s, needle, offset).Some?
    ensures r.Some? ==> s == s[..Pos(s, needle, offset).value] + needle + r.value
  {
    match Pos(s, needle, offset)
    case None => None
    case Some(p) =>
      assert s == s[..p] + s[p..p + |needle|] + s[p + |needle|..];
      Some(Substr(s, p + |needle|, None))
  }

  /** `before($str, $offset)`: the text preceding the first occurrence of the
      needle, or null (`None`) when it does not occur. */
  function Before(s: string, needle: string, offset: nat): (r: Option<string>)
    ensures r.Some? <==> Pos(s, needle, offset).Some?
    ensures r.Some? ==> r.value == s[..Pos(s, needle, offset).value]
  {
    match Pos(s, needle, offset)
    case None => None
    case Some(p) => Some(Substr(s, 0, Some(p)))
  }

  /** `before` and `after` split the string around the first occurrence,
      and the text before it holds no occurrence of a non-empty needle. */
  lemma BeforeAfterSplit(s: string, needle: string)
    requires Pos(s, needle, 0).Some?
    ensures Before(s, needle, 0).value + needle + After(s, needle, 0).value == s
    ensures |needle| > 0 ==> !Contains(Before(s, needle, 0).value, needle)
  {
    if |needle| > 0 {
      NoEarlierOccurrence(s, needle, Pos(s, needle, 0).value);
    }
  }

  /** `begins($str)`: a character-by-character prefix test (the `strncmp` branch). */
  function Begins(s: string, prefix: string): (r: bool)
    ensures r <==> prefix <= s
  {
    if |prefix| == 0 then true
    else |s| > 0 && s[0] == prefix[0] && Begins(s[1..], prefix[1..])
  }

  /** `ends($str)`: a character-by-character suffix test. */
  function Ends(s: string, suffix: string): (r: bool)
    ensures r <==> |suffix| <= |s| && s[|s| - |suffix|..] == suffix
  {
    if |suffix| == 0 then true
    else |s| > 0 && s[|s| - 1] == suffix[|suffix| - 1] && Ends(s[..|s| - 1], suffix[..|suffix| - 1])
  }

  /** `contains($str)`. */
  function Contains(s: string, needle: string): bool {
    FindFrom(s, needle, 0).Some?
  }

  lemma ContainsMeansOccurs(s: string, needle: string)
    ensures Contains(s, needle) <==> exists j :: OccursAt(s, needle, j)
  {
  }

  /** A one-character needle occurs exactly where the character does. */
  lemma ContainsChar(s: string, c: char)
    ensures Contains(s, [c]) <==> c in s
  {
    if c in s {
      var j :| 0 <= j < |s| && s[j] == c;
      assert OccursAt(s, [c], j);
    }
    if Contains(s, [c]) {
      var j := FindFrom(s, [c], 0).value;
      assert s[j..j + 1] == [c];
      assert s[j] == c;
    }
  }

  // ---------------------------------------------------------------------------
  // Replacing, splitting, lines

  /** `str_replace($search, $replace, $s)` for one non-empty search string:
      occurrences are replaced left to right without overlapping. */
  function ReplaceAll(s: string, search: string, replace: string): (r: string)
    requires |search| > 0
    decreases |s|
  {
    if |s| == 0 then ""
    else if search <= s then replace + ReplaceAll(s[|search|..], search, replace)
    else [s[0]] + ReplaceAll(s[1..], search, replace)
  }

  /** `toUnix`: `str_replace(["\r\n", "\r"], "\n", $s)`, which replaces the
      first search string everywhere, then the second. */
  function ToUnix(s: string): (r: string)
    ensures '\r' !in r
    ensures '\r' !in s ==> r == s
  {
    var t := ReplaceAll(s, "\r\n", "\n");
    ReplaceAllRemovesChar(t, '\r', "\n");
    NoCarriageReturnUnchanged(s);
    ReplaceAll(t, "\r", "\n")
  }

  lemma NoCarriageReturnUnchanged(s: string)
    ensures '\r' !in s ==> ReplaceAll(ReplaceAll(s, "\r\n", "\n"), "\r", "\n") == s
  {
    if '\r' !in s {
      ReplaceAllAbsent(s, "\r\n", "\n");
      ReplaceAllAbsent(s, "\r", "\n");
    }
  }

  lemma {:induction false} ReplaceAllRemovesChar(s: string, c: char, replace: string)
    requires c !in replace
    ensures c !in ReplaceAll(s, [c], replace)
    decreases |s|
  {
    if |s| > 0 {
      if [c] <= s {
        ReplaceAllRemovesChar(s[1..], c, replace);
      } else {
        ReplaceAllRemovesChar(s[1..], c, replace);
      }
    }
  }

  lemma {:induction false} ReplaceAllAbsent(s: string, search: string, replace: string)
    requires |search| > 0 && search[0] !in s
    ensures ReplaceAll(s, search, replace) == s
    decreases |s|
  {
    if |s| > 0 {
      assert !(search <= s);
      ReplaceAllAbsent(s[1..], search, replace);
    }
  }

  /** Reference reading of CR normalisation in one left-to-right pass: a CR LF
      pair or a lone CR becomes one LF. */
  function UnixEol(s: string): string
    decreases |s|
  {
    if |s| == 0 then ""
    else if s[0] == '\r' && |s| > 1 && s[1] == '\n' then "\n" + UnixEol(s[2..])
    else if s[0] == '\r' then "\n" + UnixEol(s[1..])
    else [s[0]] + UnixEol(s[1..])
  }

  /** The two sequential replacements of `toUnix` agree with the one-pass reading. */
  lemma {:induction false} ToUnixIsOnePass(s: string)
    ensures ToUnix(s) == UnixEol(s)
    decreases |s|
  {
    if |s| > 0 {
      var t := ReplaceAll(s, "\r\n", "\n");
      if s[0] == '\r' && |s| > 1 && s[1] == '\n' {
        assert "\r\n" <= s;
        var t' := ReplaceAll(s[2..], "\r\n", "\n");
        assert t == "\n" + t';
        assert !("\r" <= t);
        assert t[1..] == t';
        ToUnixIsOnePass(s[2..]);
      } else if s[0] == '\r' {
        assert !("\r\n" <= s);
        var t' := ReplaceAll(s[1..], "\r\n", "\n");
        assert t == "\r" + t';
        assert t[1..] == t';
        ToUnixIsOnePass(s[1..]);
      } else {
        assert !("\r\n" <= s);
        var t' := ReplaceAll(s[1..], "\r\n", "\n");
        assert t == [s[0]] + t';
        assert !("\r" <= t);
        assert t[1..] == t';
        ToUnixIsOnePass(s[1..]);
      }
    }
  }

  /** Parts joined back with the separator between them (`implode`). */
  function Join(parts: seq<string>, sep: string): string
    decreases |parts|
  {
    if |parts| == 0 then ""
    else if |parts| == 1 then parts[0]
    else parts[0] + sep + Join(parts[1..], sep)
  }

  /** `explode($sep, $s)` without a limit: every part is free of the
      separator and joining the parts gives back the input. */
  function Explode(s: string, sep: string): (parts: seq<string>)
    requires |sep| > 0
    ensures |parts| >= 1
    ensures Join(parts, sep) == s
    ensures forall i :: 0 <= i < |parts| ==> !Contains(parts[i], sep)
    decreases |s|
  {
    match FindFrom(s, sep, 0)
    case None => [s]
    case Some(p) =>
      NoEarlierOccurrence(s, sep, p);
      SplitAround(s, sep, p);
      var rest := Explode(s[p + |sep|..], sep);
      JoinCons(s[..p], rest, sep);
      [s[..p]] + rest
  }

  lemma JoinCons(head: string, rest: seq<string>, sep: string)
    requires |rest| >= 1
    ensures Join([head] + rest, sep) == head + sep + Join(rest, sep)
  {
    assert ([head] + rest)[1..] == rest;
  }

  /** `explode($sep, $s, $limit)` with a positive limit: at most `limit`
      parts, the last one holding the rest of the string. */
  function ExplodeLimit(s: string, sep: string, limit: nat): (parts: seq<string>)
    requires |sep| > 0 && limit >= 1
    ensures 1 <= |parts| <= limit
    ensures Join(parts, sep) == s
    ensures forall i :: 0 <= i < |parts| - 1 ==> !Contains(parts[i], sep)
    decreases limit
  {
    if limit == 1 then [s]
    else
      match FindFrom(s, sep, 0)
      case None => [s]
      case Some(p) =>
        NoEarlierOccurrence(s, sep, p);
        SplitAround(s, sep, p);
        var rest := ExplodeLimit(s[p + |sep|..], sep, limit - 1);
        JoinCons(s[..p], rest, sep);
        [s[..p]] + rest
  }

  /** The first piece keeps the text's first character when the separator
      starts with a different one. */
  lemma ExplodeLimitHead(s: string, sep: string, limit: nat)
    requires |sep| > 0 && limit >= 1 && |s| > 0 && sep[0] != s[0]
    ensures var parts := ExplodeLimit(s, sep, limit);
      |parts[0]| > 0 && parts[0][0] == s[0]
  {
    var parts := ExplodeLimit(s, sep, limit);
    if |parts| > 1 {
      var head := parts[0] + sep;
      assert s == head + Join(parts[1..], sep);
      assert s[0] == head[0];
    }
  }

  lemma SplitAround(s: string, sep: string, p: nat)
    requires OccursAt(s, sep, p)
    ensures s == s[..p] + sep + s[p + |sep|..]
  {
    assert s == s[..p] + s[p..p + |sep|] + s[p + |sep|..];
  }

  /** The text before the first occurrence of `sep` does not contain it. */
  lemma NoEarlierOccurrence(s: string, sep: string, p: nat)
    requires |sep| > 0 && FindFrom(s, sep, 0) == Some(p)
    ensures !Contains(s[..p], sep)
  {
    forall j | 0 <= j
      ensures OccursAt(s[..p], sep, j) ==> j < p && OccursAt(s, sep, j)
    {
      if j + |sep| <= p {
        assert s[..p][j..j + |sep|] == s[j..j + |sep|];
      }
    }
    ContainsMeansOccurs(s[..p], sep);
  }

  /** A one-character separator that does not occur leaves the string whole. */
  lemma ExplodeWithoutSeparator(s: string, c: char)
    requires c !in s
    ensures Explode(s, [c]) == [s]
    ensures ExplodeLimit(s, [c], 2) == [s]
  {
    ContainsChar(s, c);
    ContainsMeansOccurs(s, [c]);
  }

  /** A one-character separator absent from `k` is first found right after it. */
  lemma FirstOccurrence(k: string, c: char, v: string)
    requires c !in k
    ensures FindFrom(k + [c] + v, [c], 0) == Some(|k|)
  {
    var s := k + [c] + v;
    assert s[|k|..|k| + 1] == [c];
    forall j | 0 <= j < |k|
      ensures !OccursAt(s, [c], j)
    {
      assert s[j..j + 1][0] == k[j];
    }
    assert OccursAt(s, [c], |k|);
    var f := FindFrom(s, [c], 0);
    assert f.Some? && f.value <= |k|;
  }

  /** Splitting in two at the first occurrence of a one-character separator. */
  lemma ExplodeAtFirst(k: string, c: char, v: string)
    requires c !in k
    ensures ExplodeLimit(k + [c] + v, [c], 2) == [k, v]
  {
    var s := k + [c] + v;
    FirstOccurrence(k, c, v);
    assert s[..|k|] == k;
    assert s[|k| + 1..] == v;
  }

  /** Exploding peels off the text before the first separator. */
  lemma ExplodeFirstPiece(k: string, c: char, v: string)
    requires c !in k
    ensures Explode(k + [c] + v, [c]) == [k] + Explode(v, [c])
  {
    var s := k + [c] + v;
    FirstOccurrence(k, c, v);
    assert s[..|k|] == k;
    assert s[|k| + 1..] == v;
  }

  /** `split($separator, $limit)`: `explode` with the limit only when it is positive. */
  function Split(s: string, sep: string, limit: int): (parts: seq<string>)
    requires |sep| > 0
    ensures |parts| >= 1
    ensures Join(parts, sep) == s
  {
    if limit > 0 then ExplodeLimit(s, sep, limit) else Explode(s, sep)
  }

  /** `split($sep, 2)`, as the parser uses it on `=`: one part equal to the
      input when the separator is absent; otherwise a separator-free head and
      the rest, which put back together give the input. */
  lemma SplitInTwo(s: string, sep: string)
    requires |sep| > 0
    ensures var parts := Split(s, sep, 2);
      && (!Contains(s, sep) <==> parts == [s])
      && (Contains(s, sep) ==>
            |parts| == 2 && !Contains(parts[0], sep) && parts[0] + sep + parts[1] == s
            && parts[0] == s[..FindFrom(s, sep, 0).value])
  {
    var parts := Split(s, sep, 2);
    if Contains(s, sep) {
      var p := FindFrom(s, sep, 0).value;
      assert parts == [s[..p]] + ExplodeLimit(s[p + |sep|..], sep, 1);
    } else {
      assert parts == [s];
    }
  }

  /** `split` of a non-empty text at a one-character separator has an empty
      head exactly when the text starts with that character. */
  lemma SplitHeadEmpty(s: string, c: char)
    requires |s| > 0
    ensures Split(s, [c], 2)[0] == "" <==> s[0] == c
  {
    SplitInTwo(s, [c]);
    if Contains(s, [c]) {
      var p := FindFrom(s, [c], 0).value;
      assert s[0] == c <==> OccursAt(s, [c], 0);
    } else {
      ContainsChar(s, c);
      assert s[0] in s;
    }
  }

  /** `explodeWith($sep, $content)`: the pieces of `explode`, with the
      separator itself placed between consecutive pieces. */
  function ExplodeWith(sep: string, content: string): (r: seq<string>)
    requires |sep| > 0
    ensures |r| % 2 == 1
    ensures Concat(r) == content
    ensures forall i :: 0 <= i < |r| && i % 2 == 1 ==> r[i] == sep
    ensures forall i :: 0 <= i < |r| && i % 2 == 0 ==> !Contains(r[i], sep)
  {
    var parts := Explode(content, sep);
    ConcatInterleave(parts, sep);
    PiecesFree(parts, sep);
    Interleave(parts, sep)
  }

  /** The pieces of an interleaving keep a property every part has. */
  lemma PiecesFree(parts: seq<string>, sep: string)
    requires |parts| >= 1
    requires forall k :: 0 <= k < |parts| ==> !Contains(parts[k], sep)
    ensures var r := Interleave(parts, sep);
      forall i :: 0 <= i < |r| && i % 2 == 0 ==> !Contains(r[i], sep)
  {
    var r := Interleave(parts, sep);
    forall i | 0 <= i < |r| && i % 2 == 0
      ensures !Contains(r[i], sep)
    {
      assert r[2 * (i / 2)] == parts[i / 2];
    }
  }

  function Interleave(parts: seq<string>, sep: string): (r: seq<string>)
    ensures |parts| >= 1 ==> |r| == 2 * |parts| - 1
    ensures forall k :: 0 <= k < |parts| ==> r[2 * k] == parts[k]
    ensures forall i :: 0 <= i < |r| && i % 2 == 1 ==> r[i] == sep
    decreases |parts|
  {
    if |parts| <= 1 then parts
    else
      var rest := Interleave(parts[1..], sep);
      InterleaveCons(parts[0], parts[1..], sep, rest);
      assert [parts[0]] + parts[1..] == parts;
      [parts[0], sep] + rest
  }

  /** Putting a piece and a separator in front of an interleaving of `tail`
      interleaves the longer list. */
  lemma InterleaveCons(p: string, tail: seq<string>, sep: string, rest: seq<string>)
    requires |tail| >= 1 && |rest| == 2 * |tail| - 1
    requires forall k :: 0 <= k < |tail| ==> rest[2 * k] == tail[k]
    requires forall i :: 0 <= i < |rest| && i % 2 == 1 ==> rest[i] == sep
    ensures var r := [p, sep] + rest;
      && |r| == 2 * (|tail| + 1) - 1
      && (forall k :: 0 <= k < |tail| + 1 ==> r[2 * k] == ([p] + tail)[k])
      && (forall i :: 0 <= i < |r| && i % 2 == 1 ==> r[i] == sep)
  {
    var r := [p, sep] + rest;
    forall k | 0 <= k < |tail| + 1
      ensures r[2 * k] == ([p] + tail)[k]
    {
      if k > 0 {
        assert r[2 * k] == rest[2 * (k - 1)];
      }
    }
    forall i | 0 <= i < |r| && i % 2 == 1
      ensures r[i] == sep
    {
      if i > 1 {
        assert r[i] == rest[i - 2];
        assert (i - 2) % 2 == 1;
      }
    }
  }

  /** Concatenation of a list of strings. */
  function Concat(pieces: seq<string>): string
    decreases |pieces|
  {
    if |pieces| == 0 then "" else pieces[0] + Concat(pieces[1..])
  }

  lemma {:induction false} ConcatInterleave(parts: seq<string>, sep: string)
    requires |parts| >= 1
    ensures Concat(Interleave(parts, sep)) == Join(parts, sep)
    decreases |parts|
  {
    if |parts| > 1 {
      var tail := parts[1..];
      var rest := Interleave(tail, sep);
      var r := [parts[0], sep] + rest;
      assert Interleave(parts, sep) == r;
      assert r[1..] == [sep] + rest;
      assert ([sep] + rest)[1..] == rest;
      assert Concat(r) == parts[0] + (sep + Concat(rest));
      ConcatInterleave(tail, sep);
      assert [parts[0]] + tail == parts;
      JoinCons(parts[0], tail, sep);
      AppendAssoc(parts[0], sep, Join(tail, sep));
    }
  }

  /** `lines($onlyLines, $fixToUnixEol)`: the pieces of `explodeWith("\n")`;
      with `$onlyLines` only the truthy pieces other than "\n" are kept. */
  function Lines(s: string, onlyLines: bool, fixToUnixEol: bool): (r: seq<string>)
    ensures !onlyLines ==> Concat(r) == (if fixToUnixEol then ToUnix(s) else s)
    ensures onlyLines ==> forall i :: 0 <= i < |r| ==> Truthy(r[i]) && r[i] != "\n"
  {
    var content := if fixToUnixEol then ToUnix(s) else s;
    var a := ExplodeWith("\n", content);
    if onlyLines then KeepTextLines(a) else a
  }

  function KeepTextLines(a: seq<string>): (r: seq<string>)
    ensures forall i :: 0 <= i < |r| ==> Truthy(r[i]) && r[i] != "\n"
    ensures forall x :: x in a && Truthy(x) && x != "\n" ==> x in r
    ensures forall x :: x in r ==> x in a
  {
    if |a| == 0 then []
    else (if Truthy(a[0]) && a[0] != "\n" then [a[0]] else []) + KeepTextLines(a[1..])
  }

  /** `lines(false, true)` alternates line pieces with "\n" separators; the
      pieces put back together give the CR-normalised input and no line piece
      holds a line feed. */
  lemma LinesAlternate(s: string)
    ensures var r := Lines(s, false, true);
      && |r| % 2 == 1
      && Concat(r) == ToUnix(s)
      && (forall i :: 0 <= i < |r| && i % 2 == 1 ==> r[i] == "\n")
      && (forall i :: 0 <= i < |r| && i % 2 == 0 ==> '\n' !in r[i])
  {
    var r := Lines(s, false, true);
    assert r == ExplodeWith("\n", ToUnix(s));
    forall i | 0 <= i < |r| && i % 2 == 0
      ensures '\n' !in r[i]
    {
      ContainsChar(r[i], '\n');
    }
  }

  // ---------------------------------------------------------------------------
  // Appending

  /** `u` is `n` copies of `t` back to back. */
  predicate IsRepeat(u: string, t: string, n: nat)
    decreases n
  {
    if n == 0 then u == "" else t <= u && IsRepeat(u[|t|..], t, n - 1)
  }

  lemma {:induction false} RepeatSnoc(u: string, t: string, n: nat)
    requires IsRepeat(u, t, n)
    ensures IsRepeat(u + t, t, n + 1)
    decreases n
  {
    if n > 0 {
      assert (u + t)[|t|..] == u[|t|..] + t;
      RepeatSnoc(u[|t|..], t, n - 1);
    } else {
      assert (u + t)[|t|..] == "";
    }
  }

  lemma RepeatCons(u: string, t: string, n: nat)
    requires IsRepeat(u, t, n)
    ensures IsRepeat(t + u, t, n + 1)
  {
    assert (t + u)[|t|..] == u;
  }

  /** `append($str, $repeats)`: the receiver followed by `$repeats` copies of `$str`. */
  method Append(s: string, t: string, repeats: int) returns (r: string)
    ensures s <= r
    ensures IsRepeat(r[|s|..], t, if repeats > 0 then repeats else 0)
  {
    r := s;
    var i := 0;
    assert r[|s|..] == "";
    while i < repeats
      invariant 0 <= i && (repeats > 0 ==> i <= repeats) && (repeats <= 0 ==> i == 0)
      invariant s <= r && IsRepeat(r[|s|..], t, i)
    {
      RepeatSnoc(r[|s|..], t, i);
      assert (r + t)[|s|..] == r[|s|..] + t;
      r := r + t;
      i := i + 1;
    }
  }

  /** `prepend($str, $repeats)`: `$repeats` copies of `$str` followed by the receiver. */
  method Prepend(s: string, t: string, repeats: int) returns (r: string)
    ensures |s| <= |r| && r[|r| - |s|..] == s
    ensures IsRepeat(r[..|r| - |s|], t, if repeats > 0 then repeats else 0)
  {
    r := s;
    var i := 0;
    assert r[..|r| - |s|] == "";
    while i < repeats
      invariant 0 <= i && (repeats > 0 ==> i <= repeats) && (repeats <= 0 ==> i == 0)
      invariant |s| <= |r| && r[|r| - |s|..] == s
      invariant IsRepeat(r[..|r| - |s|], t, i)
    {
      var pre := r[..|r| - |s|];
      RepeatCons(pre, t, i);
      assert (t + r)[..|t + r| - |s|] == t + pre;
      assert (t + r)[|t + r| - |s|..] == r[|r| - |s|..];
      r := t + r;
      i := i + 1;
    }
  }

  // ---------------------------------------------------------------------------
  // Sequence helpers

  /** A non-empty front part gives up its first element. */
  lemma ConsAppend<T>(a: seq<T>, b: seq<T>)
    requires |a| > 0
    ensures a + b == [a[0]] + (a[1..] + b)
  {
    assert a == [a[0]] + a[1..];
  }

  lemma SnocRest<T>(x: seq<T>, a: seq<T>)
    requires |a| > 0
    ensures x + [a[0]] + a[1..] == x + a
    ensures |a| == 1 ==> a == [a[0]]
  {
    assert a == [a[0]] + a[1..];
  }

  lemma AppendEmpty<T>(a: seq<T>)
    ensures a + [] == a && [] + a == a
  {
  }

  lemma AppendAssoc<T>(a: seq<T>, b: seq<T>, c: seq<T>)
    ensures a + (b + c) == a + b + c
  {
  }

  /** Two wrapped parts side by side are one wrapped part whose middle holds
      the closing and opening wrappers. */
  lemma WrapTwo<T>(o: seq<T>, a: seq<T>, c: seq<T>, b: seq<T>)
    ensures (o + a + c) + (o + b + c) == o + (a + (c + o) + b) + c
  {
  }
}

=== FILE: types.dfy ===
/** Values shared by the parser's stages: the fragments a key's value is
    assembled from, and the errors a parse can end with. */
module Types {

  /** One piece of a value: its text and whether `$NAME` / `${...}`
      references in it are substituted (false only for single-quoted text). */
  datatype Fragment = Fragment(text: string, resolve: bool)

  /** Why a parse stops without a result.
      - `Syntax`: `newSyntaxException`, with the 1-based physical line number.
      - `Substitution`: a reference whose name itself starts with `$`.
      - `OutOfFuel`: the bounded model gave up; the parser it models never
        returns on such input or needs more iterations than the fuel allows. */
  datatype Error =
    | Syntax(line: nat, reason: string)
    | Substitution(expression: string)
    | OutOfFuel

  const NoLeftPart: string := "No left part"
  const WhitespaceDelimiters: string := "Whitespaces can not be used as delimiters"
  const BrokenQuotes: string := "Broken quotes"

  const SyntaxPrefix: string := "Syntax error in line "

  /** The exception message of the two error kinds the parser throws. */
  function Message(e: Error): (msg: string)
    requires e.Syntax? || e.Substitution?
    ensures e.Syntax? ==> SyntaxPrefix <= msg && ReadLineNumber(msg) == e.line
    ensures e.Syntax? ==> |msg| >= |e.reason| && msg[|msg| - |e.reason|..] == e.reason
  {
    match e
    case Syntax(line, reason) =>
      var msg := SyntaxPrefix + (Decimal(line) + (". " + reason));
      assert msg[|SyntaxPrefix|..] == Decimal(line) + (". " + reason);
      assert msg[|msg| - |reason|..] == reason;
      DigitRunOfDecimal(Decimal(line), ". " + reason);
      DecimalRoundTrip(line);
      msg
    case Substitution(expression) =>
      "Invalid substitution in expression [" + expression + "]"
  }

  /** The line number a syntax error message reports: the digits after the prefix. */
  function ReadLineNumber(msg: string): nat
  {
    if SyntaxPrefix <= msg then DecimalValue(DigitRun(msg[|SyntaxPrefix|..])) else 0
  }

  predicate IsDigit(c: char) {
    '0' <= c <= '9'
  }

  /** The longest prefix of `s` made of decimal digits. */
  function DigitRun(s: string): (r: string)
    ensures r <= s && forall i :: 0 <= i < |r| ==> IsDigit(r[i])
    ensures |r| < |s| ==> !IsDigit(s[|r|])
    decreases |s|
  {
    if |s| > 0 && IsDigit(s[0]) then [s[0]] + DigitRun(s[1..]) else ""
  }

  lemma {:induction false} DigitRunOfDecimal(d: string, tail: string)
    requires forall i :: 0 <= i < |d| ==> IsDigit(d[i])
    requires |tail| > 0 && !IsDigit(tail[0])
    ensures DigitRun(d + tail) == d
    decreases |d|
  {
    if |d| > 0 {
      assert (d + tail)[1..] == d[1..] + tail;
      DigitRunOfDecimal(d[1..], tail);
    } else {
      assert d + tail == tail;
    }
  }

  /** PHP's integer-to-string conversion of a line number. */
  function Decimal(n: nat): (r: string)
    ensures |r| >= 1 && forall i :: 0 <= i < |r| ==> IsDigit(r[i])
    ensures r[0] == '0' ==> n == 0
  {
    if n < 10 then [DigitChar(n)] else Decimal(n / 10) + [DigitChar(n % 10)]
  }

  function DigitChar(d: nat): (c: char)
    requires d < 10
    ensures IsDigit(c)
  {
    "0123456789"[d]
  }

  /** The number a digit string denotes. */
  function DecimalValue(s: string): nat
    decreases |s|
  {
    if |s| == 0 then 0
    else
      var c := s[|s| - 1];
      DecimalValue(s[..|s| - 1]) * 10 + (if IsDigit(c) then (c as int) - ('0' as int) else 0)
  }

  lemma {:induction false} DecimalRoundTrip(n: nat)
    ensures DecimalValue(Decimal(n)) == n
    decreases n
  {
    var d := Decimal(n);
    if n >= 10 {
      DecimalRoundTrip(n / 10);
      assert d[..|d| - 1] == Decimal(n / 10);
    }
    assert DigitChar(n % 10) as int - '0' as int == n % 10;
  }
}

=== FILE: wrappers.dfy ===
/** Failure-compatible wrappers used throughout the model: `Option` for PHP's
    `null`/`false` returns and `Result` for operations that throw. */
module Wrappers {

  datatype Option<+T> = None | Some(value: T) {

    predicate IsFailure() {
      None?
    }

    function PropagateFailure<U>(): Option<U>
      requires None?
    {
      None
    }

    function Extract(): T
      requires Some?
    {
      value
    }

    /** The wrapped value, or `default` for `None` (PHP's `??`). */
    function GetOr(default: T): T {
      match this
      case Some(v) => v
      case None => default
    }
  }

  datatype Result<+R, +E> = Success(value: R) | Failure(error: E) {

    predicate IsFailure() {
      Failure?
    }

    function PropagateFailure<U>(): Result<U, E>
      requires Failure?
    {
      Failure(error)
    }

    function Extract(): R
      requires Success?
    {
      value
    }
  }
}
